=== FILE: README.md ===
# Helicopter aid-delivery solver, modelled in Dafny

The solver plans relief flights. Each helicopter is based at a home city and
flies round trips. A trip leaves the home city, drops dry food, perishable
food and other supplies at one or more villages, and returns. Every trip
must respect the helicopter's weight capacity and per-trip distance
capacity. All of a helicopter's trips together must respect the cumulative
distance budget `d_max`. A village earns value for at most nine food units
and one other-supply unit per inhabitant, counted over the whole solution.
The score is delivered value minus flight cost. Each trip costs the
helicopter's fixed cost plus `alpha` per unit of distance.

`solve` is an anytime heuristic with these parts:

- **Value.** `calculateVillageValue` gives the value of one delivery. It
  applies the caps and counts perishable units before dry ones.
- **Construction pass.** It starts with fresh demand counters. For each
  helicopter in fleet order, it builds trips until no first stop has a
  positive net value. Each trip is started at the most profitable first
  village and then extended by appending the most profitable next village,
  until none is profitable. Finishing a trip sums its pickups and decrements
  the shared demand counters.
- **Evaluator.** It re-scores a whole solution. Per-village running totals
  apply the caps once, to the whole solution.
- **Search.** It runs the construction pass repeatedly from five starting dry
  shares. Between passes an annealing-style step nudges the dry share. The
  best-scoring solution is kept.
- **Validator.** A final pass drops every trip, and then every helicopter
  plan, that breaks an invariant.

The Dafny modules follow these parts:

- `Types`: the data model, routes and distances, sums over drops, and
  truncation toward zero.
- `Value`: `calculateVillageValue`.
- `Mix`: the load computed for a candidate village.
- `Greedy`: the argmax with a zero threshold and the first-wins tie rule.
- `Construct`: first stop, extension, finalisation, one helicopter's plan,
  and one pass over the fleet.
- `Evaluate`: the score.
- `Validate`: the final pass.
- `Search`: the restarts, the step adaptation and clamping, best-value
  bookkeeping, and `solve` itself.

The main results are these:

- Every trip the construction pass builds is one the validator keeps. With
  non-negative capacities and populations, the validator only removes plans
  that have no trip (`Construct.BuildSolution`, `Search.Solve`).
- The demand counters go down by exactly what the plans deliver
  (`Construct.BuildPlan`). So no village is sent more than its caps, and
  the evaluator's score counts every delivered unit.
- The validator's output is feasible and is a sub-solution of its input. It
  keeps an already-feasible solution unchanged, and running it twice gives
  the same result as running it once.

The distance function is a parameter (`Metric`). The constructor assumes it
is symmetric, as the Euclidean distance is. The deadline is a tick
allowance: one tick per search iteration and one per first-stop scan (the
scan that starts a trip, including the last one, which finds none). The
random acceptance draw is an oracle `draw(n)` that gives the outcome of the
n-th draw.

One round of a helicopter's trip loop is modelled as a step between
states, a state being the distance budget and the demand counters
(`Construct.Advance`). From a state, the round accepts a trip exactly when
the trip carries the drops that StartTrip and Extend build there, with the
pickups those drops add up to. `Construct.Replay` runs the steps over a
sequence of trips. A plan is a run of the loop (`Construct.PlanRun`) when the
replay accepts all of its trips. With ticks left, the run must also end in a
state from which no round is possible or the budget is at most 1e-6.

One point where the code decides the behaviour: the constructor values a
candidate village with `calculateVillageValue` on the load alone. It does
not use what the village has already received (solver.cpp:131 and
solver.cpp:202); instead, the load is bounded by the remaining demand
counters. Only the evaluator values drops against running totals. The model
follows the code.

## Model

| member | source | states |
|---|---|---|
| `Value.CountedUnits` | solver.cpp:14-34 | The counted food is the delivered food capped at nine per inhabitant. Perishable units are counted first; dry units are counted only when every perishable unit is. Other supplies are capped at the population. Nothing beyond a cap is counted, whatever the inputs. |
| `Value.MarginalDry` | solver.cpp:14-34 | One more dry unit adds the dry unit value below the food cap, and nothing at or above it. |
| `Value.MarginalPerishable` | solver.cpp:14-34 | One more perishable unit adds its value below the cap. At the cap, it displaces one counted dry unit while any is counted. Once perishable units alone fill the cap, it adds nothing. |
| `Value.MarginalOther` | solver.cpp:14-34 | One more other-supply unit adds its value below the population, and nothing beyond it. |
| `Mix.FoodAmount` | solver.cpp:114 | The food amount never exceeds the remaining food demand, and its weight fits the allowance. It falls short of the demand only when one more unit would not fit. |
| `Mix.DryShare` | solver.cpp:115-116 | The dry units are the dry ratio's share of the food, rounded down. They lie between zero and the food amount. |
| `Mix.OtherFill` | solver.cpp:121-126 | Other units are never negative and never exceed the remaining demand. They fit the leftover weight. When other supplies weigh more than 1e-9 per unit, they fall short of the demand only when one more unit would not fit. When they weigh at most 1e-9, or at most 1e-9 of weight is left, there are none. |
| `Mix.Choose` | solver.cpp:114-129 | An offered load carries the food amount of `FoodAmount`, the dry share of `DryShare` and the other units of `OtherFill` for the weight left after the food. No load is offered exactly when the food alone, or food and other supplies together, weigh more than the allowance plus 1e-9. An offered load never carries more than the village still needs, and with a sane allowance and dry ratio no amount is negative. The same computation serves the appended stop at 183-198. |
| `Mix.ChooseFills` | solver.cpp:114-126 | An offered load is as large as the allowance permits. It carries less food than the village needs only when one more food unit would not fit. When other supplies weigh more than 1e-9 per unit, it carries fewer other units than needed only when one more would not fit beside the food. It carries no other units when they weigh at most 1e-9 per unit, or when at most 1e-9 of the allowance is left after the food. |
| `Greedy.Scan` | solver.cpp:103-142 | The scan returns the candidate with the greatest net value, provided that value is positive. On ties it returns the earliest such candidate. |
| `Greedy.Best` | solver.cpp:135-144 | There is no choice exactly when no candidate has a positive net value. Otherwise the choice has the maximal net value, and every earlier candidate has a strictly smaller one. |
| `Construct.InitialDemand` | solver.cpp:80-85 | There is one food and one other counter per village. The food counter starts at nine units per inhabitant and the other counter at one unit per inhabitant, so they are non-negative when populations are. |
| `Construct.FirstCandidate` | solver.cpp:103-141 | A village is a first-stop candidate exactly when four conditions hold. It still has demand. Its direct round trip fits both the distance capacity and the remaining budget. The blended food weight is at least 1e-9. A load fits the weight capacity. The candidate's load is then that load, and its net value is the load's value minus the fixed cost and alpha times the round trip. |
| `Construct.StartTrip` | solver.cpp:99-154 | The new trip has one drop, respects every trip invariant and is non-negative. There is no trip exactly when no first stop has a positive net value. Otherwise its one stop is the scan's pick: a candidate with a positive net value that no village beats and no earlier village equals. The drop carries that candidate's load, and the trip's weight is the load's weight. |
| `Construct.AppendCandidate` | solver.cpp:162-210 | A village is an append candidate exactly when five conditions hold. It is not yet on the trip and still has demand. The longer route fits both distance limits. Weight room above 1e-9 remains. A load fits that room and carries at least one unit. The candidate's load is then that load, and its net value is the load's value minus alpha times the detour. |
| `Construct.Appended` | solver.cpp:213-217 | Appending the chosen candidate adds its drop and its village at the end and keeps every trip invariant. |
| `Construct.Extend` | solver.cpp:156-221 | Extension only appends, so the trip so far is kept. The result keeps every invariant: no village twice, no empty appended drop, within demand, route and load within capacity. No village can then be appended with a positive net value. `Construct.ExtendPicks` states which drops it appends. |
| `Construct.ExtendPicks` | solver.cpp:156-221 | Every drop that extension appends is the append scan's pick on the trip made of the drops before it. Its candidate has a positive net value that no village beats and no earlier village equals, and the drop carries that candidate's load. |
| `Construct.Finalise` | solver.cpp:223-235 | Each pickup equals the sum of the drops' quantities. A non-negative counter stays non-negative. With non-negative drops and counters, each counter goes down by what the trip brings its village, floored at zero, and never goes up. |
| `Construct.TripDelivers` | solver.cpp:147-215 | Within one trip, a village not on the route gets nothing. A village on it gets no more than its counter, since it is visited once and its load is bounded by the counter. |
| `Construct.TripAccounted` | solver.cpp:227-235 | For a well-built trip, the floor at zero never applies: each counter decreases by exactly what the trip delivers. |
| `Construct.StopsDistinct` | solver.cpp:165 | A trip's drops go to distinct villages, since a village already on the trip is never appended. |
| `Construct.AccountedChain` | solver.cpp:227-235 | Decrements of consecutive trips compose: the counters fall by what all of their drops deliver. |
| `Construct.FinishedTripKept` | solver.cpp:223-246 | A finished trip has a drop, valid and distinct village ids, matching pickups, and a route and load within capacity. When its drops are non-negative and the distance already used plus its budget is within `d_max`, it passes every validator check. |
| `Construct.BuildPlan` | solver.cpp:87-247 | Every trip is non-empty and within the helicopter's capacities, and the trip distances sum to at most `d_max`. With sane inputs, the trip sequence passes the validator in order. The counters stay non-negative and decrease by exactly the plan's deliveries. The plan is a run of the plan loop (`PlanRun`): its trips are the ones the rounds build, one after the other, from `d_max` and the starting counters, ending at the counters returned. While ticks remain, the plan ends only when what is left of `d_max` is at most 1e-6 or the round adds no trip, that is, no first stop is profitable. One tick is spent per trip, plus at most one for a last round that starts no trip. |
| `Construct.PlanTrips` | solver.cpp:97-246 | The trip loop keeps the plan invariant: trips within capacity and feasible in order, counters decreased by exactly what was delivered, and the budget equal to `d_max` minus the distance flown. Replaying the loop's round trip by trip from `d_max` and the starting counters accepts every trip and ends at the final budget and counters. Each round spends one tick, including a last round that starts no trip. With ticks left and budget above 1e-6, it stops only when no first stop is profitable. |
| `Construct.NextTrip` | solver.cpp:99-246 | One round of the loop gives no trip exactly when no first stop is profitable. Otherwise the trip's drops are StartTrip's pick extended by Extend (`RoundDrops`), its pickups are the drop sums, and the counters left are those after serving its drops in order. The new trip keeps the plan invariant, with the budget reduced by the trip's distance. |
| `Construct.StepTaken` | solver.cpp:144-246 | When a trip carries the drops that StartTrip and Extend build from a budget and counters, with matching pickups, the plan loop's round accepts it. The budget then drops by the trip's distance, and the counters become those after serving its drops. |
| `Construct.ReplayAppend` | solver.cpp:97-246 | When the replay of some trips ends in a state, and the round accepts one more trip from that state, the replay of the longer sequence ends where that round leads. |
| `Construct.NoStartNoStep` | solver.cpp:144 | When no first stop is profitable, the round accepts no trip at all, so the loop stops. |
| `Construct.PlanRunDone` | solver.cpp:97-246 | A replay that ends at the loop's final budget and counters, together with the loop's stop condition, is a run of the plan loop. |
| `Construct.NextPlan` | solver.cpp:87-249 | One more helicopter's plan is appended and the earlier plans are unchanged. The pass invariant is kept: plans built and feasible, and counters decreased by exactly everything delivered so far. The new plan is the plan loop's run for that helicopter from the given counters, ending at the counters returned, including the stop condition. Its trips and its last round account for the ticks it spent. |
| `Construct.FleetRanAppend` | solver.cpp:87-249 | The runs of the first helicopters, followed by the run of the next helicopter from where they ended, are the runs of the longer pass. |
| `Construct.NeverOversupplied` | solver.cpp:80-85 | Counters that start at the caps and never go negative mean that no village was sent more than nine food units or one other unit per inhabitant. |
| `Construct.BuildSolution` | solver.cpp:77-249 | Plan k belongs to helicopter k + 1 and every id is valid. Plan by plan, in fleet order, the solution is the plan loop's runs (`FleetRan`), each with its stop condition. The first run starts from fresh counters and the full allowance, and each later run starts from the counters and ticks the previous one left. While ticks remain, every helicopter gets its plan. With non-negative inputs: every plan passes validation whole, and the validator removes only the empty plans. No village exceeds its caps, and the score equals the full worth of the deliveries minus their cost. |
| `Evaluate.DropCounted` | solver.cpp:274-291 | Each drop is counted against the room its village's running totals leave. Perishable units are counted first, and nothing beyond the drop or the room is counted. For a non-negative drop, food counted is exactly the smaller of the drop's food and the food room, and other supplies counted are exactly the smaller of the drop's other units and the other room. |
| `Evaluate.Record` | solver.cpp:285-291 | The running totals grow by the whole drop, counted or not, at that village only. |
| `Evaluate.CountedFoodWithinCap` | solver.cpp:274-285 | Over any sequence of drops, the food counted for a village never exceeds nine per inhabitant minus what was already recorded. |
| `Evaluate.CountedOtherWithinCap` | solver.cpp:287-291 | Over any sequence of drops, the other supplies counted for a village never exceed its population minus what was already recorded. |
| `Evaluate.SolutionWithinCaps` | solver.cpp:251-295 | Over a whole solution, each village's counted food and other supplies are within its caps, across all helicopters and trips. |
| `Evaluate.FirstDropValue` | solver.cpp:274-291 | A village's first drop is valued exactly as `calculateVillageValue` values it. |
| `Evaluate.UncappedValue` | solver.cpp:274-292 | When no village is sent more than its caps, every delivered unit counts at its unit value. |
| `Evaluate.ValueConcat` | solver.cpp:252-292 | The running totals are never reset between trips or plans. The value of two drop lists, one after the other, is the value of the first plus the value of the second counted from the totals the first leaves. |
| `Evaluate.TripsCostTotal` | solver.cpp:258-270 | When every trip has a drop, a plan's cost is the fixed cost once per trip plus alpha times its total distance. |
| `Validate.FilterTrips` | solver.cpp:357-398 | The kept trips are a subsequence of the plan's trips, in order. Each passes every check against the running distance total. |
| `Validate.FeasibleTrips` | solver.cpp:357-398 | Every kept trip is non-empty, has pickups equal to its drop sums and no negative quantity, and fits the distance and weight capacities plus 1e-9. The distance total stays within `d_max` plus 1e-9. |
| `Validate.ValidatePlan` | solver.cpp:349-398 | The plan keeps its helicopter and keeps a feasible subsequence of its trips. |
| `Validate.ValidateSolution` | solver.cpp:348-403 | Every output plan is valid and non-empty. The output is the input with plans and trips removed, in order, helicopter ids unchanged. |
| `Validate.ValidateMapFilter` | solver.cpp:348-403 | The pass over a solution is the pass over each plan, followed by the removal of the plans left with no trip. |
| `Validate.ValidateKeepsNonEmpty` | solver.cpp:348-403 | A plan is in the output exactly when it is the non-empty result of the pass over one of the input plans. |
| `Validate.FeasibleKept` | solver.cpp:357-398 | Trips that all pass are all kept. |
| `Validate.KeptIffFeasible` | solver.cpp:357-398 | A plan's trips come through unchanged exactly when they are feasible in order. |
| `Validate.FilterIdempotent` | solver.cpp:357-398 | Filtering a plan's trips twice gives the same result as filtering them once. |
| `Validate.ValidSolutionKept` | solver.cpp:348-403 | A solution whose plans are all valid comes through unchanged. |
| `Validate.ValidateIdempotent` | solver.cpp:348-403 | Validating twice gives the same result as validating once. |
| `Validate.FeasibleAppend` | solver.cpp:389-397 | A feasible trip sequence stays feasible when a trip that passes against the distance already used is appended. |
| `Validate.FilterSnoc` | solver.cpp:357-398 | Each trip is judged against the distance of the trips kept before it. Filtering a list with one more trip at the end keeps what was kept before, and adds the new trip exactly when it passes against that distance. |
| `Validate.NonEmptyPlans` | solver.cpp:400-402 | The result is a subsequence of the input. It holds every plan that has trips, and only such plans. |
| `Validate.FeasiblePlansKept` | solver.cpp:348-403 | When every trip of every plan passes, validation removes only the plans without trips. |
| `Validate.NoEmptyPlans` | solver.cpp:400-402 | A solution without an empty plan loses no plan when empty plans are removed. |
| `Search.Clamp` | solver.cpp:339-341 | The result lies in the range. It equals the input inside the range, and the nearer bound outside it. |
| `Search.Start` | solver.cpp:57-69 | A restart begins at its starting dry share with the first-iteration flag set, in a tuned state. |
| `Search.Adapt` | solver.cpp:315-342 | The direction flips exactly on a rejected worse score. The step in effect is the old step on the first pass and after an accepted worse score, 0.9 times it after a rejection, and 1.1 times it after a score that did not fall. The ratio moves by exactly that step in the new direction (a direction of 1 or -1, the only values it takes), then the ratio is clamped to [0, 1] and the step to [0.05, 0.3]. Hence the ratio moves by at most 1.1 times the old step. A rejection never lengthens the step, and a score that did not fall never shortens it. The ratio, the complementary perishable share and the step are clamped, and the temperature cools by 0.95. |
| `Search.Note` | solver.cpp:297-309 | The best score becomes the larger of the old best and the new score. The stall count resets exactly on a gain of at least 0.01, or on the first score; otherwise it grows by one. |
| `Search.NoGainStalls` | solver.cpp:297-313 | Scores that never exceed the best leave it in place and add one to the stall count each. So a restart without gains ends after 20 iterations. |
| `Search.Iterate` | solver.cpp:71-343 | The pass is a construction pass (`PassBuilt`) at the current dry share, given the ticks passed in. It returns the solution it built and that solution's score, which is noted. The solution becomes the best exactly when its score beats the best score, and the recorded best score is the best solution's score. A stalled restart stops adapting and makes no draw. Otherwise the tuning is `Adapt` of the score. The draw is made, and its outcome used, only when the score fell and this is not the restart's first pass. |
| `Search.PassesBuiltEach` | solver.cpp:71-296 | Every pass of a sequence of built passes is a construction pass. |
| `Search.PassNoted` | solver.cpp:297-313 | Noting one more pass keeps the passes chained: each pass is given what the previous one left less one tick. The best stays the first pass with the top score: the new pass becomes the best exactly when its score beats the best score. |
| `Search.NewBest` | solver.cpp:297-300 | A pass that beats the best score becomes the best. Every earlier pass scores strictly less than it. |
| `Search.SameBest` | solver.cpp:307-309 | A pass that does not beat the best score leaves the best in place, and the best still scores at least as much as every pass. |
| `Search.NextPass` | solver.cpp:71-343 | One iteration adds exactly one pass, spends at least one tick, and keeps the passes chained with the best the first pass with the top score. |
| `Search.Restart` | solver.cpp:53-343 | A restart runs at least one pass and spends at least one tick. It ends when the ticks run out or the score stalls, and it keeps the passes chained with the best the first pass with the top score. |
| `Search.Solve` | solver.cpp:36-406 | Every returned plan is valid, and the returned solution is the validated best. With non-negative inputs, validation removes only the empty plans, and the best solution's score counts every unit it delivers. The passes are construction passes, each given what the one before left less one tick, and any allowance buys at least one. The best is the solution of one of the passes, or empty when none ran. No pass scores more than the best, and every earlier pass scores strictly less, so ties go to the first pass. |

Some definitions have no row of their own, because lemmas about them state
their properties. `Value.VillageValue` is covered by the `Value.CountedUnits`
and `Value.Marginal*` rows. `Evaluate.ValueFrom` is covered by
`Evaluate.DropCounted`, `Evaluate.FirstDropValue`, `Evaluate.UncappedValue`
and `Evaluate.ValueConcat`. `Evaluate.TripsCost` is covered by
`Evaluate.TripsCostTotal`. `Evaluate.Score` is covered by the score clauses of
`Construct.BuildSolution` and `Search.Solve`.

## Left out

- The wall-clock deadline is modelled as a tick allowance. One tick is spent per search iteration and one per first-stop scan (each round of the trip loop, including the final scan that finds no profitable first stop), so in the model the deadline fires only between iterations, between helicopters and between trips. The source also polls inside the village scans (solver.cpp:104-105 and 163-164), which can end a scan early. The model always completes a scan it has begun.
- The time limit and the 95% safety margin (solver.cpp:38-41) are not modelled, because time is the tick allowance.
- The random draw and `exp((new - previous) / temperature)` (solver.cpp:320-323) are abstracted to the oracle `draw`, which is consulted only where the source draws. The acceptance probability is therefore not modelled.
- Floating point: `double` is modelled as exact `real`, and the 1e-9 and 1e-6 tolerances are kept as exact constants. Rounding is not modelled.
- 32-bit `int` overflow in unit counts and counters is not modelled; integers are unbounded.
- `distance` is a parameter of the model. The constructor requires it to be symmetric, because the first stop is charged `2 * distance(home, v)` (solver.cpp:109).
- The lowest double used as the initial best and previous values (solver.cpp:45 and 62) is modelled as "no score yet" (`None`) and as the first-iteration flag.
- Ids are used as `id - 1` indices in the source. The model requires dense 1-based village and helicopter ids, and existing home cities, where the source indexes.
- Construct.BuildSolution: its feasibility and accounting results assume a dry share in [0, 1] and non-negative weight capacities and populations. For other inputs the contract states only the structural facts, because loads could then be negative.
- Search.Adapt: the exact move of the dry share is stated for a direction of 1 or -1, the only values the source's direction takes (it starts at 1 and is only negated). For any other direction the contract states only that the share ends up in [0, 1].
- Reading input, writing output and the declarations in solver.h are not part of this model.
- How good the greedy choices are is not stated; only what is chosen is.

=== FILE: construct.dfy ===
/** The trip constructor of one construction pass: per helicopter, trips are
    started at the best profitable first village, extended greedily by
    appending villages at the end of the route, then finalised (pickup
    totals summed, the fleet-wide demand counters decremented) and charged
    against the helicopter's cumulative distance budget. */
module Construct {
  import opened Types
  import opened Value
  import opened Mix
  import opened Greedy
  import Validate
  import Evaluate

  /** Remaining demand of each village (by index) during one pass. */
  datatype Demand = Demand(food: seq<int>, other: seq<int>)

  predicate Sized(p: Problem, dem: Demand) {
    |dem.food| == |p.villages| && |dem.other| == |p.villages|
  }

  predicate DemandNonNegative(dem: Demand) {
    && (forall i :: 0 <= i < |dem.food| ==> dem.food[i] >= 0)
    && (forall i :: 0 <= i < |dem.other| ==> dem.other[i] >= 0)
  }

  /** Every counter of `after` is at most the matching counter of `before`. */
  predicate DemandBelow(after: Demand, before: Demand)
    requires |after.food| == |before.food| && |after.other| == |before.other|
  {
    && (forall i :: 0 <= i < |after.food| ==> after.food[i] <= before.food[i])
    && (forall i :: 0 <= i < |after.other| ==> after.other[i] <= before.other[i])
  }

  /** Fresh counters: nine food units and one other-supply unit per inhabitant. */
  function InitialDemand(p: Problem): (dem: Demand)
    ensures Sized(p, dem)
    ensures forall i :: 0 <= i < |p.villages| ==>
              dem.food[i] == 9 * p.villages[i].population && dem.other[i] == p.villages[i].population
    ensures (forall i :: 0 <= i < |p.villages| ==> p.villages[i].population >= 0) ==> DemandNonNegative(dem)
  {
    Demand(seq(|p.villages|, i requires 0 <= i < |p.villages| => 9 * p.villages[i].population),
           seq(|p.villages|, i requires 0 <= i < |p.villages| => p.villages[i].population))
  }

  /** A village is considered only while some of its demand remains. */
  predicate Wanted(dem: Demand, i: nat)
    requires i < |dem.food| && i < |dem.other|
  {
    dem.food[i] > 0 || dem.other[i] > 0
  }

  /** What the constructor needs of the input: ids are dense (the solver uses
      `id - 1` as an index), the helicopter's home city exists, and the
      distance is symmetric, as a Euclidean distance is. */
  ghost predicate Ready(dist: Metric, p: Problem, h: Helicopter) {
    DenseIds(p) && HomeInRange(p, h) && Symmetric(dist)
  }

  /** Inputs under which every quantity the constructor produces is
      non-negative. */
  predicate Sane(p: Problem, h: Helicopter, ratio: real) {
    && 0.0 <= ratio <= 1.0
    && 0.0 <= h.weightCapacity
  }

  // ---------------------------------------------------------------------------
  // A trip under construction

  /** The drops so far, the village index of each, and the weight loaded. */
  datatype Building = Building(drops: seq<Drop>, stops: seq<nat>, weight: real)

  /** Drop k serves village index stops[k], and no village twice. */
  predicate StopsMatch(p: Problem, b: Building) {
    && |b.drops| == |b.stops| >= 1
    && (forall k :: 0 <= k < |b.stops| ==> b.stops[k] < |p.villages| && b.drops[k].village == b.stops[k] + 1)
    && (forall k, l :: 0 <= k < l < |b.stops| ==> b.stops[k] != b.stops[l])
  }

  /** Every appended drop (all but the first) carries some unit. */
  predicate AppendsCarry(drops: seq<Drop>) {
    forall k :: 1 <= k < |drops| ==> drops[k].Units() != 0
  }

  /** No two drops serve the same village. */
  predicate DistinctVillages(drops: seq<Drop>) {
    forall k, l :: 0 <= k < l < |drops| ==> drops[k].village != drops[l].village
  }

  /** No drop carries more food or other supplies than was still wanted. */
  predicate WithinDemand(p: Problem, dem: Demand, b: Building)
    requires Sized(p, dem) && StopsMatch(p, b)
  {
    forall k :: 0 <= k < |b.drops| ==>
      && b.drops[k].Food() <= dem.food[b.stops[k]]
      && (dem.other[b.stops[k]] >= 0 ==> b.drops[k].other <= dem.other[b.stops[k]])
  }

  /** The route fits the per-trip distance capacity and the budget. */
  predicate RouteFits(dist: Metric, p: Problem, h: Helicopter, budget: real, b: Building)
    requires HomeInRange(p, h)
  {
    && DropsInRange(p, b.drops)
    && TripDistance(dist, p, Home(p, h), b.drops) <= h.distanceCapacity
    && TripDistance(dist, p, Home(p, h), b.drops) <= budget
  }

  /** The load is the sum of the drops and fits the weight capacity. */
  predicate LoadFits(p: Problem, h: Helicopter, b: Building) {
    && b.weight == UnitsWeight(p.packages, DrySum(b.drops), PerishableSum(b.drops), OtherSum(b.drops))
    && b.weight <= h.weightCapacity + Eps
  }

  /** The invariant of a trip under construction against `budget` and the
      demand counters `dem`. */
  predicate WellBuilt(dist: Metric, p: Problem, h: Helicopter, budget: real, dem: Demand, b: Building)
    requires HomeInRange(p, h) && Sized(p, dem)
  {
    && StopsMatch(p, b)
    && AppendsCarry(b.drops)
    && WithinDemand(p, dem, b)
    && RouteFits(dist, p, h, budget, b)
    && LoadFits(p, h, b)
  }

  /** The weight of a sum of drops is the sum of their weights. */
  lemma WeightAppend(pk: Packages, drops: seq<Drop>, d: Drop)
    ensures DrySum(drops + [d]) == DrySum(drops) + d.dry
    ensures PerishableSum(drops + [d]) == PerishableSum(drops) + d.perishable
    ensures OtherSum(drops + [d]) == OtherSum(drops) + d.other
    ensures UnitsWeight(pk, DrySum(drops + [d]), PerishableSum(drops + [d]), OtherSum(drops + [d]))
            == UnitsWeight(pk, DrySum(drops), PerishableSum(drops), OtherSum(drops))
               + UnitsWeight(pk, d.dry, d.perishable, d.other)
  {
    assert (drops + [d])[..|drops|] == drops;
  }

  /** Appending a drop at village index j appends that village to the route. */
  lemma StopsAppend(p: Problem, drops: seq<Drop>, d: Drop)
    requires DropsInRange(p, drops) && 1 <= d.village <= |p.villages|
    ensures DropsInRange(p, drops + [d])
    ensures Stops(p, drops + [d]) == Stops(p, drops) + [p.villages[d.village - 1].coords]
  {
    assert (drops + [d])[..|drops|] == drops;
  }

  /** A load offered to village index i stays within what the village still
      wants, records its own weight, and is non-negative when `sane`. */
  predicate LoadFor(p: Problem, dem: Demand, i: nat, load: Load, sane: bool)
    requires Sized(p, dem) && i < |p.villages|
  {
    && load.Food() <= dem.food[i]
    && (dem.other[i] >= 0 ==> load.other <= dem.other[i])
    && load.weight == UnitsWeight(p.packages, load.dry, load.perishable, load.other)
    && (sane ==> load.dry >= 0 && load.perishable >= 0 && load.other >= 0)
  }

  // ---------------------------------------------------------------------------
  // First stop

  /** Village index i as the first stop of a new trip, or None when the
      solver skips it: no demand left, round trip too long for the capacity
      or the remaining budget, negligible food unit weight, or a load that
      does not fit. */
  function FirstCandidate(dist: Metric, p: Problem, h: Helicopter, ratio: real, budget: real, dem: Demand, i: nat)
    : (r: Option<Candidate>)
    requires HomeInRange(p, h) && Sized(p, dem) && i < |p.villages|
    ensures r.Some? ==> Wanted(dem, i)
    ensures r.Some? ==>
              var trip := 2.0 * dist(Home(p, h), p.villages[i].coords);
              trip <= h.distanceCapacity && trip <= budget
    ensures r.Some? ==> FoodUnitWeight(p.packages, ratio) >= Eps
    ensures r.Some? ==> r.value.load.weight <= h.weightCapacity + Eps
    ensures r.Some? ==> LoadFor(p, dem, i, r.value.load, Sane(p, h, ratio) && dem.food[i] >= 0)
    // a village passing every filter is offered, with the load Choose sizes
    ensures
      var trip := 2.0 * dist(Home(p, h), p.villages[i].coords);
      var unitWeight := FoodUnitWeight(p.packages, ratio);
      r.Some? <==>
        && Wanted(dem, i) && trip <= h.distanceCapacity && trip <= budget && unitWeight >= Eps
        && Choose(h.weightCapacity, unitWeight, ratio, dem.food[i], dem.other[i], p.packages).Some?
    ensures r.Some? ==>
              Choose(h.weightCapacity, FoodUnitWeight(p.packages, ratio), ratio, dem.food[i], dem.other[i], p.packages)
              == Some(r.value.load)
    // its net value is the delivery's value less the fixed cost and the round trip's distance cost
    ensures r.Some? ==>
              var l := r.value.load;
              r.value.net
              == VillageValue(p.villages[i], l.dry, l.perishable, l.other, p.packages)
                 - (h.fixedCost + h.alpha * (2.0 * dist(Home(p, h), p.villages[i].coords)))
  {
    if !Wanted(dem, i) then None
    else
      var v := p.villages[i];
      var tripDistance := 2.0 * dist(Home(p, h), v.coords);
      if tripDistance > h.distanceCapacity || tripDistance > budget then None
      else
        var unitWeight := FoodUnitWeight(p.packages, ratio);
        if unitWeight < Eps then None
        else
          match Choose(h.weightCapacity, unitWeight, ratio, dem.food[i], dem.other[i], p.packages)
          case None => None
          case Some(load) =>
            var value := VillageValue(p.villages[i], load.dry, load.perishable, load.other, p.packages);
            Some(Candidate(load, value - (h.fixedCost + h.alpha * (2.0 * dist(Home(p, h), p.villages[i].coords)))))
  }

  function FirstCandidates(dist: Metric, p: Problem, h: Helicopter, ratio: real, budget: real, dem: Demand)
    : (cands: seq<Option<Candidate>>)
    requires HomeInRange(p, h) && Sized(p, dem)
    ensures |cands| == |p.villages|
    ensures forall i :: 0 <= i < |cands| ==> cands[i] == FirstCandidate(dist, p, h, ratio, budget, dem, i)
  {
    seq(|p.villages|, i requires 0 <= i < |p.villages| => FirstCandidate(dist, p, h, ratio, budget, dem, i))
  }

  /** The drop a candidate turns into at village index i. */
  function DropAt(p: Problem, i: nat, load: Load): (d: Drop)
    requires i < |p.villages|
  {
    Drop(p.villages[i].id, load.dry, load.perishable, load.other)
  }

  /** `b` is the one-stop trip the first-stop scan picks: the village whose
      candidate has a positive net value that no village beats and no earlier
      village equals, served with that candidate's load. */
  predicate FirstPicked(dist: Metric, p: Problem, h: Helicopter, ratio: real, budget: real, dem: Demand, b: Building)
    requires HomeInRange(p, h) && Sized(p, dem)
  {
    && |b.stops| == 1 && b.stops[0] < |p.villages|
    && var i := b.stops[0];
       var c := FirstCandidate(dist, p, h, ratio, budget, dem, i);
       && c.Some? && c.value.net > 0.0
       && b.drops == [DropAt(p, i, c.value.load)] && b.weight == c.value.load.weight
       && (forall k :: 0 <= k < |p.villages| && FirstCandidate(dist, p, h, ratio, budget, dem, k).Some? ==>
             FirstCandidate(dist, p, h, ratio, budget, dem, k).value.net <= c.value.net)
       && (forall k :: 0 <= k < i && FirstCandidate(dist, p, h, ratio, budget, dem, k).Some? ==>
             FirstCandidate(dist, p, h, ratio, budget, dem, k).value.net < c.value.net)
  }

  /** A new trip at the best first stop, or None when no first stop has a
      positive net value (the helicopter then stops building trips). */
  function StartTrip(dist: Metric, p: Problem, h: Helicopter, ratio: real, budget: real, dem: Demand)
    : (r: Option<Building>)
    requires Ready(dist, p, h) && Sized(p, dem)
    ensures r.Some? ==> |r.value.drops| == 1 && WellBuilt(dist, p, h, budget, dem, r.value)
    ensures r.Some? ==> FoodUnitWeight(p.packages, ratio) >= Eps
    ensures r.Some? && Sane(p, h, ratio) && DemandNonNegative(dem) ==> AllNonNegative(r.value.drops)
    ensures r.None? <==>
              forall i :: 0 <= i < |p.villages| && FirstCandidate(dist, p, h, ratio, budget, dem, i).Some? ==>
                FirstCandidate(dist, p, h, ratio, budget, dem, i).value.net <= 0.0
    // the trip's one stop is the scan's pick, carrying the load sized for it
    ensures r.Some? ==> FirstPicked(dist, p, h, ratio, budget, dem, r.value)
  {
    var cands := FirstCandidates(dist, p, h, ratio, budget, dem);
    match Best(cands)
    case None => None
    case Some(i) =>
      var c := cands[i].value;
      var b := Building([DropAt(p, i, c.load)], [i], c.load.weight);
      FirstStopWellBuilt(dist, p, h, ratio, budget, dem, i, c, b);
      Some(b)
  }

  /** A trip made of one profitable first stop keeps the trip invariant. */
  lemma FirstStopWellBuilt(dist: Metric, p: Problem, h: Helicopter, ratio: real, budget: real, dem: Demand,
                           i: nat, c: Candidate, b: Building)
    requires Ready(dist, p, h) && Sized(p, dem) && i < |p.villages|
    requires
      var trip := 2.0 * dist(Home(p, h), p.villages[i].coords);
      trip <= h.distanceCapacity && trip <= budget
    requires c.load.weight <= h.weightCapacity + Eps
    requires LoadFor(p, dem, i, c.load, Sane(p, h, ratio) && dem.food[i] >= 0)
    requires b == Building([DropAt(p, i, c.load)], [i], c.load.weight)
    ensures WellBuilt(dist, p, h, budget, dem, b)
    ensures Sane(p, h, ratio) && DemandNonNegative(dem) ==> AllNonNegative(b.drops)
  {
    var d := DropAt(p, i, c.load);
    assert d.village == i + 1;
    FirstStopShape(p, dem, i, d, b);
    FirstStopRoute(dist, p, h, budget, i, d);
    FirstStopLoad(p, h, d, c.load.weight, b);
  }

  lemma FirstStopShape(p: Problem, dem: Demand, i: nat, d: Drop, b: Building)
    requires Sized(p, dem) && i < |p.villages| && d.village == i + 1
    requires d.Food() <= dem.food[i] && (dem.other[i] >= 0 ==> d.other <= dem.other[i])
    requires b.drops == [d] && b.stops == [i]
    ensures StopsMatch(p, b) && AppendsCarry(b.drops) && WithinDemand(p, dem, b)
  {
  }

  lemma FirstStopLoad(p: Problem, h: Helicopter, d: Drop, w: real, b: Building)
    requires w == UnitsWeight(p.packages, d.dry, d.perishable, d.other) && w <= h.weightCapacity + Eps
    requires b.drops == [d] && b.weight == w
    ensures LoadFits(p, h, b)
  {
    WeightAppend(p.packages, [], d);
    assert [] + [d] == [d];
  }

  /** The route of a one-stop trip is the direct round trip to its village. */
  lemma FirstStopRoute(dist: Metric, p: Problem, h: Helicopter, budget: real, i: nat, d: Drop)
    requires HomeInRange(p, h) && Symmetric(dist) && i < |p.villages| && d.village == i + 1
    requires
      var trip := 2.0 * dist(Home(p, h), p.villages[i].coords);
      trip <= h.distanceCapacity && trip <= budget
    ensures DropsInRange(p, [d])
    ensures TripDistance(dist, p, Home(p, h), [d]) == 2.0 * dist(Home(p, h), p.villages[i].coords)
    ensures forall b: Building :: b.drops == [d] ==> RouteFits(dist, p, h, budget, b)
  {
    var home := Home(p, h);
    var q := p.villages[i].coords;
    StopsAppend(p, [], d);
    assert [] + [d] == [d];
    assert Stops(p, [d]) == [q];
    assert Legs(dist, home, [q]) == dist(home, q) + Legs(dist, q, []);
    assert dist(q, home) == dist(home, q);
  }

  // ---------------------------------------------------------------------------
  // Extension by appending one village at the end of the route

  /** The distance added by flying from the last stop (village index `last`)
      to village index j and home, instead of home directly. */
  function Detour(dist: Metric, p: Problem, h: Helicopter, last: nat, j: nat): real
    requires HomeInRange(p, h) && last < |p.villages| && j < |p.villages|
  {
    dist(p.villages[last].coords, p.villages[j].coords) + dist(p.villages[j].coords, Home(p, h))
    - dist(p.villages[last].coords, Home(p, h))
  }

  /** Net value of appending village index j with `load` after the stop at
      village index `last`: the delivery's value less alpha times the detour. */
  function AppendNet(dist: Metric, p: Problem, h: Helicopter, last: nat, j: nat, load: Load): real
    requires HomeInRange(p, h) && last < |p.villages| && j < |p.villages|
  {
    VillageValue(p.villages[j], load.dry, load.perishable, load.other, p.packages) - h.alpha * Detour(dist, p, h, last, j)
  }

  /** Village index j appended to trip `b`, or None when the solver skips it:
      already on the trip, no demand left, the longer route would break the
      distance capacity or the budget, no weight allowance left, a load that
      does not fit, or a load with no unit at all. The net value charges only
      the distance the detour adds. */
  function AppendCandidate(dist: Metric, p: Problem, h: Helicopter, ratio: real, budget: real, dem: Demand,
                           b: Building, j: nat): (r: Option<Candidate>)
    requires HomeInRange(p, h) && Sized(p, dem) && j < |p.villages|
    requires |b.stops| > 0 && b.stops[|b.stops| - 1] < |p.villages| && DropsInRange(p, b.drops)
    requires FoodUnitWeight(p.packages, ratio) >= Eps
    ensures r.Some? ==> j !in b.stops && Wanted(dem, j)
    ensures r.Some? ==>
              var route := RoundTrip(dist, Home(p, h), Stops(p, b.drops) + [p.villages[j].coords]);
              route <= h.distanceCapacity && route <= budget
    ensures r.Some? ==> r.value.load.Units() != 0
    ensures r.Some? ==> b.weight + r.value.load.weight <= h.weightCapacity + Eps
    ensures r.Some? ==> LoadFor(p, dem, j, r.value.load, 0.0 <= ratio <= 1.0 && dem.food[j] >= 0)
    // a village passing every filter is offered, with the load Choose sizes
    ensures
      var route := RoundTrip(dist, Home(p, h), Stops(p, b.drops) + [p.villages[j].coords]);
      var room := h.weightCapacity - b.weight;
      var load := Choose(room, FoodUnitWeight(p.packages, ratio) + Eps, ratio, dem.food[j], dem.other[j], p.packages);
      r.Some? <==>
        && j !in b.stops && Wanted(dem, j) && route <= h.distanceCapacity && route <= budget && room > Eps
        && load.Some? && load.value.Units() != 0
    ensures r.Some? ==>
              Choose(h.weightCapacity - b.weight, FoodUnitWeight(p.packages, ratio) + Eps, ratio,
                     dem.food[j], dem.other[j], p.packages)
              == Some(r.value.load)
    // its net value is the delivery's value less the cost of the detour from the last stop
    ensures r.Some? ==> r.value.net == AppendNet(dist, p, h, b.stops[|b.stops| - 1], j, r.value.load)
  {
    if j in b.stops || !Wanted(dem, j) then None
    else
      var home := Home(p, h);
      var q := p.villages[j].coords;
      var pts := Stops(p, b.drops);
      var total := Legs(dist, home, pts) + dist(Last(home, pts), q) + dist(q, home);
      LegsAppend(dist, home, pts, q);
      assert RoundTrip(dist, home, pts + [q]) == total;
      if total > h.distanceCapacity || total > budget then None
      else
        var room := h.weightCapacity - b.weight;
        if room <= Eps then None
        else
          match Choose(room, FoodUnitWeight(p.packages, ratio) + Eps, ratio, dem.food[j], dem.other[j], p.packages)
          case None => None
          case Some(load) =>
            if load.Units() == 0 then None
            else
              Some(Candidate(load, AppendNet(dist, p, h, b.stops[|b.stops| - 1], j, load)))
  }

  function AppendCandidates(dist: Metric, p: Problem, h: Helicopter, ratio: real, budget: real, dem: Demand,
                            b: Building): (cands: seq<Option<Candidate>>)
    requires HomeInRange(p, h) && Sized(p, dem)
    requires |b.stops| > 0 && b.stops[|b.stops| - 1] < |p.villages| && DropsInRange(p, b.drops)
    requires FoodUnitWeight(p.packages, ratio) >= Eps
    ensures |cands| == |p.villages|
    ensures forall j :: 0 <= j < |cands| ==> cands[j] == AppendCandidate(dist, p, h, ratio, budget, dem, b, j)
  {
    seq(|p.villages|, j requires 0 <= j < |p.villages| => AppendCandidate(dist, p, h, ratio, budget, dem, b, j))
  }

  /** Village indexes not yet on the trip. */
  function Unvisited(n: nat, stops: seq<nat>): set<nat> {
    set k: nat | k < n && k !in stops
  }

  /** No village can be appended to `b` with a positive net value. */
  predicate Saturated(dist: Metric, p: Problem, h: Helicopter, ratio: real, budget: real, dem: Demand, b: Building)
    requires HomeInRange(p, h) && Sized(p, dem)
    requires |b.stops| > 0 && b.stops[|b.stops| - 1] < |p.villages| && DropsInRange(p, b.drops)
    requires FoodUnitWeight(p.packages, ratio) >= Eps
  {
    forall j :: 0 <= j < |p.villages| && AppendCandidate(dist, p, h, ratio, budget, dem, b, j).Some? ==>
      AppendCandidate(dist, p, h, ratio, budget, dem, b, j).value.net <= 0.0
  }

  /** A trip that keeps the invariant and cannot be extended profitably. */
  predicate Finished(dist: Metric, p: Problem, h: Helicopter, ratio: real, budget: real, dem: Demand, b: Building)
    requires HomeInRange(p, h) && Sized(p, dem)
    requires FoodUnitWeight(p.packages, ratio) >= Eps
  {
    WellBuilt(dist, p, h, budget, dem, b) && Saturated(dist, p, h, ratio, budget, dem, b)
  }

  /** `r` continues trip `b`: the drops and villages of `b` come first, unchanged. */
  predicate Continues(b: Building, r: Building) {
    && |b.drops| <= |r.drops| && r.drops[..|b.drops|] == b.drops
    && |b.stops| <= |r.stops| && r.stops[..|b.stops|] == b.stops
  }

  /** The trip made of the first k drops of `r`, carrying the load they add up to. */
  function Prefix(p: Problem, r: Building, k: nat): (b: Building)
    requires k <= |r.drops| && k <= |r.stops|
    ensures |b.drops| == |b.stops| == k
  {
    var drops := r.drops[..k];
    Building(drops, r.stops[..k], UnitsWeight(p.packages, DrySum(drops), PerishableSum(drops), OtherSum(drops)))
  }

  /** Appending drop `d` at village index j to trip `b` is the append scan's
      pick: j's candidate has a positive net value that no village beats and
      no earlier village equals, and `d` carries that candidate's load. */
  predicate AppendPicked(dist: Metric, p: Problem, h: Helicopter, ratio: real, budget: real, dem: Demand,
                         b: Building, j: nat, d: Drop)
    requires HomeInRange(p, h) && Sized(p, dem) && j < |p.villages|
    requires |b.stops| > 0 && b.stops[|b.stops| - 1] < |p.villages| && DropsInRange(p, b.drops)
    requires FoodUnitWeight(p.packages, ratio) >= Eps
  {
    var c := AppendCandidate(dist, p, h, ratio, budget, dem, b, j);
    && c.Some? && c.value.net > 0.0 && d == DropAt(p, j, c.value.load)
    && (forall k :: 0 <= k < |p.villages| && AppendCandidate(dist, p, h, ratio, budget, dem, b, k).Some? ==>
          AppendCandidate(dist, p, h, ratio, budget, dem, b, k).value.net <= c.value.net)
    && (forall k :: 0 <= k < j && AppendCandidate(dist, p, h, ratio, budget, dem, b, k).Some? ==>
          AppendCandidate(dist, p, h, ratio, budget, dem, b, k).value.net < c.value.net)
  }

  /** Every drop of `r` after its first n is the append scan's pick on the
      trip of the drops before it. */
  predicate PickedAfter(dist: Metric, p: Problem, h: Helicopter, ratio: real, budget: real, dem: Demand,
                        n: nat, r: Building)
    requires HomeInRange(p, h) && Sized(p, dem) && FoodUnitWeight(p.packages, ratio) >= Eps
    requires StopsMatch(p, r) && n >= 1
  {
    forall k :: n <= k < |r.drops| ==>
      AppendPicked(dist, p, h, ratio, budget, dem, Prefix(p, r, k), r.stops[k], r.drops[k])
  }

  /** The trip after appending, one village at a time, the best candidate
      with a positive net value until none is left. */
  function Extend(dist: Metric, p: Problem, h: Helicopter, ratio: real, budget: real, dem: Demand, b: Building)
    : (r: Building)
    requires Ready(dist, p, h) && Sized(p, dem)
    requires FoodUnitWeight(p.packages, ratio) >= Eps
    requires WellBuilt(dist, p, h, budget, dem, b)
    // the finished trip keeps the invariant and cannot be extended profitably
    ensures Finished(dist, p, h, ratio, budget, dem, r)
    // appending only: the trip so far is kept as it is
    ensures Continues(b, r)
    ensures Sane(p, h, ratio) && DemandNonNegative(dem) && AllNonNegative(b.drops) ==> AllNonNegative(r.drops)
    decreases Unvisited(|p.villages|, b.stops)
  {
    var cands := AppendCandidates(dist, p, h, ratio, budget, dem, b);
    match Best(cands)
    case None =>
      assert Saturated(dist, p, h, ratio, budget, dem, b);
      b
    case Some(j) =>
      var next := Appended(dist, p, h, ratio, budget, dem, b, j, cands[j].value);
      UnvisitedShrinks(|p.villages|, b.stops, j);
      var r := Extend(dist, p, h, ratio, budget, dem, next);
      ContinuesAppend(b, next, r, DropAt(p, j, cands[j].value.load), j);
      r
  }

  /** Every drop Extend appends is the append scan's pick on the trip before
      it, with the load sized for it. */
  lemma {:induction false} ExtendPicks(dist: Metric, p: Problem, h: Helicopter, ratio: real, budget: real,
                                       dem: Demand, b: Building)
    requires Ready(dist, p, h) && Sized(p, dem)
    requires FoodUnitWeight(p.packages, ratio) >= Eps
    requires WellBuilt(dist, p, h, budget, dem, b)
    ensures PickedAfter(dist, p, h, ratio, budget, dem, |b.drops|, Extend(dist, p, h, ratio, budget, dem, b))
    decreases Unvisited(|p.villages|, b.stops)
  {
    var cands := AppendCandidates(dist, p, h, ratio, budget, dem, b);
    match Best(cands)
    case None =>
    case Some(j) =>
      var next := Appended(dist, p, h, ratio, budget, dem, b, j, cands[j].value);
      UnvisitedShrinks(|p.villages|, b.stops, j);
      ExtendPicks(dist, p, h, ratio, budget, dem, next);
      var r := Extend(dist, p, h, ratio, budget, dem, next);
      assert Extend(dist, p, h, ratio, budget, dem, b) == r;
      BestPicked(dist, p, h, ratio, budget, dem, b, j);
      PickedExtends(dist, p, h, ratio, budget, dem, b, next, r, j, cands[j].value);
  }

  /** The append scan's choice is its pick. */
  lemma BestPicked(dist: Metric, p: Problem, h: Helicopter, ratio: real, budget: real, dem: Demand,
                   b: Building, j: nat)
    requires HomeInRange(p, h) && Sized(p, dem)
    requires |b.stops| > 0 && b.stops[|b.stops| - 1] < |p.villages| && DropsInRange(p, b.drops)
    requires FoodUnitWeight(p.packages, ratio) >= Eps
    requires Best(AppendCandidates(dist, p, h, ratio, budget, dem, b)) == Some(j)
    ensures j < |p.villages| && AppendCandidate(dist, p, h, ratio, budget, dem, b, j).Some?
    ensures AppendPicked(dist, p, h, ratio, budget, dem, b, j,
                         DropAt(p, j, AppendCandidate(dist, p, h, ratio, budget, dem, b, j).value.load))
  {
  }

  /** The picks after `next` and the pick that made `next` from `b` are the
      picks after `b`. */
  lemma PickedExtends(dist: Metric, p: Problem, h: Helicopter, ratio: real, budget: real, dem: Demand,
                      b: Building, next: Building, r: Building, j: nat, c: Candidate)
    requires HomeInRange(p, h) && Sized(p, dem) && FoodUnitWeight(p.packages, ratio) >= Eps
    requires StopsMatch(p, b) && LoadFits(p, h, b) && StopsMatch(p, r) && j < |p.villages|
    requires next.drops == b.drops + [DropAt(p, j, c.load)] && next.stops == b.stops + [j]
    requires Continues(next, r)
    requires AppendPicked(dist, p, h, ratio, budget, dem, b, j, DropAt(p, j, c.load))
    requires PickedAfter(dist, p, h, ratio, budget, dem, |next.drops|, r)
    ensures PickedAfter(dist, p, h, ratio, budget, dem, |b.drops|, r)
  {
    var n := |b.drops|;
    PrefixOfAppend(b.drops, DropAt(p, j, c.load), r.drops);
    PrefixOfAppend(b.stops, j, r.stops);
    assert r.drops[n] == r.drops[..n + 1][n] == DropAt(p, j, c.load);
    assert r.stops[n] == r.stops[..n + 1][n] == j;
    assert Prefix(p, r, n) == b;
  }

  lemma ContinuesAppend(b: Building, next: Building, r: Building, d: Drop, j: nat)
    requires next.drops == b.drops + [d] && next.stops == b.stops + [j]
    requires Continues(next, r)
    ensures Continues(b, r)
  {
    PrefixOfAppend(b.drops, d, r.drops);
    PrefixOfAppend(b.stops, j, r.stops);
  }

  /** Visiting a new village leaves fewer villages unvisited. */
  lemma UnvisitedShrinks(n: nat, stops: seq<nat>, j: nat)
    requires j < n && j !in stops
    ensures Unvisited(n, stops + [j]) < Unvisited(n, stops)
  {
    assert j in Unvisited(n, stops);
    assert j !in Unvisited(n, stops + [j]);
  }

  lemma PrefixOfAppend<T>(a: seq<T>, x: T, r: seq<T>)
    requires |a| + 1 <= |r| && r[..|a| + 1] == a + [x]
    ensures r[..|a|] == a
  {
    assert r[..|a|] == r[..|a| + 1][..|a|];
  }

  /** Trip `b` with candidate `c` at village index j appended: the trip
      invariant is kept. */
  function Appended(dist: Metric, p: Problem, h: Helicopter, ratio: real, budget: real, dem: Demand,
                    b: Building, j: nat, c: Candidate): (next: Building)
    requires Ready(dist, p, h) && Sized(p, dem) && j < |p.villages|
    requires FoodUnitWeight(p.packages, ratio) >= Eps
    requires WellBuilt(dist, p, h, budget, dem, b)
    requires AppendCandidate(dist, p, h, ratio, budget, dem, b, j) == Some(c)
    ensures WellBuilt(dist, p, h, budget, dem, next)
    ensures next.drops == b.drops + [DropAt(p, j, c.load)] && next.stops == b.stops + [j]
    ensures Sane(p, h, ratio) && DemandNonNegative(dem) && AllNonNegative(b.drops) ==> AllNonNegative(next.drops)
  {
    var next := Building(b.drops + [DropAt(p, j, c.load)], b.stops + [j], b.weight + c.load.weight);
    assert j !in b.stops && c.load.Units() != 0;
    assert b.weight + c.load.weight <= h.weightCapacity + Eps;
    assert LoadFor(p, dem, j, c.load, 0.0 <= ratio <= 1.0 && dem.food[j] >= 0);
    AppendedWellBuilt(dist, p, h, ratio, budget, dem, b, j, c, next);
    next
  }

  lemma AppendedWellBuilt(dist: Metric, p: Problem, h: Helicopter, ratio: real, budget: real, dem: Demand,
                          b: Building, j: nat, c: Candidate, next: Building)
    requires DenseIds(p) && HomeInRange(p, h) && Sized(p, dem) && j < |p.villages|
    requires WellBuilt(dist, p, h, budget, dem, b)
    requires j !in b.stops && c.load.Units() != 0
    requires b.weight + c.load.weight <= h.weightCapacity + Eps
    requires LoadFor(p, dem, j, c.load, 0.0 <= ratio <= 1.0 && dem.food[j] >= 0)
    requires
      var route := RoundTrip(dist, Home(p, h), Stops(p, b.drops) + [p.villages[j].coords]);
      route <= h.distanceCapacity && route <= budget
    requires next == Building(b.drops + [DropAt(p, j, c.load)], b.stops + [j], b.weight + c.load.weight)
    ensures WellBuilt(dist, p, h, budget, dem, next)
    ensures Sane(p, h, ratio) && DemandNonNegative(dem) && AllNonNegative(b.drops) ==> AllNonNegative(next.drops)
  {
    var d := DropAt(p, j, c.load);
    assert d.village == j + 1;
    AppendedStops(p, b, j, d, next);
    AppendedCarry(b, d, next);
    AppendedDemand(p, dem, b, j, d, next);
    AppendedRoute(dist, p, h, budget, b, j, d, next);
    AppendedLoad(p, h, b, d, c.load.weight, next);
    if Sane(p, h, ratio) && DemandNonNegative(dem) && AllNonNegative(b.drops) {
      AppendedNonNegative(b.drops, d);
    }
  }

  lemma AppendedRoute(dist: Metric, p: Problem, h: Helicopter, budget: real, b: Building, j: nat, d: Drop,
                      next: Building)
    requires HomeInRange(p, h) && DenseIds(p) && RouteFits(dist, p, h, budget, b)
    requires j < |p.villages| && d.village == j + 1
    requires
      var route := RoundTrip(dist, Home(p, h), Stops(p, b.drops) + [p.villages[j].coords]);
      route <= h.distanceCapacity && route <= budget
    requires next.drops == b.drops + [d]
    ensures RouteFits(dist, p, h, budget, next)
  {
    StopsAppend(p, b.drops, d);
  }

  lemma AppendedStops(p: Problem, b: Building, j: nat, d: Drop, next: Building)
    requires StopsMatch(p, b) && j < |p.villages| && j !in b.stops && d.village == j + 1
    requires next.drops == b.drops + [d] && next.stops == b.stops + [j]
    ensures StopsMatch(p, next)
  {
    assert forall k :: 0 <= k < |b.stops| ==> next.stops[k] == b.stops[k] && next.drops[k] == b.drops[k];
    assert next.stops[|b.stops|] == j && next.drops[|b.drops|] == d;
  }

  lemma AppendedCarry(b: Building, d: Drop, next: Building)
    requires AppendsCarry(b.drops) && d.Units() != 0 && next.drops == b.drops + [d]
    ensures AppendsCarry(next.drops)
  {
    assert forall k :: 0 <= k < |b.drops| ==> next.drops[k] == b.drops[k];
  }

  lemma AppendedDemand(p: Problem, dem: Demand, b: Building, j: nat, d: Drop, next: Building)
    requires Sized(p, dem) && StopsMatch(p, b) && WithinDemand(p, dem, b) && j < |p.villages| && j !in b.stops
    requires d.village == j + 1
    requires d.Food() <= dem.food[j] && (dem.other[j] >= 0 ==> d.other <= dem.other[j])
    requires next.drops == b.drops + [d] && next.stops == b.stops + [j]
    ensures StopsMatch(p, next) && WithinDemand(p, dem, next)
  {
    AppendedStops(p, b, j, d, next);
    assert forall k :: 0 <= k < |b.stops| ==> next.stops[k] == b.stops[k] && next.drops[k] == b.drops[k];
    assert next.stops[|b.stops|] == j && next.drops[|b.drops|] == d;
  }

  lemma AppendedLoad(p: Problem, h: Helicopter, b: Building, d: Drop, w: real, next: Building)
    requires LoadFits(p, h, b)
    requires w == UnitsWeight(p.packages, d.dry, d.perishable, d.other)
    requires b.weight + w <= h.weightCapacity + Eps
    requires next.drops == b.drops + [d] && next.weight == b.weight + w
    ensures LoadFits(p, h, next)
  {
    WeightAppend(p.packages, b.drops, d);
  }

  lemma AppendedNonNegative(drops: seq<Drop>, d: Drop)
    requires AllNonNegative(drops) && d.NonNegative()
    ensures AllNonNegative(drops + [d])
  {
    var all := drops + [d];
    assert forall k :: 0 <= k < |drops| ==> all[k] == drops[k];
  }

  // ---------------------------------------------------------------------------
  // Finalising a trip

  /** A counter that was not negative does not become negative. */
  predicate StaysNonNegative(p: Problem, dem: Demand, after: Demand)
    requires Sized(p, dem) && Sized(p, after)
  {
    && (forall i :: 0 <= i < |p.villages| && dem.food[i] >= 0 ==> after.food[i] >= 0)
    && (forall i :: 0 <= i < |p.villages| && dem.other[i] >= 0 ==> after.other[i] >= 0)
  }

  /** Each counter is decreased by what `drops` bring its village, floored at zero. */
  predicate Decremented(p: Problem, drops: seq<Drop>, dem: Demand, after: Demand)
    requires Sized(p, dem) && Sized(p, after)
  {
    forall i :: 0 <= i < |p.villages| ==>
      && after.food[i] == Max(0, dem.food[i] - FoodTo(drops, i + 1))
      && after.other[i] == Max(0, dem.other[i] - OtherTo(drops, i + 1))
  }

  /** The counters after one drop: its village's counters go down by the
      drop's food and other units, floored at zero. */
  function Served(cur: Demand, d: Drop): (r: Demand)
    requires 1 <= d.village <= |cur.food| && |cur.other| == |cur.food|
    ensures |r.food| == |cur.food| && |r.other| == |cur.other|
  {
    var idx := d.village - 1;
    Demand(cur.food[idx := Max(0, cur.food[idx] - d.Food())], cur.other[idx := Max(0, cur.other[idx] - d.other)])
  }

  /** The counters after serving `drops` in order, one drop at a time. */
  function ServedAll(p: Problem, dem: Demand, drops: seq<Drop>): (r: Demand)
    requires Sized(p, dem) && DropsInRange(p, drops)
    ensures Sized(p, r)
    decreases |drops|
  {
    if |drops| == 0 then dem
    else Served(ServedAll(p, dem, drops[..|drops| - 1]), drops[|drops| - 1])
  }

  lemma ServedStaysNonNegative(p: Problem, dem: Demand, cur: Demand, d: Drop)
    requires Sized(p, dem) && Sized(p, cur) && 1 <= d.village <= |p.villages|
    requires StaysNonNegative(p, dem, cur)
    ensures StaysNonNegative(p, dem, Served(cur, d))
  {
  }

  /** One more drop keeps the counters decremented by the drops served so far. */
  lemma ServedDecrements(p: Problem, done: seq<Drop>, d: Drop, dem: Demand, cur: Demand)
    requires Sized(p, dem) && Sized(p, cur) && 1 <= d.village <= |p.villages|
    requires d.NonNegative() && Decremented(p, done, dem, cur)
    ensures Decremented(p, done + [d], dem, Served(cur, d))
  {
    var all := done + [d];
    assert all[..|all| - 1] == done && all[|all| - 1] == d;
  }

  /** Sums the pickup totals over the drops and decrements the demand
      counters of the villages served, never below zero. */
  method Finalise(p: Problem, drops: seq<Drop>, dem: Demand) returns (t: Trip, after: Demand)
    requires Sized(p, dem) && DropsInRange(p, drops)
    ensures t.drops == drops && PickupsMatch(t)
    ensures Sized(p, after)
    // the counters are those left after serving the drops in order
    ensures after == ServedAll(p, dem, drops)
    ensures StaysNonNegative(p, dem, after)
    ensures AllNonNegative(drops) && DemandNonNegative(dem) ==> Decremented(p, drops, dem, after)
    ensures AllNonNegative(drops) && DemandNonNegative(dem) ==> DemandBelow(after, dem)
  {
    var dry, perishable, other := 0, 0, 0;
    after := dem;
    var k := 0;
    while k < |drops|
      invariant 0 <= k <= |drops|
      invariant dry == DrySum(drops[..k])
      invariant perishable == PerishableSum(drops[..k])
      invariant other == OtherSum(drops[..k])
      invariant Sized(p, after) && StaysNonNegative(p, dem, after)
      invariant after == ServedAll(p, dem, drops[..k])
      invariant AllNonNegative(drops) && DemandNonNegative(dem) ==> Decremented(p, drops[..k], dem, after)
    {
      var d := drops[k];
      assert drops[..k + 1] == drops[..k] + [d];
      assert drops[..k + 1][..k] == drops[..k];
      dry, perishable, other := dry + d.dry, perishable + d.perishable, other + d.other;
      ServedStaysNonNegative(p, dem, after, d);
      if AllNonNegative(drops) && DemandNonNegative(dem) {
        ServedDecrements(p, drops[..k], d, dem, after);
      }
      after := Served(after, d);
      k := k + 1;
    }
    assert drops[..|drops|] == drops;
    t := Trip(drops, dry, perishable, other);
    if AllNonNegative(drops) && DemandNonNegative(dem) {
      DecrementedBelow(p, drops, dem, after);
    }
  }

  lemma DecrementedBelow(p: Problem, drops: seq<Drop>, dem: Demand, after: Demand)
    requires Sized(p, dem) && Sized(p, after) && AllNonNegative(drops) && DemandNonNegative(dem)
    requires Decremented(p, drops, dem, after)
    ensures DemandBelow(after, dem)
  {
    forall i | 0 <= i < |p.villages|
      ensures after.food[i] <= dem.food[i] && after.other[i] <= dem.other[i]
    {
      DeliveredNonNegative(drops, i + 1);
    }
  }

  // ---------------------------------------------------------------------------
  // Demand accounting

  /** A trip serves each village at most once and never with more than the
      village's counter, so it brings no village more than the counter. */
  lemma {:induction false} TripDelivers(p: Problem, dem: Demand, b: Building, i: nat, n: nat)
    requires Sized(p, dem) && StopsMatch(p, b) && WithinDemand(p, dem, b)
    requires i < |p.villages| && n <= |b.drops|
    ensures i !in b.stops[..n] ==> FoodTo(b.drops[..n], i + 1) == 0 && OtherTo(b.drops[..n], i + 1) == 0
    ensures i in b.stops[..n] ==> FoodTo(b.drops[..n], i + 1) <= dem.food[i]
    ensures i in b.stops[..n] && dem.other[i] >= 0 ==> OtherTo(b.drops[..n], i + 1) <= dem.other[i]
    decreases n
  {
    if n > 0 {
      TripDelivers(p, dem, b, i, n - 1);
      assert b.drops[..n][..n - 1] == b.drops[..n - 1];
      assert b.drops[..n][n - 1] == b.drops[n - 1];
      assert b.stops[..n] == b.stops[..n - 1] + [b.stops[n - 1]];
      if b.stops[n - 1] == i {
        assert forall k :: 0 <= k < n - 1 ==> b.stops[..n - 1][k] == b.stops[k] != i;
      }
    } else {
      assert b.drops[..0] == [] && b.stops[..0] == [];
    }
  }

  /** `drops` account exactly for the difference between the counters
      `before` and `after`. */
  predicate Accounted(p: Problem, before: Demand, after: Demand, drops: seq<Drop>)
    requires Sized(p, before) && Sized(p, after)
  {
    forall i :: 0 <= i < |p.villages| ==>
      && before.food[i] == after.food[i] + FoodTo(drops, i + 1)
      && before.other[i] == after.other[i] + OtherTo(drops, i + 1)
  }

  /** Finalising a well-built trip against non-negative counters decrements
      them exactly: the floor at zero never applies. */
  lemma TripAccounted(p: Problem, cur: Demand, b: Building, next: Demand)
    requires Sized(p, cur) && Sized(p, next) && DemandNonNegative(cur)
    requires StopsMatch(p, b) && WithinDemand(p, cur, b) && AllNonNegative(b.drops)
    requires Decremented(p, b.drops, cur, next)
    ensures Accounted(p, cur, next, b.drops)
  {
    forall i | 0 <= i < |p.villages|
      ensures cur.food[i] == next.food[i] + FoodTo(b.drops, i + 1)
      ensures cur.other[i] == next.other[i] + OtherTo(b.drops, i + 1)
    {
      TripDelivers(p, cur, b, i, |b.drops|);
      assert b.drops[..|b.drops|] == b.drops && b.stops[..|b.stops|] == b.stops;
      DeliveredNonNegative(b.drops, i + 1);
    }
  }

  /** No drops account for unchanged counters. */
  lemma AccountedNothing(p: Problem, d: Demand, e: Demand, drops: seq<Drop>)
    requires Sized(p, d) && e == d && |drops| == 0
    ensures Accounted(p, d, e, drops)
  {
    forall i | 0 <= i < |p.villages|
      ensures d.food[i] == e.food[i] + FoodTo(drops, i + 1) && d.other[i] == e.other[i] + OtherTo(drops, i + 1)
    {
      assert FoodTo(drops, i + 1) == 0 && OtherTo(drops, i + 1) == 0;
    }
  }

  lemma AccountedChain(p: Problem, d0: Demand, d1: Demand, d2: Demand, a: seq<Drop>, b: seq<Drop>)
    requires Sized(p, d0) && Sized(p, d1) && Sized(p, d2)
    requires Accounted(p, d0, d1, a) && Accounted(p, d1, d2, b)
    ensures Accounted(p, d0, d2, a + b)
  {
    forall i | 0 <= i < |p.villages|
      ensures d0.food[i] == d2.food[i] + FoodTo(a + b, i + 1)
      ensures d0.other[i] == d2.other[i] + OtherTo(a + b, i + 1)
    {
      DeliveredConcat(a, b, i + 1);
    }
  }

  // ---------------------------------------------------------------------------
  // One helicopter's plan

  /** What every trip the constructor emits satisfies: at least one drop,
      valid village ids, pickups equal to the drop sums, and a route and load
      within the helicopter's capacities. */
  predicate TripOk(dist: Metric, p: Problem, h: Helicopter, t: Trip)
    requires HomeInRange(p, h)
  {
    && |t.drops| > 0
    && DistinctVillages(t.drops)
    && AppendsCarry(t.drops)
    && DropsInRange(p, t.drops)
    && PickupsMatch(t)
    && TripDistance(dist, p, Home(p, h), t.drops) <= h.distanceCapacity
    && TripWeight(p.packages, t) <= h.weightCapacity + Eps
  }

  /** A finalised trip of a well-built drop list passes the validator's checks. */
  lemma FinishedTripKept(dist: Metric, p: Problem, h: Helicopter, budget: real, dem: Demand, b: Building,
                         t: Trip, used: real)
    requires HomeInRange(p, h) && Sized(p, dem)
    requires WellBuilt(dist, p, h, budget, dem, b)
    requires t.drops == b.drops && PickupsMatch(t)
    ensures TripOk(dist, p, h, t)
    ensures AllNonNegative(b.drops) && used + budget <= p.dMax ==> Validate.Keeps(dist, p, h, t, used)
  {
    FinishedWeight(p, h, b, t);
    StopsDistinct(p, b);
    var d := TripDistance(dist, p, Home(p, h), t.drops);
    assert d <= h.distanceCapacity && d <= budget;
    if AllNonNegative(b.drops) {
      SumsNonNegative(b.drops);
    }
  }

  /** Distinct village indexes mean distinct village ids. */
  lemma StopsDistinct(p: Problem, b: Building)
    requires StopsMatch(p, b)
    ensures DistinctVillages(b.drops)
  {
    forall k, l | 0 <= k < l < |b.drops|
      ensures b.drops[k].village != b.drops[l].village
    {
      assert b.stops[k] != b.stops[l];
    }
  }

  /** The weight of the finalised trip is the load its building recorded. */
  lemma FinishedWeight(p: Problem, h: Helicopter, b: Building, t: Trip)
    requires LoadFits(p, h, b) && t.drops == b.drops && PickupsMatch(t)
    ensures TripWeight(p.packages, t) == b.weight <= h.weightCapacity + Eps
  {
  }

  predicate AllTripsOk(dist: Metric, p: Problem, h: Helicopter, trips: seq<Trip>)
    requires HomeInRange(p, h)
  {
    forall k :: 0 <= k < |trips| ==> TripOk(dist, p, h, trips[k])
  }

  lemma AllTripsOkAppend(dist: Metric, p: Problem, h: Helicopter, trips: seq<Trip>, t: Trip)
    requires HomeInRange(p, h) && AllTripsOk(dist, p, h, trips) && TripOk(dist, p, h, t)
    ensures AllTripsOk(dist, p, h, trips + [t])
  {
    var all := trips + [t];
    assert forall k :: 0 <= k < |trips| ==> all[k] == trips[k];
    assert all[|trips|] == t;
  }

  /** The loop invariant of the plan construction: trips so far, the budget
      left and the current demand counters. */
  predicate PlanSoFar(dist: Metric, p: Problem, h: Helicopter, ratio: real, dem: Demand,
                      trips: seq<Trip>, budget: real, cur: Demand)
    requires HomeInRange(p, h) && Sized(p, dem)
  {
    && Sized(p, cur)
    && AllTripsOk(dist, p, h, trips)
    && Validate.AllInRange(p, trips)
    && Validate.TotalDistance(dist, p, Home(p, h), trips) + budget == p.dMax
    && (|trips| > 0 ==> budget >= 0.0)
    && (Sane(p, h, ratio) && DemandNonNegative(dem) ==>
          && DemandNonNegative(cur)
          && DemandBelow(cur, dem)
          && Validate.Feasible(dist, p, h, trips, 0.0)
          && AllNonNegative(Evaluate.TripDrops(trips))
          && Accounted(p, dem, cur, Evaluate.TripDrops(trips)))
  }

  /** One more finalised trip keeps the invariant. */
  lemma PlanStep(dist: Metric, p: Problem, h: Helicopter, ratio: real, dem: Demand,
                 trips: seq<Trip>, budget: real, cur: Demand, b: Building, t: Trip, next: Demand)
    requires HomeInRange(p, h) && Sized(p, dem)
    requires PlanSoFar(dist, p, h, ratio, dem, trips, budget, cur)
    requires WellBuilt(dist, p, h, budget, cur, b)
    requires Sane(p, h, ratio) && DemandNonNegative(cur) ==> AllNonNegative(b.drops)
    requires t.drops == b.drops && PickupsMatch(t) && Sized(p, next)
    requires Sized(p, cur) && StaysNonNegative(p, cur, next)
    requires AllNonNegative(b.drops) && DemandNonNegative(cur) ==> DemandBelow(next, cur)
    requires AllNonNegative(b.drops) && DemandNonNegative(cur) ==> Decremented(p, b.drops, cur, next)
    ensures PlanSoFar(dist, p, h, ratio, dem, trips + [t], budget - TripDistance(dist, p, Home(p, h), t.drops), next)
  {
    var used := Validate.TotalDistance(dist, p, Home(p, h), trips);
    FinishedTripKept(dist, p, h, budget, cur, b, t, used);
    Validate.TotalDistanceAppend(dist, p, Home(p, h), trips, t);
    AllTripsOkAppend(dist, p, h, trips, t);
    if Sane(p, h, ratio) && DemandNonNegative(dem) {
      Validate.FeasibleAppend(dist, p, h, trips, t, 0.0);
      PlanStepAccounted(p, dem, trips, cur, b, t, next);
      BelowTrans(next, cur, dem);
      NonNegativeStays(p, cur, next);
    }
  }

  lemma NonNegativeStays(p: Problem, dem: Demand, after: Demand)
    requires Sized(p, dem) && Sized(p, after)
    requires DemandNonNegative(dem) && StaysNonNegative(p, dem, after)
    ensures DemandNonNegative(after)
  {
  }

  lemma BelowTrans(a: Demand, b: Demand, c: Demand)
    requires |a.food| == |b.food| == |c.food| && |a.other| == |b.other| == |c.other|
    requires DemandBelow(a, b) && DemandBelow(b, c)
    ensures DemandBelow(a, c)
  {
  }

  lemma PlanStepAccounted(p: Problem, dem: Demand, trips: seq<Trip>, cur: Demand, b: Building, t: Trip, next: Demand)
    requires Sized(p, dem) && Sized(p, cur) && Sized(p, next) && DemandNonNegative(cur)
    requires AllNonNegative(Evaluate.TripDrops(trips)) && Accounted(p, dem, cur, Evaluate.TripDrops(trips))
    requires StopsMatch(p, b) && WithinDemand(p, cur, b) && AllNonNegative(b.drops) && t.drops == b.drops
    requires Decremented(p, b.drops, cur, next)
    ensures AllNonNegative(Evaluate.TripDrops(trips + [t]))
    ensures Accounted(p, dem, next, Evaluate.TripDrops(trips + [t]))
  {
    Evaluate.TripDropsAppend(trips, t);
    AllNonNegativeConcat(Evaluate.TripDrops(trips), t.drops);
    TripAccounted(p, cur, b, next);
    AccountedChain(p, dem, cur, next, Evaluate.TripDrops(trips), t.drops);
  }

  /** The drops of the trip one round of the plan loop builds against
      `budget` and the counters `cur`: StartTrip's pick, extended by Extend;
      None when no first stop is profitable. */
  ghost function RoundDrops(dist: Metric, p: Problem, h: Helicopter, ratio: real, budget: real, cur: Demand)
    : (r: Option<seq<Drop>>)
    requires Ready(dist, p, h) && Sized(p, cur)
    ensures r.Some? ==> DropsInRange(p, r.value)
  {
    match StartTrip(dist, p, h, ratio, budget, cur)
    case None => None
    case Some(start) => Some(Extend(dist, p, h, ratio, budget, cur, start).drops)
  }

  /** The distance budget and the counters between two rounds. */
  datatype State = State(budget: real, cur: Demand)

  /** One round of the plan loop as a step between states: from `s` the round
      adds trip `t` exactly when `t` carries the drops RoundDrops builds there
      and the pickups they add up to; the budget then goes down by the trip's
      distance and the counters by its drops. */
  ghost function Advance(dist: Metric, p: Problem, h: Helicopter, ratio: real, s: State, t: Trip): Option<State>
    requires Ready(dist, p, h)
  {
    if Sized(p, s.cur) && RoundDrops(dist, p, h, ratio, s.budget, s.cur) == Some(t.drops) && PickupsMatch(t) then
      Some(State(s.budget - TripDistance(dist, p, Home(p, h), t.drops), ServedAll(p, s.cur, t.drops)))
    else None
  }

  /** A round as a step function; None when the round does not add the trip. */
  type StepFn = (State, Trip) -> Option<State>

  ghost function PlanAdvance(dist: Metric, p: Problem, h: Helicopter, ratio: real): StepFn
    requires Ready(dist, p, h)
  {
    (s: State, t: Trip) => Advance(dist, p, h, ratio, s, t)
  }

  /** `step` is the round of the plan loop of `h`. */
  ghost predicate StepsOf(step: StepFn, dist: Metric, p: Problem, h: Helicopter, ratio: real)
    requires Ready(dist, p, h)
  {
    forall s: State, t: Trip {:trigger Advance(dist, p, h, ratio, s, t)} ::
      step(s, t) == Advance(dist, p, h, ratio, s, t)
  }

  lemma PlanAdvanceSteps(dist: Metric, p: Problem, h: Helicopter, ratio: real)
    requires Ready(dist, p, h)
    ensures StepsOf(PlanAdvance(dist, p, h, ratio), dist, p, h, ratio)
  {
  }

  /** The state `trips` lead to from `s0`, one step per trip; None once a
      step refuses its trip. */
  ghost function Replay(step: StepFn, s0: State, trips: seq<Trip>): Option<State>
    decreases |trips|
  {
    if |trips| == 0 then Some(s0)
    else
      match Replay(step, s0, trips[..|trips| - 1])
      case None => None
      case Some(s) => step(s, trips[|trips| - 1])
  }

  /** `r` is the state with budget `budget` and counters `cur`. */
  predicate IsState(r: Option<State>, budget: real, cur: Demand) {
    r.Some? && r.value.budget == budget && r.value.cur == cur
  }

  /** One more trip extends the replay by one step. */
  lemma ReplayAppend(step: StepFn, s0: State, trips: seq<Trip>, b: real, c: Demand, t: Trip, b': real, c': Demand)
    requires IsState(Replay(step, s0, trips), b, c)
    requires IsState(step(State(b, c), t), b', c')
    ensures IsState(Replay(step, s0, trips + [t]), b', c')
  {
    var all := trips + [t];
    assert all[..|all| - 1] == trips;
  }

  /** `trips` are the rounds the plan loop runs from the full budget and the
      counters `dem`, leaving the counters `after`; with ticks left, the loop
      stopped only when the budget was spent or its round adds no trip at all. */
  ghost predicate PlanRun(step: StepFn, p: Problem, dem: Demand, trips: seq<Trip>, after: Demand, left: nat)
  {
    var s := Replay(step, State(p.dMax, dem), trips);
    && s.Some? && s.value.cur == after
    && (left > 0 && s.value.budget > 0.000001 ==> forall t: Trip :: step(s.value, t).None?)
  }

  /** From budget `budget` and counters `cur`, the round adds trip `t` when
      `t` carries the drops RoundDrops builds there and the matching pickups. */
  lemma StepTaken(step: StepFn, dist: Metric, p: Problem, h: Helicopter, ratio: real,
                  budget: real, cur: Demand, t: Trip, next: Demand)
    requires Ready(dist, p, h) && Sized(p, cur) && StepsOf(step, dist, p, h, ratio)
    requires RoundDrops(dist, p, h, ratio, budget, cur) == Some(t.drops) && PickupsMatch(t)
    requires next == ServedAll(p, cur, t.drops)
    ensures IsState(step(State(budget, cur), t), budget - TripDistance(dist, p, Home(p, h), t.drops), next)
  {
    assert Advance(dist, p, h, ratio, State(budget, cur), t).Some?;
  }

  /** With no profitable first stop, the round adds no trip. */
  lemma NoStartNoStep(dist: Metric, p: Problem, h: Helicopter, ratio: real, s: State)
    requires Ready(dist, p, h) && Sized(p, s.cur)
    requires StartTrip(dist, p, h, ratio, s.budget, s.cur).None?
    ensures forall t: Trip :: PlanAdvance(dist, p, h, ratio)(s, t).None?
  {
    assert RoundDrops(dist, p, h, ratio, s.budget, s.cur).None?;
  }

  /** One round of the plan loop: a new trip started at the best first stop,
      extended greedily and finalised against the counters `cur`, or None
      when no first stop is profitable (`found` false, the counters unchanged). */
  method NextTrip(dist: Metric, p: Problem, h: Helicopter, ratio: real, dem: Demand,
                  trips: seq<Trip>, budget: real, cur: Demand)
    returns (found: bool, t: Trip, next: Demand)
    requires Ready(dist, p, h) && Sized(p, dem)
    requires PlanSoFar(dist, p, h, ratio, dem, trips, budget, cur)
    ensures found ==>
              && DropsInRange(p, t.drops)
              && PlanSoFar(dist, p, h, ratio, dem, trips + [t], budget - TripDistance(dist, p, Home(p, h), t.drops), next)
    ensures !found <==> StartTrip(dist, p, h, ratio, budget, cur).None?
    // the trip is StartTrip's pick extended by Extend; the counters are those
    // left once its drops are served
    ensures found ==>
              && RoundDrops(dist, p, h, ratio, budget, cur) == Some(t.drops)
              && PickupsMatch(t)
              && next == ServedAll(p, cur, t.drops)
  {
    var start := StartTrip(dist, p, h, ratio, budget, cur);
    if start.None? {
      return false, Trip([], 0, 0, 0), cur;
    }
    var b := Extend(dist, p, h, ratio, budget, cur, start.value);
    found := true;
    t, next := Finalise(p, b.drops, cur);
    PlanStep(dist, p, h, ratio, dem, trips, budget, cur, b, t, next);
  }

  /** What the invariant promises of the finished plan. */
  lemma PlanDone(dist: Metric, p: Problem, h: Helicopter, ratio: real, dem: Demand,
                 trips: seq<Trip>, budget: real, cur: Demand)
    requires HomeInRange(p, h) && Sized(p, dem)
    requires PlanSoFar(dist, p, h, ratio, dem, trips, budget, cur)
    ensures Sized(p, cur)
    ensures forall k :: 0 <= k < |trips| ==> TripOk(dist, p, h, trips[k])
    ensures Validate.AllInRange(p, trips)
    ensures |trips| > 0 ==> Validate.TotalDistance(dist, p, Home(p, h), trips) <= p.dMax
    ensures Sane(p, h, ratio) && DemandNonNegative(dem) ==>
              && DemandNonNegative(cur)
              && DemandBelow(cur, dem)
              && Validate.Feasible(dist, p, h, trips, 0.0)
              && AllNonNegative(Evaluate.TripDrops(trips))
              && Accounted(p, dem, cur, Evaluate.TripDrops(trips))
  {
  }

  /** The trips of helicopter `h` built until no profitable first stop is
      left, the distance budget is spent, or the `ticks` allowance (the
      deadline) runs out; also the demand counters afterwards and the ticks
      left. */
  method BuildPlan(dist: Metric, p: Problem, h: Helicopter, ratio: real, dem: Demand, ticks: nat)
    returns (plan: Plan, after: Demand, left: nat)
    requires Ready(dist, p, h) && Sized(p, dem)
    ensures plan.helicopter == h.id
    ensures Sized(p, after) && left <= ticks
    ensures forall k :: 0 <= k < |plan.trips| ==> TripOk(dist, p, h, plan.trips[k])
    ensures Validate.AllInRange(p, plan.trips)
    ensures |plan.trips| > 0 ==> Validate.TotalDistance(dist, p, Home(p, h), plan.trips) <= p.dMax
    ensures Sane(p, h, ratio) && DemandNonNegative(dem) ==>
              && DemandNonNegative(after)
              && DemandBelow(after, dem)
              && Validate.Feasible(dist, p, h, plan.trips, 0.0)
    // the counters drop by exactly what the plan delivers
    ensures Sane(p, h, ratio) && DemandNonNegative(dem) ==>
              && AllNonNegative(Evaluate.TripDrops(plan.trips))
              && Accounted(p, dem, after, Evaluate.TripDrops(plan.trips))
    // with ticks left, the plan ends only when the budget is spent or no
    // first stop is profitable against what is left of it
    ensures
      var rest := p.dMax - Validate.TotalDistance(dist, p, Home(p, h), plan.trips);
      left > 0 && rest > 0.000001 ==> StartTrip(dist, p, h, ratio, rest, after).None?
    // the trips are the rounds StartTrip and Extend build, one after the other,
    // each round spending a tick, and so does a last round that starts no trip
    ensures left + |plan.trips| <= ticks <= left + |plan.trips| + 1
    ensures PlanRun(PlanAdvance(dist, p, h, ratio), p, dem, plan.trips, after, left)
  {
    PlanAdvanceSteps(dist, p, h, ratio);
    var trips, budget, cur, l := PlanTrips(dist, p, h, ratio, PlanAdvance(dist, p, h, ratio), dem, ticks);
    PlanDone(dist, p, h, ratio, dem, trips, budget, cur);
    PlanRunDone(dist, p, h, ratio, dem, trips, budget, cur, l);
    plan := Plan(h.id, trips);
    after := cur;
    left := l;
  }

  /** The plan loop's replay, and its stop, make a run. */
  lemma PlanRunDone(dist: Metric, p: Problem, h: Helicopter, ratio: real, dem: Demand,
                    trips: seq<Trip>, budget: real, cur: Demand, left: nat)
    requires Ready(dist, p, h) && Sized(p, dem) && Sized(p, cur)
    requires IsState(Replay(PlanAdvance(dist, p, h, ratio), State(p.dMax, dem), trips), budget, cur)
    requires left > 0 && budget > 0.000001 ==> StartTrip(dist, p, h, ratio, budget, cur).None?
    ensures PlanRun(PlanAdvance(dist, p, h, ratio), p, dem, trips, cur, left)
  {
    var s := Replay(PlanAdvance(dist, p, h, ratio), State(p.dMax, dem), trips).value;
    if left > 0 && budget > 0.000001 {
      NoStartNoStep(dist, p, h, ratio, s);
    }
  }

  /** The plan loop: trips are added while the budget exceeds 1e-6, ticks
      are left and a first stop is profitable. */
  method PlanTrips(dist: Metric, p: Problem, h: Helicopter, ratio: real, ghost step: StepFn, dem: Demand, ticks: nat)
    returns (trips: seq<Trip>, budget: real, cur: Demand, left: nat)
    requires Ready(dist, p, h) && Sized(p, dem) && StepsOf(step, dist, p, h, ratio)
    ensures left <= ticks
    ensures PlanSoFar(dist, p, h, ratio, dem, trips, budget, cur)
    // every trip is the one its round builds, from the full budget and `dem`
    ensures IsState(Replay(step, State(p.dMax, dem), trips), budget, cur)
    // one tick per round, including a last round that starts no trip
    ensures |trips| <= ticks - left <= |trips| + 1
    ensures left > 0 && budget > 0.000001 ==> StartTrip(dist, p, h, ratio, budget, cur).None?
  {
    trips := [];
    budget := p.dMax;
    cur := dem;
    left := ticks;
    AccountedNothing(p, dem, cur, Evaluate.TripDrops(trips));
    while budget > 0.000001 && left > 0
      invariant left <= ticks && ticks - left == |trips|
      invariant PlanSoFar(dist, p, h, ratio, dem, trips, budget, cur)
      invariant IsState(Replay(step, State(p.dMax, dem), trips), budget, cur)
      decreases left
    {
      left := left - 1;
      var found, t, next := NextTrip(dist, p, h, ratio, dem, trips, budget, cur);
      if !found {
        break;
      }
      StepTaken(step, dist, p, h, ratio, budget, cur, t, next);
      ReplayAppend(step, State(p.dMax, dem), trips, budget, cur, t,
                   budget - TripDistance(dist, p, Home(p, h), t.drops), next);
      trips := trips + [t];
      budget := budget - TripDistance(dist, p, Home(p, h), t.drops);
      cur := next;
    }
  }

  // ---------------------------------------------------------------------------
  // One construction pass over the whole fleet

  /** Helicopter ids are dense and 1-based (the solver uses `id - 1` as an
      index) and every home city exists. */
  predicate FleetReady(p: Problem) {
    forall k :: 0 <= k < |p.helicopters| ==> p.helicopters[k].id == k + 1 && HomeInRange(p, p.helicopters[k])
  }

  /** Non-negative weight capacities and populations. */
  predicate NonNegativeInputs(p: Problem) {
    && (forall k :: 0 <= k < |p.helicopters| ==> 0.0 <= p.helicopters[k].weightCapacity)
    && (forall i :: 0 <= i < |p.villages| ==> 0 <= p.villages[i].population)
  }

  /** Inputs under which the constructor only produces non-negative
      quantities: a dry share in [0, 1] and non-negative inputs. */
  predicate FleetSane(p: Problem, ratio: real) {
    0.0 <= ratio <= 1.0 && NonNegativeInputs(p)
  }

  /** A plan as the constructor emits it for the helicopter at index k. */
  predicate PlanBuilt(dist: Metric, p: Problem, plan: Plan, k: nat)
    requires FleetReady(p) && k < |p.helicopters|
  {
    var h := p.helicopters[k];
    && plan.helicopter == k + 1
    && PlanRefsOk(p, plan)
    && (forall m :: 0 <= m < |plan.trips| ==> TripOk(dist, p, h, plan.trips[m]))
    && (|plan.trips| > 0 ==> Validate.TotalDistance(dist, p, Home(p, h), plan.trips) <= p.dMax)
  }

  lemma PlanBuiltFrom(dist: Metric, p: Problem, h: Helicopter, ratio: real, k: nat, plan: Plan)
    requires FleetReady(p) && k < |p.helicopters| && h == p.helicopters[k]
    requires plan.helicopter == h.id
    requires forall m :: 0 <= m < |plan.trips| ==> TripOk(dist, p, h, plan.trips[m])
    requires Validate.AllInRange(p, plan.trips)
    requires |plan.trips| > 0 ==> Validate.TotalDistance(dist, p, Home(p, h), plan.trips) <= p.dMax
    ensures PlanBuilt(dist, p, plan, k)
    ensures FleetSane(p, ratio) ==> Sane(p, h, ratio)
  {
  }

  /** A pass's counters stay accounted for after one more plan. */
  lemma FleetStep(p: Problem, dem: Demand, next: Demand, sol: Solution, plan: Plan)
    requires Sized(p, dem) && Sized(p, next)
    requires AllNonNegative(Evaluate.SolutionDrops(sol))
    requires Accounted(p, InitialDemand(p), dem, Evaluate.SolutionDrops(sol))
    requires AllNonNegative(Evaluate.TripDrops(plan.trips))
    requires Accounted(p, dem, next, Evaluate.TripDrops(plan.trips))
    ensures AllNonNegative(Evaluate.SolutionDrops(sol + [plan]))
    ensures Accounted(p, InitialDemand(p), next, Evaluate.SolutionDrops(sol + [plan]))
  {
    Evaluate.SolutionDropsAppend(sol, plan);
    AllNonNegativeConcat(Evaluate.SolutionDrops(sol), Evaluate.TripDrops(plan.trips));
    AccountedChain(p, InitialDemand(p), dem, next, Evaluate.SolutionDrops(sol), Evaluate.TripDrops(plan.trips));
  }

  /** Counters that started at the caps and never went negative mean no
      village was sent more than its caps. */
  lemma NeverOversupplied(p: Problem, dem: Demand, drops: seq<Drop>)
    requires Sized(p, dem) && DemandNonNegative(dem)
    requires Accounted(p, InitialDemand(p), dem, drops)
    ensures Evaluate.Uncapped(p, drops, Evaluate.NoDeliveries)
  {
    var d0 := InitialDemand(p);
    forall i | 0 <= i < |p.villages|
      ensures Evaluate.Get(Evaluate.NoDeliveries.food, i + 1) + FoodTo(drops, i + 1) <= 9 * p.villages[i].population
      ensures Evaluate.Get(Evaluate.NoDeliveries.other, i + 1) + OtherTo(drops, i + 1) <= p.villages[i].population
    {
      assert d0.food[i] == 9 * p.villages[i].population && d0.other[i] == p.villages[i].population;
      assert dem.food[i] >= 0 && dem.other[i] >= 0;
    }
  }

  /** Each plan of `sol` is the one built for the helicopter at its index. */
  predicate AllBuilt(dist: Metric, p: Problem, sol: Solution)
    requires FleetReady(p) && |sol| <= |p.helicopters|
  {
    forall m :: 0 <= m < |sol| ==> PlanBuilt(dist, p, sol[m], m)
  }

  /** Every trip of every plan of `sol` passes the validator's checks. */
  predicate AllFeasible(dist: Metric, p: Problem, sol: Solution) {
    forall m :: 0 <= m < |sol| ==> Validate.PlanFeasible(dist, p, sol[m])
  }

  lemma AllBuiltAppend(dist: Metric, p: Problem, sol: Solution, plan: Plan)
    requires FleetReady(p) && |sol| < |p.helicopters|
    requires AllBuilt(dist, p, sol) && PlanBuilt(dist, p, plan, |sol|)
    ensures AllBuilt(dist, p, sol + [plan])
  {
    var all := sol + [plan];
    assert forall m :: 0 <= m < |sol| ==> all[m] == sol[m];
    assert all[|sol|] == plan;
  }

  lemma AllFeasibleAppend(dist: Metric, p: Problem, sol: Solution, plan: Plan)
    requires AllFeasible(dist, p, sol) && Validate.PlanFeasible(dist, p, plan)
    ensures AllFeasible(dist, p, sol + [plan])
  {
    var all := sol + [plan];
    assert forall m :: 0 <= m < |sol| ==> all[m] == sol[m];
    assert all[|sol|] == plan;
  }

  /** The loop invariant of a construction pass after the first |sol| helicopters. */
  predicate FleetSoFar(dist: Metric, p: Problem, ratio: real, sol: Solution, dem: Demand)
    requires FleetReady(p) && |sol| <= |p.helicopters|
  {
    && Sized(p, dem)
    && AllBuilt(dist, p, sol)
    && (FleetSane(p, ratio) ==>
          && DemandNonNegative(dem)
          && AllFeasible(dist, p, sol)
          && AllNonNegative(Evaluate.SolutionDrops(sol))
          && Accounted(p, InitialDemand(p), dem, Evaluate.SolutionDrops(sol)))
  }

  /** The round of the plan loop of each helicopter, by fleet index. */
  ghost function FleetSteps(dist: Metric, p: Problem, ratio: real): nat -> StepFn
    requires DenseIds(p) && Symmetric(dist) && FleetReady(p)
  {
    (m: nat) => if m < |p.helicopters| then PlanAdvance(dist, p, p.helicopters[m], ratio)
                else (s: State, t: Trip) => None
  }

  /** Plan m of `sol` is the plan loop's run with the round `steps(m)` of
      the helicopter at index m, from the counters `dems[m]` and `lefts[m]`
      ticks, leaving `dems[m + 1]` and `lefts[m + 1]`: one tick per round. */
  ghost predicate FleetRan(steps: nat -> StepFn, dist: Metric, p: Problem, sol: Solution,
                           dems: seq<Demand>, lefts: seq<nat>)
    requires FleetReady(p) && |sol| <= |p.helicopters|
  {
    && |dems| == |sol| + 1 && |lefts| == |sol| + 1
    && forall m :: 0 <= m < |sol| ==>
         && Sized(p, dems[m])
         && lefts[m + 1] + |sol[m].trips| <= lefts[m] <= lefts[m + 1] + |sol[m].trips| + 1
         && PlanRun(steps(m), p, dems[m], sol[m].trips, dems[m + 1], lefts[m + 1])
  }

  lemma FleetRanAppend(steps: nat -> StepFn, dist: Metric, p: Problem, sol: Solution,
                       dems: seq<Demand>, lefts: seq<nat>, plan: Plan, next: Demand, l: nat)
    requires FleetReady(p) && |sol| < |p.helicopters|
    requires FleetRan(steps, dist, p, sol, dems, lefts)
    requires Sized(p, dems[|sol|]) && l + |plan.trips| <= lefts[|sol|] <= l + |plan.trips| + 1
    requires PlanRun(steps(|sol|), p, dems[|sol|], plan.trips, next, l)
    ensures FleetRan(steps, dist, p, sol + [plan], dems + [next], lefts + [l])
  {
    var all, ds, ls := sol + [plan], dems + [next], lefts + [l];
    assert forall m :: 0 <= m < |sol| ==> all[m] == sol[m];
    assert forall m :: 0 <= m <= |sol| ==> ds[m] == dems[m] && ls[m] == lefts[m];
    assert all[|sol|] == plan && ds[|sol| + 1] == next && ls[|sol| + 1] == l;
  }

  /** The plan of the next helicopter keeps the pass invariant. */
  method NextPlan(dist: Metric, p: Problem, ratio: real, sol: Solution, dem: Demand, ticks: nat)
    returns (sol': Solution, dem': Demand, left: nat)
    requires DenseIds(p) && Symmetric(dist) && FleetReady(p) && |sol| < |p.helicopters|
    requires FleetSoFar(dist, p, ratio, sol, dem)
    ensures |sol'| == |sol| + 1 && sol' == sol + [sol'[|sol|]] && left <= ticks
    ensures FleetSoFar(dist, p, ratio, sol', dem')
    // the new plan is the plan loop's run for the helicopter from `dem`
    ensures left + |sol'[|sol|].trips| <= ticks <= left + |sol'[|sol|].trips| + 1
    ensures PlanRun(FleetSteps(dist, p, ratio)(|sol|), p, dem, sol'[|sol|].trips, dem', left)
  {
    var k := |sol|;
    var h := p.helicopters[k];
    var plan, next, l := BuildPlan(dist, p, h, ratio, dem, ticks);
    PlanBuiltFrom(dist, p, h, ratio, k, plan);
    if FleetSane(p, ratio) {
      assert Validate.PlanFeasible(dist, p, plan);
      FleetStep(p, dem, next, sol, plan);
    }
    FleetExtended(dist, p, ratio, sol, dem, plan, next);
    sol' := sol + [plan];
    dem' := next;
    left := l;
  }

  lemma FleetExtended(dist: Metric, p: Problem, ratio: real, sol: Solution, dem: Demand, plan: Plan, next: Demand)
    requires FleetReady(p) && |sol| < |p.helicopters|
    requires FleetSoFar(dist, p, ratio, sol, dem) && Sized(p, next)
    requires PlanBuilt(dist, p, plan, |sol|)
    requires FleetSane(p, ratio) ==>
               && Validate.PlanFeasible(dist, p, plan)
               && DemandNonNegative(next)
               && AllNonNegative(Evaluate.SolutionDrops(sol + [plan]))
               && Accounted(p, InitialDemand(p), next, Evaluate.SolutionDrops(sol + [plan]))
    ensures FleetSoFar(dist, p, ratio, sol + [plan], next)
  {
    AllBuiltAppend(dist, p, sol, plan);
    if FleetSane(p, ratio) {
      AllFeasibleAppend(dist, p, sol, plan);
    }
  }

  /** What the pass invariant promises of the finished pass. */
  lemma FleetDone(dist: Metric, p: Problem, ratio: real, sol: Solution, dem: Demand)
    requires DenseIds(p) && FleetReady(p) && |sol| <= |p.helicopters|
    requires FleetSoFar(dist, p, ratio, sol, dem)
    ensures RefsOk(p, sol)
    ensures FleetSane(p, ratio) ==> forall k :: 0 <= k < |sol| ==> Validate.PlanFeasible(dist, p, sol[k])
    ensures FleetSane(p, ratio) ==> Validate.ValidateSolution(dist, p, sol) == Validate.NonEmptyPlans(sol)
    ensures FleetSane(p, ratio) ==> Evaluate.Uncapped(p, Evaluate.SolutionDrops(sol), Evaluate.NoDeliveries)
    ensures FleetSane(p, ratio) ==>
              Evaluate.Score(dist, p, sol)
              == Evaluate.FullWorth(p.packages, Evaluate.Deliveries(p, sol)) - Evaluate.SolutionCost(dist, p, sol)
  {
    assert forall k :: 0 <= k < |sol| ==> PlanRefsOk(p, sol[k]) by {
      forall k | 0 <= k < |sol| ensures PlanRefsOk(p, sol[k]) {
        assert PlanBuilt(dist, p, sol[k], k);
      }
    }
    if FleetSane(p, ratio) {
      Validate.FeasiblePlansKept(dist, p, sol);
      NeverOversupplied(p, dem, Evaluate.SolutionDrops(sol));
      Evaluate.UncappedValue(p, Evaluate.Deliveries(p, sol), Evaluate.NoDeliveries);
    }
  }

  /** One construction pass: fresh demand counters, then one plan per
      helicopter in fleet order, every plan sharing the counters, until the
      `ticks` allowance (the deadline) runs out. A plan is kept even when it
      has no trip. */
  method BuildSolution(dist: Metric, p: Problem, ratio: real, ticks: nat)
    returns (sol: Solution, left: nat, ghost dems: seq<Demand>, ghost lefts: seq<nat>)
    requires DenseIds(p) && Symmetric(dist) && FleetReady(p)
    ensures |sol| <= |p.helicopters| && left <= ticks
    // plan by plan, the plan loop's runs in fleet order, from fresh counters
    // and the full allowance, each run starting where the previous one ended
    ensures FleetRan(FleetSteps(dist, p, ratio), dist, p, sol, dems, lefts)
    ensures dems[0] == InitialDemand(p) && lefts[0] == ticks && lefts[|sol|] == left
    // with ticks left, every helicopter has its plan
    ensures left > 0 ==> |sol| == |p.helicopters|
    ensures forall k :: 0 <= k < |sol| ==> PlanBuilt(dist, p, sol[k], k)
    ensures RefsOk(p, sol)
    // every trip the pass builds survives the final validation
    ensures FleetSane(p, ratio) ==> forall k :: 0 <= k < |sol| ==> Validate.PlanFeasible(dist, p, sol[k])
    ensures FleetSane(p, ratio) ==> Validate.ValidateSolution(dist, p, sol) == Validate.NonEmptyPlans(sol)
    // no village is sent more than its caps, so the evaluator counts every unit
    ensures FleetSane(p, ratio) ==> Evaluate.Uncapped(p, Evaluate.SolutionDrops(sol), Evaluate.NoDeliveries)
    ensures FleetSane(p, ratio) ==>
              Evaluate.Score(dist, p, sol)
              == Evaluate.FullWorth(p.packages, Evaluate.Deliveries(p, sol)) - Evaluate.SolutionCost(dist, p, sol)
  {
    var dem := InitialDemand(p);
    sol := [];
    left := ticks;
    dems, lefts := [dem], [ticks];
    AccountedNothing(p, dem, dem, Evaluate.SolutionDrops(sol));
    while |sol| < |p.helicopters| && left > 0
      invariant |sol| <= |p.helicopters| && left <= ticks
      invariant FleetSoFar(dist, p, ratio, sol, dem)
      invariant FleetRan(FleetSteps(dist, p, ratio), dist, p, sol, dems, lefts)
      invariant dems[0] == InitialDemand(p) && lefts[0] == ticks
      invariant dems[|sol|] == dem && lefts[|sol|] == left
      decreases |p.helicopters| - |sol|
    {
      var sol', dem', left' := NextPlan(dist, p, ratio, sol, dem, left);
      FleetRanAppend(FleetSteps(dist, p, ratio), dist, p, sol, dems, lefts, sol'[|sol|], dem', left');
      sol, dem, left := sol', dem', left';
      dems, lefts := dems + [dem], lefts + [left];
    }
    FleetDone(dist, p, ratio, sol, dem);
  }
}

=== FILE: evaluate.dfy ===
/** The authoritative score of a candidate solution: total value minus total
    flight cost. Value is counted drop by drop, in the order the drops appear
    across all plans and trips, against per-village running totals, so each
    village's caps apply once to the solution as a whole. */
module Evaluate {
  import opened Types
  import opened Value
  import Validate

  /** Units already delivered to each village, keyed by village id. */
  datatype Tally = Tally(food: map<int, int>, other: map<int, int>)

  const NoDeliveries: Tally := Tally(map[], map[])

  function Get(m: map<int, int>, k: int): int {
    if k in m then m[k] else 0
  }

  /** The units of drop `d` at village `v` that earn value, given what `t`
      says the village has already received. */
  function DropCounted(v: Village, d: Drop, t: Tally): (c: Counted)
    ensures c.dry + c.perishable <= Max(0, 9 * v.population - Get(t.food, v.id))
    ensures c.dry + c.perishable <= d.Food()
    ensures c.other <= Max(0, v.population - Get(t.other, v.id))
    ensures c.other <= d.other
    ensures d.NonNegative() ==>
              && c.dry + c.perishable == Min(d.Food(), Max(0, 9 * v.population - Get(t.food, v.id)))
              && 0 <= c.perishable <= d.perishable
              && 0 <= c.dry <= d.dry
              && (c.dry > 0 ==> c.perishable == d.perishable)
              && 0 <= c.other
              && c.other == Min(d.other, Max(0, v.population - Get(t.other, v.id)))
  {
    var foodRoom := Max(0, 9 * v.population - Get(t.food, v.id));
    var effectiveFood := Min(d.Food(), foodRoom);
    var effectivePerishable := Min(d.perishable, effectiveFood);
    var effectiveDry := Min(d.dry, effectiveFood - effectivePerishable);
    var otherRoom := Max(0, v.population - Get(t.other, v.id));
    Counted(effectiveDry, effectivePerishable, Min(d.other, otherRoom))
  }

  /** The running totals after drop `d` at village `v`: everything delivered
      is recorded, counted or not. */
  function Record(v: Village, d: Drop, t: Tally): (t': Tally)
    ensures Get(t'.food, v.id) == Get(t.food, v.id) + d.Food()
    ensures Get(t'.other, v.id) == Get(t.other, v.id) + d.other
    ensures forall id :: id != v.id ==> Get(t'.food, id) == Get(t.food, id) && Get(t'.other, id) == Get(t.other, id)
  {
    Tally(t.food[v.id := Get(t.food, v.id) + d.Food()], t.other[v.id := Get(t.other, v.id) + d.other])
  }

  /** Value of `drops`, in order, starting from the running totals `t`. */
  function ValueFrom(p: Problem, drops: seq<Drop>, t: Tally): real
    requires DropsInRange(p, drops)
    decreases |drops|
  {
    if |drops| == 0 then 0.0
    else
      var v := p.villages[drops[0].village - 1];
      Worth(DropCounted(v, drops[0], t), p.packages) + ValueFrom(p, drops[1..], Record(v, drops[0], t))
  }

  /** All drops of a list of trips, in order. */
  function TripDrops(trips: seq<Trip>): seq<Drop>
    decreases |trips|
  {
    if |trips| == 0 then [] else trips[0].drops + TripDrops(trips[1..])
  }

  /** All drops of a solution, in the order the evaluator meets them. */
  function SolutionDrops(sol: Solution): seq<Drop>
    decreases |sol|
  {
    if |sol| == 0 then [] else TripDrops(sol[0].trips) + SolutionDrops(sol[1..])
  }

  lemma {:induction false} TripDropsInRange(p: Problem, trips: seq<Trip>)
    requires forall k :: 0 <= k < |trips| ==> DropsInRange(p, trips[k].drops)
    ensures DropsInRange(p, TripDrops(trips))
    decreases |trips|
  {
    if |trips| > 0 {
      TripDropsInRange(p, trips[1..]);
    }
  }

  lemma {:induction false} SolutionDropsInRange(p: Problem, sol: Solution)
    requires RefsOk(p, sol)
    ensures DropsInRange(p, SolutionDrops(sol))
    decreases |sol|
  {
    if |sol| > 0 {
      TripDropsInRange(p, sol[0].trips);
      SolutionDropsInRange(p, sol[1..]);
    }
  }

  /** The drops of a solution whose ids are in range, in evaluation order. */
  function Deliveries(p: Problem, sol: Solution): (drops: seq<Drop>)
    requires RefsOk(p, sol)
    ensures DropsInRange(p, drops)
  {
    SolutionDropsInRange(p, sol);
    SolutionDrops(sol)
  }

  /** Flight cost of a plan's trips: fixed cost plus alpha per unit of
      distance for every trip that has a drop. */
  function TripsCost(dist: Metric, p: Problem, h: Helicopter, trips: seq<Trip>): real
    requires HomeInRange(p, h)
    requires forall k :: 0 <= k < |trips| ==> DropsInRange(p, trips[k].drops)
    decreases |trips|
  {
    if |trips| == 0 then 0.0
    else
      var t := trips[0];
      (if |t.drops| == 0 then 0.0 else h.fixedCost + h.alpha * TripDistance(dist, p, Home(p, h), t.drops))
      + TripsCost(dist, p, h, trips[1..])
  }

  function SolutionCost(dist: Metric, p: Problem, sol: Solution): real
    requires RefsOk(p, sol)
    decreases |sol|
  {
    if |sol| == 0 then 0.0
    else
      assert RefsOk(p, sol[1..]) by {
        assert forall k :: 0 <= k < |sol[1..]| ==> sol[1..][k] == sol[k + 1];
      }
      TripsCost(dist, p, p.helicopters[sol[0].helicopter - 1], sol[0].trips) + SolutionCost(dist, p, sol[1..])
  }

  /** The evaluator's score: delivered value minus flight cost. */
  function Score(dist: Metric, p: Problem, sol: Solution): real
    requires RefsOk(p, sol)
  {
    ValueFrom(p, Deliveries(p, sol), NoDeliveries) - SolutionCost(dist, p, sol)
  }

  /** The running totals after all of `drops`, in order. */
  function Recorded(p: Problem, drops: seq<Drop>, t: Tally): Tally
    requires DropsInRange(p, drops)
    decreases |drops|
  {
    if |drops| == 0 then t
    else Recorded(p, drops[1..], Record(p.villages[drops[0].village - 1], drops[0], t))
  }

  /** The totals are never reset between trips or plans: the value of two
      drop lists one after the other is the value of the first plus the
      value of the second counted from the totals the first leaves. */
  lemma {:induction false} ValueConcat(p: Problem, a: seq<Drop>, b: seq<Drop>, t: Tally)
    requires DropsInRange(p, a) && DropsInRange(p, b)
    ensures DropsInRange(p, a + b)
    ensures ValueFrom(p, a + b, t) == ValueFrom(p, a, t) + ValueFrom(p, b, Recorded(p, a, t))
    decreases |a|
  {
    DropsConcat(p, a, b);
    if |a| == 0 {
      assert a + b == b;
    } else {
      var ab := a + b;
      assert ab[0] == a[0] && ab[1..] == a[1..] + b;
      ValueConcat(p, a[1..], b, Record(p.villages[a[0].village - 1], a[0], t));
    }
  }

  lemma DropsConcat(p: Problem, a: seq<Drop>, b: seq<Drop>)
    requires DropsInRange(p, a) && DropsInRange(p, b)
    ensures DropsInRange(p, a + b)
    ensures |a| > 0 ==> DropsInRange(p, a[1..])
  {
    var ab := a + b;
    assert forall k :: 0 <= k < |a| ==> ab[k] == a[k];
    assert forall k :: 0 <= k < |b| ==> ab[|a| + k] == b[k];
    if |a| > 0 {
      assert forall k :: 0 <= k < |a[1..]| ==> a[1..][k] == a[k + 1];
    }
  }

  /** With every trip non-empty, a plan costs the fixed cost once per trip
      plus alpha times its total distance. */
  lemma {:induction false} TripsCostTotal(dist: Metric, p: Problem, h: Helicopter, trips: seq<Trip>)
    requires HomeInRange(p, h) && Validate.AllInRange(p, trips)
    requires forall k :: 0 <= k < |trips| ==> |trips[k].drops| > 0
    ensures TripsCost(dist, p, h, trips)
            == |trips| as real * h.fixedCost + h.alpha * Validate.TotalDistance(dist, p, Home(p, h), trips)
    decreases |trips|
  {
    if |trips| > 0 {
      assert forall k :: 0 <= k < |trips[1..]| ==> trips[1..][k] == trips[k + 1];
      TripsCostTotal(dist, p, h, trips[1..]);
      var n := |trips[1..]| as real;
      var d := TripDistance(dist, p, Home(p, h), trips[0].drops);
      var rest := Validate.TotalDistance(dist, p, Home(p, h), trips[1..]);
      assert |trips| as real * h.fixedCost == h.fixedCost + n * h.fixedCost;
      assert h.alpha * (d + rest) == h.alpha * d + h.alpha * rest;
    }
  }

  // ---------------------------------------------------------------------------
  // Per-village caps across the whole solution

  /** Food units of `drops` counted for the village with id `id`. */
  function CountedFood(p: Problem, drops: seq<Drop>, t: Tally, id: int): int
    requires DropsInRange(p, drops)
    decreases |drops|
  {
    if |drops| == 0 then 0
    else
      var v := p.villages[drops[0].village - 1];
      var c := DropCounted(v, drops[0], t);
      (if v.id == id then c.dry + c.perishable else 0) + CountedFood(p, drops[1..], Record(v, drops[0], t), id)
  }

  /** Other-supply units of `drops` counted for the village with id `id`. */
  function CountedOther(p: Problem, drops: seq<Drop>, t: Tally, id: int): int
    requires DropsInRange(p, drops)
    decreases |drops|
  {
    if |drops| == 0 then 0
    else
      var v := p.villages[drops[0].village - 1];
      var c := DropCounted(v, drops[0], t);
      (if v.id == id then c.other else 0) + CountedOther(p, drops[1..], Record(v, drops[0], t), id)
  }

  /** Whatever the drops and their order, the food counted for a village
      never exceeds the room its cap leaves after what was already recorded. */
  lemma {:induction false} CountedFoodWithinCap(p: Problem, drops: seq<Drop>, t: Tally, i: nat)
    requires DenseIds(p) && DropsInRange(p, drops) && i < |p.villages|
    ensures CountedFood(p, drops, t, i + 1) <= Max(0, 9 * p.villages[i].population - Get(t.food, i + 1))
    decreases |drops|
  {
    if |drops| > 0 {
      var v := p.villages[drops[0].village - 1];
      CountedFoodWithinCap(p, drops[1..], Record(v, drops[0], t), i);
    }
  }

  /** Whatever the drops and their order, the other supplies counted for a
      village never exceed the room left under its population. */
  lemma {:induction false} CountedOtherWithinCap(p: Problem, drops: seq<Drop>, t: Tally, i: nat)
    requires DenseIds(p) && DropsInRange(p, drops) && i < |p.villages|
    ensures CountedOther(p, drops, t, i + 1) <= Max(0, p.villages[i].population - Get(t.other, i + 1))
    decreases |drops|
  {
    if |drops| > 0 {
      var v := p.villages[drops[0].village - 1];
      CountedOtherWithinCap(p, drops[1..], Record(v, drops[0], t), i);
    }
  }

  /** Over a whole solution, the evaluator counts at most nine food units and
      one other-supply unit per inhabitant of each village. */
  lemma SolutionWithinCaps(p: Problem, sol: Solution, i: nat)
    requires DenseIds(p) && RefsOk(p, sol) && i < |p.villages|
    requires 0 <= p.villages[i].population
    ensures CountedFood(p, Deliveries(p, sol), NoDeliveries, i + 1) <= 9 * p.villages[i].population
    ensures CountedOther(p, Deliveries(p, sol), NoDeliveries, i + 1) <= p.villages[i].population
  {
    CountedFoodWithinCap(p, Deliveries(p, sol), NoDeliveries, i);
    CountedOtherWithinCap(p, Deliveries(p, sol), NoDeliveries, i);
  }

  /** A village's first drop is valued as calculateVillageValue values it. */
  lemma FirstDropValue(v: Village, d: Drop, t: Tally, pk: Packages)
    requires d.NonNegative() && 0 <= v.population
    requires Get(t.food, v.id) == 0 && Get(t.other, v.id) == 0
    ensures DropCounted(v, d, t) == CountedUnits(v.population, d.dry, d.perishable, d.other)
    ensures Worth(DropCounted(v, d, t), pk) == VillageValue(v, d.dry, d.perishable, d.other, pk)
  {
  }

  // ---------------------------------------------------------------------------
  // Solutions that never exceed a cap

  lemma {:induction false} TripDropsAppend(trips: seq<Trip>, t: Trip)
    ensures TripDrops(trips + [t]) == TripDrops(trips) + t.drops
    decreases |trips|
  {
    var all := trips + [t];
    if |trips| == 0 {
      assert all[1..] == [];
    } else {
      assert all[0] == trips[0] && all[1..] == trips[1..] + [t];
      TripDropsAppend(trips[1..], t);
    }
  }

  lemma {:induction false} SolutionDropsAppend(sol: Solution, plan: Plan)
    ensures SolutionDrops(sol + [plan]) == SolutionDrops(sol) + TripDrops(plan.trips)
    decreases |sol|
  {
    var all := sol + [plan];
    if |sol| == 0 {
      assert all[1..] == [];
    } else {
      assert all[0] == sol[0] && all[1..] == sol[1..] + [plan];
      SolutionDropsAppend(sol[1..], plan);
    }
  }

  /** The value of `drops` when every unit counts. */
  function FullWorth(pk: Packages, drops: seq<Drop>): real
    decreases |drops|
  {
    if |drops| == 0 then 0.0
    else Worth(Counted(drops[0].dry, drops[0].perishable, drops[0].other), pk) + FullWorth(pk, drops[1..])
  }

  /** Room under both caps of every village for what `drops` bring on top of
      the running totals `t`. */
  predicate Uncapped(p: Problem, drops: seq<Drop>, t: Tally) {
    forall i :: 0 <= i < |p.villages| ==>
      && Get(t.food, i + 1) + FoodTo(drops, i + 1) <= 9 * p.villages[i].population
      && Get(t.other, i + 1) + OtherTo(drops, i + 1) <= p.villages[i].population
  }

  /** A drop that fits under both caps of its village counts in full. */
  lemma FullDropCounted(v: Village, d: Drop, t: Tally)
    requires d.NonNegative()
    requires Get(t.food, v.id) + d.Food() <= 9 * v.population
    requires Get(t.other, v.id) + d.other <= v.population
    ensures DropCounted(v, d, t) == Counted(d.dry, d.perishable, d.other)
  {
  }

  lemma FrontDelivered(d: Drop, rest: seq<Drop>, id: int)
    ensures FoodTo([d] + rest, id) == (if d.village == id then d.Food() else 0) + FoodTo(rest, id)
    ensures OtherTo([d] + rest, id) == (if d.village == id then d.other else 0) + OtherTo(rest, id)
  {
    DeliveredConcat([d], rest, id);
    assert [d][..0] == [];
  }

  /** The first drop of an uncapped list counts in full, and the rest stays
      uncapped after it is recorded. */
  lemma UncappedStep(p: Problem, drops: seq<Drop>, t: Tally)
    requires DenseIds(p) && DropsInRange(p, drops) && AllNonNegative(drops) && |drops| > 0
    requires Uncapped(p, drops, t)
    ensures
      var v := p.villages[drops[0].village - 1];
      && DropCounted(v, drops[0], t) == Counted(drops[0].dry, drops[0].perishable, drops[0].other)
      && DropsInRange(p, drops[1..]) && AllNonNegative(drops[1..])
      && Uncapped(p, drops[1..], Record(v, drops[0], t))
  {
    var d := drops[0];
    var rest := drops[1..];
    var v := p.villages[d.village - 1];
    assert drops == [d] + rest;
    assert forall k :: 0 <= k < |rest| ==> rest[k] == drops[k + 1];
    UncappedFront(p, d, rest, t);
    UncappedRest(p, d, rest, t);
  }

  /** The first drop of an uncapped list fits under its village's caps. */
  lemma UncappedFront(p: Problem, d: Drop, rest: seq<Drop>, t: Tally)
    requires DenseIds(p) && 1 <= d.village <= |p.villages| && d.NonNegative() && AllNonNegative(rest)
    requires Uncapped(p, [d] + rest, t)
    ensures DropCounted(p.villages[d.village - 1], d, t) == Counted(d.dry, d.perishable, d.other)
  {
    var v := p.villages[d.village - 1];
    assert v.id == d.village;
    FrontDelivered(d, rest, v.id);
    DeliveredNonNegative(rest, v.id);
    FullDropCounted(v, d, t);
  }

  /** Recording the first drop leaves the rest uncapped. */
  lemma UncappedRest(p: Problem, d: Drop, rest: seq<Drop>, t: Tally)
    requires DenseIds(p) && 1 <= d.village <= |p.villages|
    requires Uncapped(p, [d] + rest, t)
    ensures Uncapped(p, rest, Record(p.villages[d.village - 1], d, t))
  {
    var v := p.villages[d.village - 1];
    assert v.id == d.village;
    var t' := Record(v, d, t);
    forall i | 0 <= i < |p.villages|
      ensures Get(t'.food, i + 1) + FoodTo(rest, i + 1) <= 9 * p.villages[i].population
      ensures Get(t'.other, i + 1) + OtherTo(rest, i + 1) <= p.villages[i].population
    {
      FrontDelivered(d, rest, i + 1);
    }
  }

  /** When no village is sent more than its caps allow, the evaluator counts
      every unit delivered. */
  lemma {:induction false} UncappedValue(p: Problem, drops: seq<Drop>, t: Tally)
    requires DenseIds(p) && DropsInRange(p, drops) && AllNonNegative(drops)
    requires Uncapped(p, drops, t)
    ensures ValueFrom(p, drops, t) == FullWorth(p.packages, drops)
    decreases |drops|
  {
    if |drops| > 0 {
      UncappedStep(p, drops, t);
      var v := p.villages[drops[0].village - 1];
      UncappedValue(p, drops[1..], Record(v, drops[0], t));
    }
  }
}

=== FILE: greedy.dfy ===
/** The constructor's greedy choice: scan the candidates in village order,
    keep the first one whose net value beats the best so far, starting from a
    threshold of zero; only a strictly positive net value is ever chosen. */
module Greedy {
  import opened Types
  import opened Mix

  /** A village the constructor could serve, the load it would carry there
      and the net value (delivery value minus added flight cost) of doing so. */
  datatype Candidate = Candidate(load: Load, net: real)

  /** `r` is the choice among the first `k` candidates: the first of those
      with the greatest net value when that value is positive, else none. */
  predicate ChoiceAmong(cands: seq<Option<Candidate>>, k: nat, r: Option<nat>)
    requires k <= |cands|
  {
    match r
    case Some(i) =>
      && i < k
      && cands[i].Some?
      && cands[i].value.net > 0.0
      && (forall j :: 0 <= j < k && cands[j].Some? ==> cands[j].value.net <= cands[i].value.net)
      && (forall j :: 0 <= j < i && cands[j].Some? ==> cands[j].value.net < cands[i].value.net)
    case None =>
      forall j :: 0 <= j < k && cands[j].Some? ==> cands[j].value.net <= 0.0
  }

  function NetOf(cands: seq<Option<Candidate>>, best: Option<nat>): real
    requires best.Some? ==> best.value < |cands| && cands[best.value].Some?
  {
    if best.None? then 0.0 else cands[best.value].value.net
  }

  /** The scan from position `i` on, with `best` the choice so far. */
  function Scan(cands: seq<Option<Candidate>>, i: nat, best: Option<nat>): (r: Option<nat>)
    requires i <= |cands|
    requires ChoiceAmong(cands, i, best)
    ensures ChoiceAmong(cands, |cands|, r)
    decreases |cands| - i
  {
    if i == |cands| then best
    else
      match cands[i]
      case Some(c) =>
        if c.net > NetOf(cands, best) then Scan(cands, i + 1, Some(i)) else Scan(cands, i + 1, best)
      case None => Scan(cands, i + 1, best)
  }

  /** The solver's pick among `cands`, or None when no candidate has a
      positive net value. */
  function Best(cands: seq<Option<Candidate>>): (r: Option<nat>)
    ensures r.Some? ==> r.value < |cands| && cands[r.value].Some? && cands[r.value].value.net > 0.0
    ensures r.Some? ==>
              forall j :: 0 <= j < |cands| && cands[j].Some? ==> cands[j].value.net <= cands[r.value].value.net
    ensures r.Some? ==>
              forall j :: 0 <= j < r.value && cands[j].Some? ==> cands[j].value.net < cands[r.value].value.net
    ensures r.None? <==> forall j :: 0 <= j < |cands| && cands[j].Some? ==> cands[j].value.net <= 0.0
  {
    var r := Scan(cands, 0, None);
    assert ChoiceAmong(cands, |cands|, r);
    r
  }
}

=== FILE: mix.dfy ===
/** The load the constructor offers a candidate village: as much food as the
    weight allowance and the village's remaining food demand permit, split
    into dry and perishable units by the current dry share, then topped up
    with other supplies up to the village's remaining demand for them. */
module Mix {
  import opened Types

  datatype Load = Load(dry: int, perishable: int, other: int, weight: real) {
    function Food(): int { dry + perishable }
    function Units(): int { dry + perishable + other }
  }

  /** Blended weight of one food unit when a fraction `dryRatio` of it is dry. */
  function FoodUnitWeight(pk: Packages, dryRatio: real): real {
    dryRatio * pk.dry.weight + (1.0 - dryRatio) * pk.perishable.weight
  }

  function UnitsWeight(pk: Packages, dry: int, perishable: int, other: int): real {
    dry as real * pk.dry.weight + perishable as real * pk.perishable.weight + other as real * pk.other.weight
  }

  /** If `a / b` is below `n` then `a` is below `n` units of size `b`. */
  lemma QuotientBelow(a: real, b: real, n: int)
    requires b > 0.0 && a / b < n as real
    ensures a < n as real * b
  {
    assert a == (a / b) * b;
  }

  /** If `n` is at most `a / b` then `n` units of size `b` fit in `a`. */
  lemma QuotientAbove(a: real, b: real, n: int)
    requires b > 0.0 && n as real <= a / b
    ensures n as real * b <= a
  {
    assert a == (a / b) * b;
  }

  lemma ScaleDown(n: int, ratio: real)
    requires 0 <= n && 0.0 <= ratio <= 1.0
    ensures 0.0 <= n as real * ratio <= n as real
  {
  }

  /** The truncated share of `n` units at a ratio in [0, 1] is between zero and `n`. */
  lemma TruncShare(n: int, ratio: real)
    requires 0 <= n && 0.0 <= ratio <= 1.0
    ensures 0 <= Trunc(n as real * ratio) <= n
  {
    var x := n as real * ratio;
    ScaleDown(n, ratio);
    assert Trunc(x) as real <= x <= n as real;
  }

  /** Food units to send: what the weight allowance holds at `unitWeight`
      per unit, but no more than the remaining demand. */
  function FoodAmount(capacity: real, unitWeight: real, remFood: int): (food: int)
    requires unitWeight > 0.0
    ensures food <= remFood
    ensures 0 <= remFood && 0.0 <= capacity ==> 0 <= food
    ensures 0.0 <= capacity ==> food as real * unitWeight <= capacity
    ensures 0.0 <= capacity && food < remFood ==> capacity < food as real * unitWeight + unitWeight
  {
    var fit := Trunc(capacity / unitWeight);
    var food := Min(remFood, fit);
    assert 0.0 <= capacity ==> food as real * unitWeight <= capacity by {
      if 0.0 <= capacity {
        QuotientAbove(capacity, unitWeight, fit);
        if food < 0 {
          assert food as real * unitWeight <= 0.0;
        } else {
          assert food as real * unitWeight <= fit as real * unitWeight;
        }
      }
    }
    assert 0.0 <= capacity && food < remFood ==> capacity < food as real * unitWeight + unitWeight by {
      if 0.0 <= capacity && food < remFood {
        QuotientBelow(capacity, unitWeight, fit + 1);
        assert (fit + 1) as real * unitWeight == fit as real * unitWeight + unitWeight;
      }
    }
    food
  }

  /** Dry units of a food amount: the dry share, truncated. */
  function DryShare(food: int, dryRatio: real): (dry: int)
    ensures 0 <= food && 0.0 <= dryRatio <= 1.0 ==>
              && 0 <= dry <= food
              && dry as real <= food as real * dryRatio < dry as real + 1.0
  {
    var dry := Trunc(food as real * dryRatio);
    if 0 <= food && 0.0 <= dryRatio <= 1.0 then
      ScaleDown(food, dryRatio);
      TruncShare(food, dryRatio);
      dry
    else
      dry
  }

  /** Other-supply units that fill `rest` weight at `unitWeight` per unit,
      bounded by the remaining demand; none when either is negligible. */
  function OtherFill(rest: real, unitWeight: real, remOther: int): (other: int)
    ensures 0 <= other
    ensures 0 <= remOther ==> other <= remOther
    ensures other > 0 ==> other as real * unitWeight <= rest
    ensures unitWeight > Eps && other < remOther ==> rest < other as real * unitWeight + unitWeight
    // nothing is sent when a unit weighs 1e-9 or less or no more than 1e-9 is left
    ensures unitWeight <= Eps || rest <= Eps ==> other == 0
  {
    if unitWeight > Eps && rest > Eps then
      var fit := Trunc(rest / unitWeight);
      var other := Max(0, Min(remOther, fit));
      assert other > 0 ==> other as real * unitWeight <= rest by {
        if other > 0 {
          QuotientAbove(rest, unitWeight, fit);
          assert other as real * unitWeight <= fit as real * unitWeight;
        }
      }
      assert other < remOther ==> rest < other as real * unitWeight + unitWeight by {
        if other < remOther {
          QuotientBelow(rest, unitWeight, fit + 1);
          assert (fit + 1) as real * unitWeight == fit as real * unitWeight + unitWeight;
        }
      }
      other
    else
      0
  }

  /** The load for a village with `remFood` and `remOther` units of demand
      left, within a weight allowance of `capacity`, where `unitWeight` is the
      weight the solver divides the allowance by to size the food amount.
      None means the solver skips the village because the load is too heavy.
      How each amount is sized is stated by FoodAmount, DryShare and OtherFill. */
  function Choose(capacity: real, unitWeight: real, dryRatio: real, remFood: int, remOther: int, pk: Packages)
    : (r: Option<Load>)
    requires unitWeight > 0.0
    // never more food than the village still needs
    ensures r.Some? ==> r.value.Food() <= remFood
    // the recorded weight is the load's weight, and it fits the allowance
    ensures r.Some? ==> r.value.weight == UnitsWeight(pk, r.value.dry, r.value.perishable, r.value.other)
    ensures r.Some? ==> r.value.weight <= capacity + Eps
    // no negative amounts
    ensures r.Some? && 0 <= remFood && 0.0 <= capacity && 0.0 <= dryRatio <= 1.0 ==>
              0 <= r.value.dry && 0 <= r.value.perishable
    ensures r.Some? ==> 0 <= r.value.other
    // never more other supplies than the village still needs
    ensures r.Some? && 0 <= remOther ==> r.value.other <= remOther
    // the food is sized to the allowance, split by the dry share, and the
    // weight left after the food is filled with other supplies
    ensures r.Some? ==>
              && r.value.Food() == FoodAmount(capacity, unitWeight, remFood)
              && r.value.dry == DryShare(r.value.Food(), dryRatio)
              && r.value.other == OtherFill(capacity - UnitsWeight(pk, r.value.dry, r.value.perishable, 0),
                                            pk.other.weight, remOther)
    // the village is skipped exactly when the food alone, or the food with
    // the other supplies, is heavier than the allowance
    ensures
      var food := FoodAmount(capacity, unitWeight, remFood);
      var dry := DryShare(food, dryRatio);
      var foodWeight := UnitsWeight(pk, dry, food - dry, 0);
      var other := OtherFill(capacity - foodWeight, pk.other.weight, remOther);
      r.None? <==> foodWeight > capacity + Eps || UnitsWeight(pk, dry, food - dry, other) > capacity + Eps
  {
    var food := FoodAmount(capacity, unitWeight, remFood);
    var dry := DryShare(food, dryRatio);
    var perishable := food - dry;
    var foodWeight := UnitsWeight(pk, dry, perishable, 0);
    if foodWeight > capacity + Eps then None
    else
      var other := OtherFill(capacity - foodWeight, pk.other.weight, remOther);
      var total := UnitsWeight(pk, dry, perishable, other);
      if total > capacity + Eps then None
      else Some(Load(dry, perishable, other, total))
  }

  /** A load that is offered leaves no room for more: one more food unit
      would exceed the allowance unless the food demand is met, and one more
      other-supply unit would exceed what the food leaves unless that demand
      is met too. */
  lemma ChooseFills(capacity: real, unitWeight: real, dryRatio: real, remFood: int, remOther: int, pk: Packages,
                    l: Load)
    requires unitWeight > 0.0 && 0.0 <= capacity
    requires Choose(capacity, unitWeight, dryRatio, remFood, remOther, pk) == Some(l)
    ensures l.Food() < remFood ==> capacity < l.Food() as real * unitWeight + unitWeight
    ensures pk.other.weight > Eps && l.other < remOther ==>
              capacity < UnitsWeight(pk, l.dry, l.perishable, 0) + l.other as real * pk.other.weight + pk.other.weight
    // other supplies weighing 1e-9 or less per unit, or food leaving no more
    // than 1e-9 of the allowance, mean no other supplies at all
    ensures pk.other.weight <= Eps || capacity - UnitsWeight(pk, l.dry, l.perishable, 0) <= Eps ==> l.other == 0
  {
    var foodWeight := UnitsWeight(pk, l.dry, l.perishable, 0);
    assert l.other == OtherFill(capacity - foodWeight, pk.other.weight, remOther);
  }
}

=== FILE: search.dfy ===
/** The search driver: from each of five starting dry shares, construction
    passes are repeated while the dry share is nudged by an annealing-style
    step; the best-valued solution seen is kept and validated at the end.
    The deadline is a tick allowance and the random acceptance draw is an
    oracle supplied by the caller. */
module Search {
  import opened Types
  import Construct
  import Evaluate
  import Validate

  /** The dry shares each restart begins from. */
  const StartRatios: seq<real> := [0.1, 0.3, 0.5, 0.7, 0.9]

  lemma StartRatiosShares()
    ensures forall k :: 0 <= k < |StartRatios| ==> 0.0 <= StartRatios[k] <= 1.0
  {
  }

  const InitialLearningRate: real := 0.2
  const InitialTemperature: real := 100.0
  const CoolingRate: real := 0.95
  const MinLearningRate: real := 0.05
  const MaxLearningRate: real := 0.3

  /** Consecutive iterations without a significant improvement after which a
      restart ends, and the gain below which an improvement does not count. */
  const MaxNoImprovement: nat := 20
  const MinImprovement: real := 0.01

  function Clamp(lo: real, hi: real, x: real): (r: real)
    requires lo <= hi
    ensures lo <= r <= hi
    ensures lo <= x <= hi ==> r == x
    ensures x < lo ==> r == lo
    ensures hi < x ==> r == hi
  {
    if x < lo then lo else if hi < x then hi else x
  }

  // ---------------------------------------------------------------------------
  // Tuning of the dry share

  /** The parameters one restart adapts between construction passes. */
  datatype Tuning = Tuning(
    dryRatio: real,
    perishableRatio: real,
    learningRate: real,
    direction: int,
    previous: real,
    first: bool,
    temperature: real)

  /** What holds after every iteration: the shares are complementary and in
      [0, 1], the step is within its bounds, the direction is a sign and the
      temperature is positive. */
  predicate Tuned(s: Tuning) {
    && 0.0 <= s.dryRatio <= 1.0
    && s.perishableRatio == 1.0 - s.dryRatio
    && MinLearningRate <= s.learningRate <= MaxLearningRate
    && (s.direction == 1 || s.direction == -1)
    && s.temperature > 0.0
  }

  /** The tuning a restart begins with. */
  function Start(ratio: real): (s: Tuning)
    requires 0.0 <= ratio <= 1.0
    ensures Tuned(s) && s.first && s.dryRatio == ratio
  {
    Tuning(ratio, 1.0 - ratio, InitialLearningRate, 1, 0.0, true, InitialTemperature)
  }

  /** One adaptation after a pass that scored `value`; `accept` is the outcome
      of the random acceptance draw, consulted only when the score fell. A
      worse score that is not accepted turns the direction round and shortens
      the step; a score that did not fall lengthens it. */
  function Adapt(s: Tuning, value: real, accept: bool): (r: Tuning)
    // the clamped quantities are back in range whatever the step did
    ensures 0.0 <= r.dryRatio <= 1.0 && r.perishableRatio == 1.0 - r.dryRatio
    ensures MinLearningRate <= r.learningRate <= MaxLearningRate
    ensures r.temperature == s.temperature * CoolingRate
    ensures r.previous == value && !r.first
    // the direction turns exactly on a rejected worse score
    ensures r.direction == (if !s.first && value < s.previous && !accept then -s.direction else s.direction)
    // the step in effect is the old step on the first pass and after an
    // accepted worse score, 0.9 times it after a rejection and 1.1 times it
    // after a score that did not fall
    ensures s.first || (value < s.previous && accept) ==> Step(s, value, accept) == s.learningRate
    ensures !s.first && value < s.previous && !accept ==> Step(s, value, accept) == 0.9 * s.learningRate
    ensures !s.first && value >= s.previous ==> Step(s, value, accept) == 1.1 * s.learningRate
    // the share moves by exactly that step in the (new) direction, which is
    // always 1 or -1, and the share and the step are then clamped
    ensures r.direction == 1 ==> r.dryRatio == Clamp(0.0, 1.0, s.dryRatio + Step(s, value, accept))
    ensures r.direction == -1 ==> r.dryRatio == Clamp(0.0, 1.0, s.dryRatio - Step(s, value, accept))
    ensures r.learningRate == Clamp(MinLearningRate, MaxLearningRate, Step(s, value, accept))
    // so the share moves in the (new) direction, by at most the step in effect,
    // which is the old step lengthened by at most a tenth
    ensures Tuned(s) && r.direction == 1 ==> s.dryRatio <= r.dryRatio <= s.dryRatio + s.learningRate * 1.1
    ensures Tuned(s) && r.direction == -1 ==> s.dryRatio - s.learningRate * 1.1 <= r.dryRatio <= s.dryRatio
    // a rejection never lengthens the step; a score that did not fall never shortens it
    ensures Tuned(s) && !s.first && value < s.previous && !accept ==> r.learningRate <= s.learningRate
    ensures Tuned(s) && !s.first && value >= s.previous ==> r.learningRate >= s.learningRate
    ensures Tuned(s) ==> Tuned(r)
  {
    if !s.first && value < s.previous && !accept then Moved(s, value, -s.direction, Step(s, value, accept))
    else Moved(s, value, s.direction, Step(s, value, accept))
  }

  /** The step the share moves by before clamping. */
  function Step(s: Tuning, value: real, accept: bool): (step: real)
    ensures 0.0 <= s.learningRate ==> 0.0 <= step <= s.learningRate * 1.1
  {
    if s.first || (value < s.previous && accept) then s.learningRate
    else if value < s.previous then 0.9 * s.learningRate
    else 1.1 * s.learningRate
  }

  /** The tuning after moving the share by `rate` in `direction`, with the
      share and the step clamped and the temperature cooled. */
  function Moved(s: Tuning, value: real, direction: int, rate: real): (r: Tuning)
    ensures r.direction == direction && r.previous == value && !r.first
    ensures r.direction == 1 ==> r.dryRatio == Clamp(0.0, 1.0, s.dryRatio + rate)
    ensures r.direction == -1 ==> r.dryRatio == Clamp(0.0, 1.0, s.dryRatio - rate)
    ensures r.learningRate == Clamp(MinLearningRate, MaxLearningRate, rate)
    ensures r.temperature == s.temperature * CoolingRate
    ensures 0.0 <= r.dryRatio <= 1.0 && r.perishableRatio == 1.0 - r.dryRatio
    // a share in [0, 1] moves in `direction` by at most `rate`
    ensures 0.0 <= s.dryRatio <= 1.0 && 0.0 <= rate && r.direction == 1 ==>
              s.dryRatio <= r.dryRatio <= s.dryRatio + rate
    ensures 0.0 <= s.dryRatio <= 1.0 && 0.0 <= rate && r.direction == -1 ==>
              s.dryRatio - rate <= r.dryRatio <= s.dryRatio
  {
    var dry := Clamp(0.0, 1.0, s.dryRatio + direction as real * rate);
    Tuning(dry, 1.0 - dry, Clamp(MinLearningRate, MaxLearningRate, rate), direction, value, false,
           s.temperature * CoolingRate)
  }

  // ---------------------------------------------------------------------------
  // Best-value bookkeeping

  /** The best score so far (None before the first pass, standing for the
      solver's lowest double) and the count of iterations without a
      significant improvement. */
  datatype Standing = Standing(best: Option<real>, stall: nat)

  /** Whether `value` replaces the best score so far. */
  predicate Beats(value: real, best: Option<real>) {
    best.None? || value > best.value
  }

  function Note(st: Standing, value: real): (r: Standing)
    // the best score is the larger of the old best and the new score
    ensures r.best.Some?
    ensures r.best.value >= value
    ensures st.best.Some? ==> r.best.value >= st.best.value
    ensures r.best == Some(value) || r.best == st.best
    ensures Beats(value, st.best) ==> r.best == Some(value)
    // the count restarts only on a gain of at least the threshold
    ensures r.stall == 0 <==> st.best.None? || value - st.best.value >= MinImprovement
    ensures r.stall != 0 ==> r.stall == st.stall + 1
  {
    if Beats(value, st.best) then
      var improvement := if st.best.None? then MinImprovement else value - st.best.value;
      Standing(Some(value), if improvement >= MinImprovement then 0 else st.stall + 1)
    else
      Standing(st.best, st.stall + 1)
  }

  /** The standing after noting each score of `values` in turn. */
  function NoteAll(st: Standing, values: seq<real>): Standing
    decreases |values|
  {
    if |values| == 0 then st else NoteAll(Note(st, values[0]), values[1..])
  }

  /** Scores that never exceed the best leave it in place and add one to the
      count each, so a restart whose scores stop improving ends after
      MaxNoImprovement passes. */
  lemma {:induction false} NoGainStalls(st: Standing, values: seq<real>)
    requires st.best.Some?
    requires forall k :: 0 <= k < |values| ==> values[k] <= st.best.value
    ensures NoteAll(st, values) == Standing(st.best, st.stall + |values|)
    decreases |values|
  {
    if |values| > 0 {
      var next := Note(st, values[0]);
      assert next == Standing(st.best, st.stall + 1);
      NoGainStalls(next, values[1..]);
    }
  }

  // ---------------------------------------------------------------------------
  // The driver

  /** The evaluator's score of `sol` counts every unit it delivers. */
  predicate FullyCounted(dist: Metric, p: Problem, sol: Solution)
    requires RefsOk(p, sol)
  {
    Evaluate.Score(dist, p, sol)
    == Evaluate.FullWorth(p.packages, Evaluate.Deliveries(p, sol)) - Evaluate.SolutionCost(dist, p, sol)
  }

  /** What the search keeps true of the best solution so far: its references
      are valid, its recorded score is its score, and with non-negative
      inputs the validation only drops its empty plans and its score counts
      every unit. */
  predicate BestSoFar(dist: Metric, p: Problem, best: Solution, standing: Standing) {
    && RefsOk(p, best)
    && (standing.best.Some? ==> standing.best.value == Evaluate.Score(dist, p, best))
    && (Construct.NonNegativeInputs(p) ==>
          && Validate.ValidateSolution(dist, p, best) == Validate.NonEmptyPlans(best)
          && FullyCounted(dist, p, best))
  }

  lemma NothingYet(dist: Metric, p: Problem, best: Solution)
    requires best == []
    ensures BestSoFar(dist, p, best, Standing(None, 0))
  {
    assert Evaluate.Deliveries(p, best) == [];
  }

  /** One construction pass as the search ran it: the dry share, the
      solution and its score, the ticks it was given and those it left, and
      per plan the counters and ticks between the plan loop's runs. */
  datatype Pass = Pass(ratio: real, sol: Solution, value: real, ticks: nat, left: nat,
                       dems: seq<Construct.Demand>, lefts: seq<nat>)

  /** `pass` is what a construction pass builds: one plan loop run per
      helicopter in fleet order from fresh counters, every helicopter served
      unless the ticks ran out. */
  ghost predicate PassBuilt(dist: Metric, p: Problem, pass: Pass)
    requires DenseIds(p) && Symmetric(dist) && Construct.FleetReady(p)
  {
    && |pass.sol| <= |p.helicopters|
    && Construct.FleetRan(Construct.FleetSteps(dist, p, pass.ratio), dist, p, pass.sol, pass.dems, pass.lefts)
    && pass.dems[0] == Construct.InitialDemand(p)
    && pass.lefts[0] == pass.ticks && pass.lefts[|pass.sol|] == pass.left
    && (pass.left > 0 ==> |pass.sol| == |p.helicopters|)
    && RefsOk(p, pass.sol) && pass.value == Evaluate.Score(dist, p, pass.sol)
  }

  /** Every pass of `passes` was built. */
  ghost predicate PassesBuilt(dist: Metric, p: Problem, passes: seq<Pass>)
    requires DenseIds(p) && Symmetric(dist) && Construct.FleetReady(p)
    decreases |passes|
  {
    |passes| > 0 ==> PassesBuilt(dist, p, passes[..|passes| - 1]) && PassBuilt(dist, p, passes[|passes| - 1])
  }

  lemma PassesBuiltAppend(dist: Metric, p: Problem, passes: seq<Pass>, pass: Pass)
    requires DenseIds(p) && Symmetric(dist) && Construct.FleetReady(p)
    requires PassesBuilt(dist, p, passes) && PassBuilt(dist, p, pass)
    ensures PassesBuilt(dist, p, passes + [pass])
  {
    assert (passes + [pass])[..|passes|] == passes;
  }

  /** Every pass of a built sequence was built. */
  lemma {:induction false} PassesBuiltEach(dist: Metric, p: Problem, passes: seq<Pass>, k: nat)
    requires DenseIds(p) && Symmetric(dist) && Construct.FleetReady(p)
    requires PassesBuilt(dist, p, passes) && k < |passes|
    ensures PassBuilt(dist, p, passes[k])
    decreases |passes|
  {
    if k < |passes| - 1 {
      PassesBuiltEach(dist, p, passes[..|passes| - 1], k);
    }
  }

  /** One iteration: a construction pass at the current dry share, its score
      noted against the best, and the tuning adapted unless the restart
      stalls. `draws` counts the acceptance draws made so far. */
  method Iterate(dist: Metric, p: Problem, draw: nat -> bool, s: Tuning, standing: Standing, best: Solution,
                 ticks: nat, draws: nat)
    returns (sol: Solution, value: real, s': Tuning, standing': Standing, best': Solution, left: nat, draws': nat,
             ghost pass: Pass)
    requires DenseIds(p) && Symmetric(dist) && Construct.FleetReady(p)
    requires Tuned(s) && BestSoFar(dist, p, best, standing)
    ensures Tuned(s') && BestSoFar(dist, p, best', standing') && left <= ticks
    // the pass built `sol` at the current dry share and scored it `value`
    ensures PassBuilt(dist, p, pass) && pass == Pass(s.dryRatio, sol, value, ticks, left, pass.dems, pass.lefts)
    ensures RefsOk(p, sol) && value == Evaluate.Score(dist, p, sol)
    // the score is noted; the pass's solution replaces the best exactly when it beats it
    ensures standing' == Note(standing, value)
    ensures Beats(value, standing.best) ==> best' == sol
    ensures !Beats(value, standing.best) ==> best' == best
    // a stalled restart stops adapting; otherwise the tuning has seen this score
    ensures standing'.stall >= MaxNoImprovement ==> s' == s && draws' == draws
    ensures standing'.stall < MaxNoImprovement ==> s'.previous == value && !s'.first
    // the draw is made only when the score fell on a pass other than the
    // restart's first, and the tuning adapts to its outcome
    ensures standing'.stall < MaxNoImprovement ==>
              && s' == Adapt(s, value, !s.first && value < s.previous && draw(draws))
              && draws' == if !s.first && value < s.previous then draws + 1 else draws
    ensures draws <= draws' <= draws + 1
  {
    var l;
    ghost var dems, lefts;
    sol, l, dems, lefts := Construct.BuildSolution(dist, p, s.dryRatio, ticks);
    pass := Pass(s.dryRatio, sol, Evaluate.Score(dist, p, sol), ticks, l, dems, lefts);
    left := l;
    value := Evaluate.Score(dist, p, sol);
    best' := if Beats(value, standing.best) then sol else best;
    standing' := Note(standing, value);
    draws' := draws;
    s' := s;
    if standing'.stall < MaxNoImprovement {
      var drawn := !s.first && value < s.previous;
      var accept := drawn && draw(draws);
      if drawn {
        draws' := draws + 1;
      }
      s' := Adapt(s, value, accept);
    }
  }

  /** What the search keeps true of the passes so far and the best of them:
      each pass was built, consumed the ticks the one before left it less
      the iteration's own tick, and the best is the first pass with the top
      score, or nothing before the first pass. */
  ghost predicate PassesSoFar(dist: Metric, p: Problem, ticks: nat, passes: seq<Pass>, chosen: nat,
                              best: Solution, standing: Standing, left: nat)
    requires DenseIds(p) && Symmetric(dist) && Construct.FleetReady(p)
  {
    PassesBuilt(dist, p, passes) && PassesChained(ticks, passes, chosen, best, standing, left)
  }

  /** The ticks and scores part of PassesSoFar: the best score noted is
      that of pass `chosen`. */
  ghost predicate PassesChained(ticks: nat, passes: seq<Pass>, chosen: nat, best: Solution,
                                standing: Standing, left: nat)
  {
    && (|passes| == 0 ==> left == ticks && best == [] && standing.best.None?)
    && (|passes| > 0 ==>
          && passes[0].ticks + 1 == ticks
          && passes[|passes| - 1].left == left
          && chosen < |passes| && best == passes[chosen].sol && standing.best == Some(passes[chosen].value))
    && (forall k :: 0 < k < |passes| ==> passes[k].ticks + 1 == passes[k - 1].left)
    && (forall k :: 0 <= k < |passes| && chosen < |passes| ==> passes[k].value <= passes[chosen].value)
    && (forall k :: 0 <= k < chosen < |passes| ==> passes[k].value < passes[chosen].value)
  }

  /** Noting one more pass, given the ticks the last one left less one,
      keeps the chain of ticks and the best the first pass with the top score. */
  lemma PassNoted(ticks: nat, passes: seq<Pass>, chosen: nat, best: Solution, standing: Standing,
                  pass: Pass, best': Solution, standing': Standing)
    requires PassesChained(ticks, passes, chosen, best, standing, pass.ticks + 1)
    requires standing' == Note(standing, pass.value)
    requires Beats(pass.value, standing.best) ==> best' == pass.sol
    requires !Beats(pass.value, standing.best) ==> best' == best
    ensures PassesChained(ticks, passes + [pass], if Beats(pass.value, standing.best) then |passes| else chosen,
                          best', standing', pass.left)
  {
    if Beats(pass.value, standing.best) {
      NewBest(ticks, passes, chosen, best, standing, pass, standing');
    } else {
      SameBest(ticks, passes, chosen, best, standing, pass, standing');
    }
  }

  /** A pass that beats the best becomes the best. */
  lemma NewBest(ticks: nat, passes: seq<Pass>, chosen: nat, best: Solution, standing: Standing,
                pass: Pass, standing': Standing)
    requires PassesChained(ticks, passes, chosen, best, standing, pass.ticks + 1)
    requires Beats(pass.value, standing.best) && standing'.best == Some(pass.value)
    ensures PassesChained(ticks, passes + [pass], |passes|, pass.sol, standing', pass.left)
  {
    var all := passes + [pass];
    assert forall k :: 0 <= k < |passes| ==> all[k] == passes[k];
    assert all[|passes|] == pass;
  }

  /** A pass that does not beat the best leaves it in place. */
  lemma SameBest(ticks: nat, passes: seq<Pass>, chosen: nat, best: Solution, standing: Standing,
                 pass: Pass, standing': Standing)
    requires PassesChained(ticks, passes, chosen, best, standing, pass.ticks + 1)
    requires !Beats(pass.value, standing.best) && standing'.best == standing.best
    ensures PassesChained(ticks, passes + [pass], chosen, best, standing', pass.left)
  {
    var all := passes + [pass];
    assert forall k :: 0 <= k < |passes| ==> all[k] == passes[k];
    assert all[|passes|] == pass;
  }

  /** One restart: the tuning starts over at dry share `ratio` and passes run
      until the score stalls or the ticks run out. */
  method Restart(dist: Metric, p: Problem, draw: nat -> bool, ratio: real, ghost ticks: nat,
                 ghost passes: seq<Pass>, ghost chosen: nat, best: Solution, standing: Standing,
                 left: nat, draws: nat)
    returns (ghost passes': seq<Pass>, ghost chosen': nat, best': Solution, standing': Standing,
             left': nat, draws': nat)
    requires DenseIds(p) && Symmetric(dist) && Construct.FleetReady(p) && 0.0 <= ratio <= 1.0
    requires BestSoFar(dist, p, best, standing) && left > 0
    requires PassesSoFar(dist, p, ticks, passes, chosen, best, standing, left)
    ensures BestSoFar(dist, p, best', standing')
    ensures PassesSoFar(dist, p, ticks, passes', chosen', best', standing', left')
    // at least one pass runs; the restart ends on a stall or when the ticks run out
    ensures |passes'| > |passes| && left' < left
    ensures left' > 0 ==> standing'.stall >= MaxNoImprovement
  {
    var s := Start(ratio);
    passes', chosen', best', left', draws' := passes, chosen, best, left, draws;
    standing' := Standing(standing.best, 0);
    while left' > 0
      invariant Tuned(s) && BestSoFar(dist, p, best', standing')
      invariant PassesSoFar(dist, p, ticks, passes', chosen', best', standing', left')
      invariant |passes'| >= |passes| && left' <= left
      invariant |passes'| > |passes| || left' == left > 0
      decreases left'
    {
      s, passes', chosen', best', standing', left', draws' :=
        NextPass(dist, p, draw, s, ticks, passes', chosen', best', standing', left', draws');
      if standing'.stall >= MaxNoImprovement {
        break;
      }
    }
  }

  /** One iteration of a restart, noted among the passes so far. */
  method NextPass(dist: Metric, p: Problem, draw: nat -> bool, s: Tuning, ghost ticks: nat,
                  ghost passes: seq<Pass>, ghost chosen: nat, best: Solution, standing: Standing,
                  left: nat, draws: nat)
    returns (s': Tuning, ghost passes': seq<Pass>, ghost chosen': nat, best': Solution, standing': Standing,
             left': nat, draws': nat)
    requires DenseIds(p) && Symmetric(dist) && Construct.FleetReady(p)
    requires Tuned(s) && BestSoFar(dist, p, best, standing) && left > 0
    requires PassesSoFar(dist, p, ticks, passes, chosen, best, standing, left)
    ensures Tuned(s') && BestSoFar(dist, p, best', standing')
    ensures PassesSoFar(dist, p, ticks, passes', chosen', best', standing', left')
    ensures |passes'| == |passes| + 1 && left' < left
  {
    var sol, value;
    ghost var pass: Pass;
    sol, value, s', standing', best', left', draws', pass :=
      Iterate(dist, p, draw, s, standing, best, left - 1, draws);
    PassesBuiltAppend(dist, p, passes, pass);
    PassNoted(ticks, passes, chosen, best, standing, pass, best', standing');
    chosen' := if Beats(value, standing.best) then |passes| else chosen;
    passes' := passes + [pass];
  }

  /** The whole search followed by the final validation. `ticks` stands for
      the time left before the deadline: each iteration uses one, and so
      does each first-stop scan, including a last one that starts no trip.
      `draw(n)` is the outcome of the n-th acceptance draw. Returns the best
      solution found and its validated form; `passes` are the construction
      passes in the order they ran, and the best is pass `chosen`. */
  method Solve(dist: Metric, p: Problem, ticks: nat, draw: nat -> bool)
    returns (best: Solution, out: Solution, ghost passes: seq<Pass>, ghost chosen: nat)
    requires DenseIds(p) && Symmetric(dist) && Construct.FleetReady(p)
    ensures RefsOk(p, best)
    ensures out == Validate.ValidateSolution(dist, p, best)
    ensures forall k :: 0 <= k < |out| ==> Validate.PlanValid(dist, p, out[k])
    // with non-negative inputs the validation drops no trip the search built
    ensures Construct.NonNegativeInputs(p) ==> out == Validate.NonEmptyPlans(best)
    // ... and the evaluator's score of the best solution counts every unit it delivers
    ensures Construct.NonNegativeInputs(p) ==> FullyCounted(dist, p, best)
    // any allowance at all buys a pass; every pass is a construction pass,
    // each given what the one before left less one tick
    ensures ticks > 0 ==> |passes| > 0
    ensures PassesBuilt(dist, p, passes)
    ensures |passes| > 0 ==> passes[0].ticks + 1 == ticks
    ensures forall k :: 0 < k < |passes| ==> passes[k].ticks + 1 == passes[k - 1].left
    // the best is the first pass with the top score, or nothing without a pass
    ensures |passes| == 0 ==> best == []
    ensures |passes| > 0 ==> chosen < |passes| && best == passes[chosen].sol
    ensures forall k :: 0 <= k < |passes| ==> passes[k].value <= Evaluate.Score(dist, p, best)
    ensures forall k :: 0 <= k < chosen && k < |passes| ==> passes[k].value < Evaluate.Score(dist, p, best)
  {
    best := [];
    var standing := Standing(None, 0);
    NothingYet(dist, p, best);
    var left := ticks;
    var draws := 0;
    passes, chosen := [], 0;
    var si := 0;
    while si < |StartRatios| && left > 0
      invariant si <= |StartRatios|
      invariant BestSoFar(dist, p, best, standing)
      invariant PassesSoFar(dist, p, ticks, passes, chosen, best, standing, left)
      invariant ticks > 0 && si > 0 ==> |passes| > 0
    {
      StartRatiosShares();
      passes, chosen, best, standing, left, draws :=
        Restart(dist, p, draw, StartRatios[si], ticks, passes, chosen, best, standing, left, draws);
      si := si + 1;
    }
    out := Validate.ValidateSolution(dist, p, best);
  }
}

=== FILE: types.dfy ===
/** Data model of the helicopter aid-delivery solver: problem input, the
    solution shape (plans of trips of drops), round-trip distances and the
    small integer/real helpers the solver's arithmetic relies on. */
module Types {

  datatype Option<+T> = None | Some(value: T)

  /** The tolerance the solver uses when comparing weights and distances (1e-9). */
  const Eps: real := 0.000000001

  function Min(a: int, b: int): int { if a <= b then a else b }
  function Max(a: int, b: int): int { if a >= b then a else b }

  /** `static_cast<int>` of a floating-point value: truncation toward zero. */
  function Trunc(x: real): (r: int)
    ensures 0.0 <= x ==> 0 <= r && r as real <= x < r as real + 1.0
    ensures x < 0.0 ==> r <= 0 && r as real - 1.0 < x <= r as real
  {
    if x >= 0.0 then x.Floor else -((-x).Floor)
  }

  datatype Point = Point(x: real, y: real)

  /** The planar distance the solver uses; it is supplied by the caller. */
  type Metric = (Point, Point) -> real

  ghost predicate Symmetric(dist: Metric) {
    forall a: Point, b: Point :: dist(a, b) == dist(b, a)
  }

  /** One package kind: weight and value of a single unit. */
  datatype Package = Package(weight: real, value: real)

  /** The three package kinds, in the solver's fixed order dry, perishable, other. */
  datatype Packages = Packages(dry: Package, perishable: Package, other: Package)

  datatype Village = Village(id: int, population: int, coords: Point)

  datatype Helicopter = Helicopter(
    id: int,
    homeCity: int,
    weightCapacity: real,
    distanceCapacity: real,
    fixedCost: real,
    alpha: real)

  /** One delivery at a village inside a trip. */
  datatype Drop = Drop(village: int, dry: int, perishable: int, other: int) {
    function Food(): int { dry + perishable }
    function Units(): int { dry + perishable + other }
    predicate NonNegative() { dry >= 0 && perishable >= 0 && other >= 0 }
  }

  datatype Trip = Trip(drops: seq<Drop>, dryPickup: int, perishablePickup: int, otherPickup: int)

  datatype Plan = Plan(helicopter: int, trips: seq<Trip>)

  type Solution = seq<Plan>

  /** The solver's input; the time limit is not part of this model. */
  datatype Problem = Problem(
    cities: seq<Point>,
    villages: seq<Village>,
    helicopters: seq<Helicopter>,
    packages: Packages,
    dMax: real)

  // ---------------------------------------------------------------------------
  // Sums over the drops of a trip (accumulated front to back, as the solver does)

  function DrySum(drops: seq<Drop>): int {
    if |drops| == 0 then 0 else DrySum(drops[..|drops| - 1]) + drops[|drops| - 1].dry
  }

  function PerishableSum(drops: seq<Drop>): int {
    if |drops| == 0 then 0 else PerishableSum(drops[..|drops| - 1]) + drops[|drops| - 1].perishable
  }

  function OtherSum(drops: seq<Drop>): int {
    if |drops| == 0 then 0 else OtherSum(drops[..|drops| - 1]) + drops[|drops| - 1].other
  }

  /** Food (dry plus perishable) units that `drops` bring to the village with the given id. */
  function FoodTo(drops: seq<Drop>, id: int): int {
    if |drops| == 0 then 0
    else
      var d := drops[|drops| - 1];
      FoodTo(drops[..|drops| - 1], id) + (if d.village == id then d.Food() else 0)
  }

  /** Other-supply units that `drops` bring to the village with the given id. */
  function OtherTo(drops: seq<Drop>, id: int): int {
    if |drops| == 0 then 0
    else
      var d := drops[|drops| - 1];
      OtherTo(drops[..|drops| - 1], id) + (if d.village == id then d.other else 0)
  }

  predicate AllNonNegative(drops: seq<Drop>) {
    forall k :: 0 <= k < |drops| ==> drops[k].NonNegative()
  }

  lemma {:induction false} DeliveredNonNegative(drops: seq<Drop>, id: int)
    requires AllNonNegative(drops)
    ensures FoodTo(drops, id) >= 0 && OtherTo(drops, id) >= 0
    decreases |drops|
  {
    if |drops| > 0 {
      DeliveredNonNegative(drops[..|drops| - 1], id);
    }
  }

  /** What two drop lists bring a village together is what each brings it. */
  lemma {:induction false} DeliveredConcat(a: seq<Drop>, b: seq<Drop>, id: int)
    ensures FoodTo(a + b, id) == FoodTo(a, id) + FoodTo(b, id)
    ensures OtherTo(a + b, id) == OtherTo(a, id) + OtherTo(b, id)
    decreases |b|
  {
    if |b| == 0 {
      assert a + b == a;
    } else {
      assert (a + b)[..|a + b| - 1] == a + b[..|b| - 1];
      assert (a + b)[|a + b| - 1] == b[|b| - 1];
      DeliveredConcat(a, b[..|b| - 1], id);
    }
  }

  lemma AllNonNegativeConcat(a: seq<Drop>, b: seq<Drop>)
    requires AllNonNegative(a) && AllNonNegative(b)
    ensures AllNonNegative(a + b)
  {
    var all := a + b;
    assert forall k :: 0 <= k < |a| ==> all[k] == a[k];
    assert forall k :: |a| <= k < |all| ==> all[k] == b[k - |a|];
  }

  lemma {:induction false} SumsNonNegative(drops: seq<Drop>)
    requires AllNonNegative(drops)
    ensures DrySum(drops) >= 0 && PerishableSum(drops) >= 0 && OtherSum(drops) >= 0
    decreases |drops|
  {
    if |drops| > 0 {
      SumsNonNegative(drops[..|drops| - 1]);
    }
  }

  /** A trip keeps the solver's bookkeeping invariant: each pickup total is
      the sum of the matching drop quantities. */
  predicate PickupsMatch(t: Trip) {
    && t.dryPickup == DrySum(t.drops)
    && t.perishablePickup == PerishableSum(t.drops)
    && t.otherPickup == OtherSum(t.drops)
  }

  // ---------------------------------------------------------------------------
  // Id lookups (ids are 1-based and used as `id - 1` indices)

  predicate DropsInRange(p: Problem, drops: seq<Drop>) {
    forall k :: 0 <= k < |drops| ==> 1 <= drops[k].village <= |p.villages|
  }

  predicate HomeInRange(p: Problem, h: Helicopter) {
    1 <= h.homeCity <= |p.cities|
  }

  function Home(p: Problem, h: Helicopter): Point
    requires HomeInRange(p, h)
  {
    p.cities[h.homeCity - 1]
  }

  /** Village ids are dense and 1-based: the village at index i has id i + 1. */
  predicate DenseIds(p: Problem) {
    forall i :: 0 <= i < |p.villages| ==> p.villages[i].id == i + 1
  }

  // ---------------------------------------------------------------------------
  // Routes: home -> stop 1 -> ... -> stop k -> home

  /** The coordinates a trip visits, in order. */
  function Stops(p: Problem, drops: seq<Drop>): (pts: seq<Point>)
    requires DropsInRange(p, drops)
    ensures |pts| == |drops|
    ensures forall k :: 0 <= k < |drops| ==> pts[k] == p.villages[drops[k].village - 1].coords
  {
    if |drops| == 0 then []
    else Stops(p, drops[..|drops| - 1]) + [p.villages[drops[|drops| - 1].village - 1].coords]
  }

  /** Length of the open path from `from` through every point of `pts`. */
  function Legs(dist: Metric, from: Point, pts: seq<Point>): real
    decreases |pts|
  {
    if |pts| == 0 then 0.0 else dist(from, pts[0]) + Legs(dist, pts[0], pts[1..])
  }

  function Last(from: Point, pts: seq<Point>): Point {
    if |pts| == 0 then from else pts[|pts| - 1]
  }

  /** Length of the closed route that leaves `home`, visits `pts` in order and returns. */
  function RoundTrip(dist: Metric, home: Point, pts: seq<Point>): real {
    Legs(dist, home, pts) + dist(Last(home, pts), home)
  }

  /** Extending a route by one stop adds exactly the leg from the old last stop. */
  lemma {:induction false} LegsAppend(dist: Metric, from: Point, pts: seq<Point>, q: Point)
    ensures Legs(dist, from, pts + [q]) == Legs(dist, from, pts) + dist(Last(from, pts), q)
    ensures Last(from, pts + [q]) == q
    decreases |pts|
  {
    if |pts| > 0 {
      assert (pts + [q])[0] == pts[0];
      assert (pts + [q])[1..] == pts[1..] + [q];
      LegsAppend(dist, pts[0], pts[1..], q);
      if |pts| > 1 {
        assert Last(pts[0], pts[1..]) == Last(from, pts);
      }
    }
  }

  /** The trip's round-trip distance, recomputed from its drops as the solver does. */
  function TripDistance(dist: Metric, p: Problem, home: Point, drops: seq<Drop>): real
    requires DropsInRange(p, drops)
  {
    RoundTrip(dist, home, Stops(p, drops))
  }

  /** Total weight of a trip's pickups. */
  function TripWeight(pk: Packages, t: Trip): real {
    t.dryPickup as real * pk.dry.weight
    + t.perishablePickup as real * pk.perishable.weight
    + t.otherPickup as real * pk.other.weight
  }

  // ---------------------------------------------------------------------------
  // Subsequences and the id references a solution makes

  /** `a` is `b` with some elements removed, order kept. */
  predicate IsSubsequence<T(==)>(a: seq<T>, b: seq<T>)
    decreases |b|
  {
    |a| == 0 || (|b| > 0 && ((a[0] == b[0] && IsSubsequence(a[1..], b[1..])) || IsSubsequence(a, b[1..])))
  }

  /** A plan names an existing helicopter (as `id - 1`), whose home city
      exists, and every drop names an existing village. */
  predicate PlanRefsOk(p: Problem, plan: Plan) {
    && 1 <= plan.helicopter <= |p.helicopters|
    && HomeInRange(p, p.helicopters[plan.helicopter - 1])
    && forall k :: 0 <= k < |plan.trips| ==> DropsInRange(p, plan.trips[k].drops)
  }

  predicate RefsOk(p: Problem, sol: Solution) {
    forall k :: 0 <= k < |sol| ==> PlanRefsOk(p, sol[k])
  }
}

=== FILE: validate.dfy ===
/** The final feasibility pass: every trip that breaks an invariant is
    dropped, trips are checked in order against the helicopter's running
    distance total, and helicopters left without trips are dropped. Nothing
    is ever added or changed. */
module Validate {
  import opened Types

  /** Whether the pass keeps trip `t` of helicopter `h` when `used` distance
      is already committed by the helicopter's earlier surviving trips. */
  predicate Keeps(dist: Metric, p: Problem, h: Helicopter, t: Trip, used: real)
    requires HomeInRange(p, h) && DropsInRange(p, t.drops)
  {
    && |t.drops| > 0
    && PickupsMatch(t)
    && t.dryPickup >= 0 && t.perishablePickup >= 0 && t.otherPickup >= 0
    && AllNonNegative(t.drops)
    && TripDistance(dist, p, Home(p, h), t.drops) <= h.distanceCapacity + Eps
    && used + TripDistance(dist, p, Home(p, h), t.drops) <= p.dMax + Eps
    && TripWeight(p.packages, t) <= h.weightCapacity + Eps
  }

  predicate AllInRange(p: Problem, trips: seq<Trip>) {
    forall k :: 0 <= k < |trips| ==> DropsInRange(p, trips[k].drops)
  }

  /** Every trip passes every check, the running total starting at `used`. */
  predicate Feasible(dist: Metric, p: Problem, h: Helicopter, trips: seq<Trip>, used: real)
    requires HomeInRange(p, h) && AllInRange(p, trips)
    decreases |trips|
  {
    |trips| == 0
    || (&& Keeps(dist, p, h, trips[0], used)
        && Feasible(dist, p, h, trips[1..], used + TripDistance(dist, p, Home(p, h), trips[0].drops)))
  }

  /** Sum of the round-trip distances of `trips`. */
  function TotalDistance(dist: Metric, p: Problem, home: Point, trips: seq<Trip>): real
    requires AllInRange(p, trips)
    decreases |trips|
  {
    if |trips| == 0 then 0.0 else TripDistance(dist, p, home, trips[0].drops) + TotalDistance(dist, p, home, trips[1..])
  }

  /** The trips of one plan that survive, the running total starting at `used`. */
  function FilterTrips(dist: Metric, p: Problem, h: Helicopter, trips: seq<Trip>, used: real): (kept: seq<Trip>)
    requires HomeInRange(p, h) && AllInRange(p, trips)
    ensures IsSubsequence(kept, trips)
    ensures AllInRange(p, kept)
    ensures Feasible(dist, p, h, kept, used)
    decreases |trips|
  {
    if |trips| == 0 then []
    else
      var t := trips[0];
      if Keeps(dist, p, h, t, used) then
        var d := TripDistance(dist, p, Home(p, h), t.drops);
        var rest := FilterTrips(dist, p, h, trips[1..], used + d);
        assert ([t] + rest)[1..] == rest;
        [t] + rest
      else
        FilterTrips(dist, p, h, trips[1..], used)
  }

  /** What feasibility promises of every trip: it is non-empty, its pickups
      are its drop sums, nothing is negative, it fits the helicopter's
      per-trip distance and weight, and the distance total stays within the
      budget. */
  lemma {:induction false} FeasibleTrips(dist: Metric, p: Problem, h: Helicopter, trips: seq<Trip>, used: real)
    requires HomeInRange(p, h) && AllInRange(p, trips)
    requires Feasible(dist, p, h, trips, used)
    ensures forall k :: 0 <= k < |trips| ==>
              && |trips[k].drops| > 0
              && PickupsMatch(trips[k])
              && AllNonNegative(trips[k].drops)
              && TripDistance(dist, p, Home(p, h), trips[k].drops) <= h.distanceCapacity + Eps
              && TripWeight(p.packages, trips[k]) <= h.weightCapacity + Eps
    ensures |trips| > 0 ==> used + TotalDistance(dist, p, Home(p, h), trips) <= p.dMax + Eps
    decreases |trips|
  {
    if |trips| > 0 {
      var d := TripDistance(dist, p, Home(p, h), trips[0].drops);
      FeasibleTrips(dist, p, h, trips[1..], used + d);
      forall k | 1 <= k < |trips| ensures trips[k] == trips[1..][k - 1] {}
    }
  }

  /** One plan after the pass: the same helicopter with its surviving trips. */
  function ValidatePlan(dist: Metric, p: Problem, plan: Plan): (out: Plan)
    requires PlanRefsOk(p, plan)
    ensures out.helicopter == plan.helicopter
    ensures PlanRefsOk(p, out)
    ensures IsSubsequence(out.trips, plan.trips)
    ensures Feasible(dist, p, p.helicopters[plan.helicopter - 1], out.trips, 0.0)
  {
    Plan(plan.helicopter, FilterTrips(dist, p, p.helicopters[plan.helicopter - 1], plan.trips, 0.0))
  }

  lemma RefsOkTail(p: Problem, sol: Solution)
    requires RefsOk(p, sol) && |sol| > 0
    ensures PlanRefsOk(p, sol[0]) && RefsOk(p, sol[1..])
  {
    assert forall k :: 0 <= k < |sol[1..]| ==> sol[1..][k] == sol[k + 1];
  }

  /** A plan as the pass may return it: valid references, at least one
      trip, and every trip feasible in order from a zero distance total. */
  predicate PlanValid(dist: Metric, p: Problem, plan: Plan) {
    && PlanRefsOk(p, plan)
    && |plan.trips| > 0
    && Feasible(dist, p, p.helicopters[plan.helicopter - 1], plan.trips, 0.0)
  }

  /** The whole pass over a solution. */
  function ValidateSolution(dist: Metric, p: Problem, sol: Solution): (out: Solution)
    requires RefsOk(p, sol)
    ensures forall k :: 0 <= k < |out| ==> PlanValid(dist, p, out[k])
    ensures PlansRefine(out, sol)
    decreases |sol|
  {
    if |sol| == 0 then []
    else
      RefsOkTail(p, sol);
      var plan := ValidatePlan(dist, p, sol[0]);
      var rest := ValidateSolution(dist, p, sol[1..]);
      if |plan.trips| > 0 then
        RefineKeep(plan, rest, sol);
        ValidCons(dist, p, plan, rest);
        [plan] + rest
      else
        RefineSkip(rest, sol);
        rest
  }

  lemma RefineKeep(plan: Plan, rest: Solution, sol: Solution)
    requires |sol| > 0 && plan.helicopter == sol[0].helicopter && IsSubsequence(plan.trips, sol[0].trips)
    requires PlansRefine(rest, sol[1..])
    ensures PlansRefine([plan] + rest, sol)
  {
    var out := [plan] + rest;
    assert out[0] == plan && out[1..] == rest;
  }

  lemma RefineSkip(rest: Solution, sol: Solution)
    requires |sol| > 0 && PlansRefine(rest, sol[1..])
    ensures PlansRefine(rest, sol)
  {
  }

  lemma ValidCons(dist: Metric, p: Problem, plan: Plan, rest: Solution)
    requires PlanValid(dist, p, plan)
    requires forall k :: 0 <= k < |rest| ==> PlanValid(dist, p, rest[k])
    ensures forall k :: 0 <= k < |[plan] + rest| ==> PlanValid(dist, p, ([plan] + rest)[k])
  {
    var out := [plan] + rest;
    assert forall k :: 1 <= k < |out| ==> out[k] == rest[k - 1];
  }

  /** `out` is `sol` with plans removed and, inside each kept plan, trips
      removed: order is preserved and helicopter ids are unchanged. */
  predicate PlansRefine(out: Solution, sol: Solution)
    decreases |sol|
  {
    |out| == 0
    || (&& |sol| > 0
        && ((&& out[0].helicopter == sol[0].helicopter
             && IsSubsequence(out[0].trips, sol[0].trips)
             && PlansRefine(out[1..], sol[1..]))
            || PlansRefine(out, sol[1..])))
  }

  /** Trips that already pass every check are all kept. */
  lemma {:induction false} FeasibleKept(dist: Metric, p: Problem, h: Helicopter, trips: seq<Trip>, used: real)
    requires HomeInRange(p, h) && AllInRange(p, trips)
    requires Feasible(dist, p, h, trips, used)
    ensures FilterTrips(dist, p, h, trips, used) == trips
    decreases |trips|
  {
    if |trips| > 0 {
      var d := TripDistance(dist, p, Home(p, h), trips[0].drops);
      FilterKeepsHead(dist, p, h, trips, used);
      FeasibleKept(dist, p, h, trips[1..], used + d);
      assert [trips[0]] + trips[1..] == trips;
    }
  }

  lemma FilterKeepsHead(dist: Metric, p: Problem, h: Helicopter, trips: seq<Trip>, used: real)
    requires HomeInRange(p, h) && AllInRange(p, trips) && |trips| > 0
    requires Feasible(dist, p, h, trips, used)
    ensures Keeps(dist, p, h, trips[0], used)
    ensures
      var d := TripDistance(dist, p, Home(p, h), trips[0].drops);
      && Feasible(dist, p, h, trips[1..], used + d)
      && FilterTrips(dist, p, h, trips, used) == [trips[0]] + FilterTrips(dist, p, h, trips[1..], used + d)
  {
  }

  /** A trip sequence is kept whole exactly when it is feasible. */
  lemma {:induction false} KeptIffFeasible(dist: Metric, p: Problem, h: Helicopter, trips: seq<Trip>, used: real)
    requires HomeInRange(p, h) && AllInRange(p, trips)
    ensures FilterTrips(dist, p, h, trips, used) == trips <==> Feasible(dist, p, h, trips, used)
  {
    if Feasible(dist, p, h, trips, used) {
      FeasibleKept(dist, p, h, trips, used);
    }
  }

  /** The pass is idempotent on one plan's trips. */
  lemma {:induction false} FilterIdempotent(dist: Metric, p: Problem, h: Helicopter, trips: seq<Trip>, used: real)
    requires HomeInRange(p, h) && AllInRange(p, trips)
    ensures
      var once := FilterTrips(dist, p, h, trips, used);
      FilterTrips(dist, p, h, once, used) == once
  {
    var once := FilterTrips(dist, p, h, trips, used);
    FeasibleKept(dist, p, h, once, used);
  }

  /** A solution whose plans are all valid passes unchanged. */
  lemma {:induction false} ValidSolutionKept(dist: Metric, p: Problem, sol: Solution)
    requires forall k :: 0 <= k < |sol| ==> PlanValid(dist, p, sol[k])
    ensures RefsOk(p, sol)
    ensures ValidateSolution(dist, p, sol) == sol
  {
    assert forall k :: 0 <= k < |sol| ==> PlanFeasible(dist, p, sol[k]);
    FeasiblePlansKept(dist, p, sol);
    NoEmptyPlans(sol);
  }

  /** A solution without an empty plan loses nothing to the removal of empty plans. */
  lemma {:induction false} NoEmptyPlans(sol: Solution)
    requires forall k :: 0 <= k < |sol| ==> |sol[k].trips| > 0
    ensures NonEmptyPlans(sol) == sol
    decreases |sol|
  {
    if |sol| > 0 {
      assert forall k :: 0 <= k < |sol[1..]| ==> sol[1..][k] == sol[k + 1];
      NoEmptyPlans(sol[1..]);
      assert [sol[0]] + sol[1..] == sol;
    }
  }

  /** Running the pass twice gives the same solution as running it once. */
  lemma {:induction false} ValidateIdempotent(dist: Metric, p: Problem, sol: Solution)
    requires RefsOk(p, sol)
    ensures ValidateSolution(dist, p, ValidateSolution(dist, p, sol)) == ValidateSolution(dist, p, sol)
  {
    var once := ValidateSolution(dist, p, sol);
    ValidSolutionKept(dist, p, once);
  }

  // ---------------------------------------------------------------------------
  // Trips built one after another

  /** Appending a trip adds its distance to the total. */
  lemma {:induction false} TotalDistanceAppend(dist: Metric, p: Problem, home: Point, trips: seq<Trip>, t: Trip)
    requires AllInRange(p, trips) && DropsInRange(p, t.drops)
    ensures AllInRange(p, trips + [t])
    ensures TotalDistance(dist, p, home, trips + [t])
            == TotalDistance(dist, p, home, trips) + TripDistance(dist, p, home, t.drops)
    decreases |trips|
  {
    var all := trips + [t];
    assert forall k :: 0 <= k < |trips| ==> all[k] == trips[k];
    assert all[|trips|] == t;
    if |trips| > 0 {
      assert all[1..] == trips[1..] + [t];
      TotalDistanceAppend(dist, p, home, trips[1..], t);
    } else {
      assert all[1..] == [];
    }
  }

  /** A feasible sequence of trips stays feasible when a trip is appended
      that passes every check against the distance already used. */
  lemma {:induction false} FeasibleAppend(dist: Metric, p: Problem, h: Helicopter, trips: seq<Trip>, t: Trip, used: real)
    requires HomeInRange(p, h) && AllInRange(p, trips) && DropsInRange(p, t.drops)
    requires Feasible(dist, p, h, trips, used)
    requires Keeps(dist, p, h, t, used + TotalDistance(dist, p, Home(p, h), trips))
    ensures AllInRange(p, trips + [t])
    ensures Feasible(dist, p, h, trips + [t], used)
    decreases |trips|
  {
    TotalDistanceAppend(dist, p, Home(p, h), trips, t);
    var all := trips + [t];
    if |trips| > 0 {
      assert all[0] == trips[0] && all[1..] == trips[1..] + [t];
      var d := TripDistance(dist, p, Home(p, h), trips[0].drops);
      FeasibleAppend(dist, p, h, trips[1..], t, used + d);
    } else {
      assert all == [t] && all[1..] == [];
    }
  }

  /** The plans of `sol` that have at least one trip, in order. */
  function NonEmptyPlans(sol: Solution): (out: Solution)
    ensures IsSubsequence(out, sol)
    ensures forall k :: 0 <= k < |out| ==> |out[k].trips| > 0 && out[k] in sol
    ensures forall k :: 0 <= k < |sol| && |sol[k].trips| > 0 ==> sol[k] in out
    decreases |sol|
  {
    if |sol| == 0 then []
    else if |sol[0].trips| > 0 then
      var rest := NonEmptyPlans(sol[1..]);
      assert ([sol[0]] + rest)[1..] == rest;
      [sol[0]] + rest
    else NonEmptyPlans(sol[1..])
  }

  /** Every plan after its own pass, empty or not, in order. */
  function ValidatePlans(dist: Metric, p: Problem, sol: Solution): (out: Solution)
    requires RefsOk(p, sol)
    ensures |out| == |sol|
    ensures forall k :: 0 <= k < |out| ==> out[k].helicopter == sol[k].helicopter
  {
    seq(|sol|, k requires 0 <= k < |sol| => ValidatePlan(dist, p, sol[k]))
  }

  /** The pass over a solution is the pass over each plan followed by the
      removal of the plans left empty. */
  lemma {:induction false} ValidateMapFilter(dist: Metric, p: Problem, sol: Solution)
    requires RefsOk(p, sol)
    ensures ValidateSolution(dist, p, sol) == NonEmptyPlans(ValidatePlans(dist, p, sol))
    decreases |sol|
  {
    if |sol| > 0 {
      RefsOkTail(p, sol);
      var all := ValidatePlans(dist, p, sol);
      assert all[0] == ValidatePlan(dist, p, sol[0]);
      assert all[1..] == ValidatePlans(dist, p, sol[1..]);
      ValidateMapFilter(dist, p, sol[1..]);
    }
  }

  /** A plan is in the output of the pass exactly when it is the non-empty
      result of the pass over one of the input plans. */
  lemma ValidateKeepsNonEmpty(dist: Metric, p: Problem, sol: Solution)
    requires RefsOk(p, sol)
    ensures forall k :: 0 <= k < |sol| && |ValidatePlan(dist, p, sol[k]).trips| > 0 ==>
              ValidatePlan(dist, p, sol[k]) in ValidateSolution(dist, p, sol)
    ensures forall plan :: plan in ValidateSolution(dist, p, sol) ==>
              |plan.trips| > 0 && exists k :: 0 <= k < |sol| && plan == ValidatePlan(dist, p, sol[k])
  {
    ValidateMapFilter(dist, p, sol);
    var all := ValidatePlans(dist, p, sol);
    assert forall k :: 0 <= k < |sol| ==> all[k] == ValidatePlan(dist, p, sol[k]);
  }

  /** `[t]` when trip `t` passes against `used`, nothing otherwise. */
  function Admitted(dist: Metric, p: Problem, h: Helicopter, t: Trip, used: real): seq<Trip>
    requires HomeInRange(p, h) && DropsInRange(p, t.drops)
  {
    if Keeps(dist, p, h, t, used) then [t] else []
  }

  /** Appending trip `t` to `trips` appends it to the surviving trips exactly
      when it passes against the distance of the trips kept before it. */
  predicate SnocFilters(dist: Metric, p: Problem, h: Helicopter, trips: seq<Trip>, t: Trip, used: real)
    requires HomeInRange(p, h) && AllInRange(p, trips + [t]) && AllInRange(p, trips) && DropsInRange(p, t.drops)
  {
    var kept := FilterTrips(dist, p, h, trips, used);
    FilterTrips(dist, p, h, trips + [t], used)
    == kept + Admitted(dist, p, h, t, used + TotalDistance(dist, p, Home(p, h), kept))
  }

  /** The pass decides each trip against the distance of the trips it kept
      before it: filtering a list with one more trip at the end keeps what
      it kept before and adds the new trip exactly when it passes. */
  lemma FilterSnoc(dist: Metric, p: Problem, h: Helicopter, trips: seq<Trip>, t: Trip, used: real)
    requires HomeInRange(p, h) && AllInRange(p, trips) && DropsInRange(p, t.drops)
    ensures AllInRange(p, trips + [t])
    ensures SnocFilters(dist, p, h, trips, t, used)
  {
    FilterSnocAll(dist, p, h, trips, t);
  }

  /** FilterSnoc for every starting total at once, so that the induction
      hypothesis covers the total the first trip leaves behind. */
  lemma {:induction false} FilterSnocAll(dist: Metric, p: Problem, h: Helicopter, trips: seq<Trip>, t: Trip)
    requires HomeInRange(p, h) && AllInRange(p, trips) && DropsInRange(p, t.drops)
    ensures AllInRange(p, trips + [t])
    ensures forall used :: SnocFilters(dist, p, h, trips, t, used)
    decreases |trips|
  {
    InRangeSnoc(p, trips, t);
    if |trips| == 0 {
      forall used ensures SnocFilters(dist, p, h, trips, t, used) {
        SnocEmpty(dist, p, h, t, used);
        assert trips == [];
      }
    } else {
      InRangeTail(p, trips);
      FilterSnocAll(dist, p, h, trips[1..], t);
      forall used ensures SnocFilters(dist, p, h, trips, t, used) {
        if Keeps(dist, p, h, trips[0], used) {
          SnocAfterKept(dist, p, h, trips, t, used);
        } else {
          SnocAfterSkipped(dist, p, h, trips, t, used);
        }
      }
    }
  }

  lemma SnocEmpty(dist: Metric, p: Problem, h: Helicopter, t: Trip, used: real)
    requires HomeInRange(p, h) && DropsInRange(p, t.drops)
    ensures AllInRange(p, [] + [t])
    ensures SnocFilters(dist, p, h, [], t, used)
  {
    var all := [] + [t];
    assert all[0] == t && all[1..] == [];
  }

  /** The step of FilterSnoc where the first trip is kept. */
  lemma SnocAfterKept(dist: Metric, p: Problem, h: Helicopter, trips: seq<Trip>, t: Trip, used: real)
    requires HomeInRange(p, h) && AllInRange(p, trips) && DropsInRange(p, t.drops) && |trips| > 0
    requires AllInRange(p, trips + [t]) && AllInRange(p, trips[1..] + [t])
    requires Keeps(dist, p, h, trips[0], used)
    requires SnocFilters(dist, p, h, trips[1..], t, used + TripDistance(dist, p, Home(p, h), trips[0].drops))
    ensures SnocFilters(dist, p, h, trips, t, used)
  {
    SnocConsKept(dist, p, h, trips, t, used);
    FilterKeptFirst(dist, p, h, trips, used);
    KeptAdmitted(dist, p, h, trips, t, used);
    SnocKept(trips[0], FilterTrips(dist, p, h, trips + [t], used), FilterTrips(dist, p, h, trips, used),
             FilterTrips(dist, p, h, trips[1..], used + TripDistance(dist, p, Home(p, h), trips[0].drops)),
             FilterTrips(dist, p, h, trips[1..] + [t], used + TripDistance(dist, p, Home(p, h), trips[0].drops)),
             Admitted(dist, p, h, t, used + TripDistance(dist, p, Home(p, h), trips[0].drops)
                                     + TotalDistance(dist, p, Home(p, h), FilterTrips(dist, p, h, trips[1..], used + TripDistance(dist, p, Home(p, h), trips[0].drops)))),
             Admitted(dist, p, h, t, used + TotalDistance(dist, p, Home(p, h), FilterTrips(dist, p, h, trips, used))));
  }

  /** When the first trip passes, it also heads the survivors of the list
      with one more trip at the end. */
  lemma SnocConsKept(dist: Metric, p: Problem, h: Helicopter, trips: seq<Trip>, t: Trip, used: real)
    requires HomeInRange(p, h) && AllInRange(p, trips) && DropsInRange(p, t.drops) && |trips| > 0
    requires Keeps(dist, p, h, trips[0], used)
    ensures AllInRange(p, trips + [t]) && AllInRange(p, trips[1..] + [t])
    ensures FilterTrips(dist, p, h, trips + [t], used)
            == [trips[0]] + FilterTrips(dist, p, h, trips[1..] + [t], used + TripDistance(dist, p, Home(p, h), trips[0].drops))
  {
    InRangeSnoc(p, trips, t);
    var all := trips + [t];
    assert all[0] == trips[0] && all[1..] == trips[1..] + [t];
    InRangeTail(p, all);
    FilterConsKept(dist, p, h, all, trips[0], trips[1..] + [t], used);
  }

  /** When the first trip passes, the new trip is judged against the same
      total whether counted over all kept trips or after the first one. */
  lemma KeptAdmitted(dist: Metric, p: Problem, h: Helicopter, trips: seq<Trip>, t: Trip, used: real)
    requires HomeInRange(p, h) && AllInRange(p, trips) && DropsInRange(p, t.drops) && |trips| > 0
    requires Keeps(dist, p, h, trips[0], used)
    ensures AllInRange(p, trips[1..])
    ensures Admitted(dist, p, h, t, used + TripDistance(dist, p, Home(p, h), trips[0].drops)
                                    + TotalDistance(dist, p, Home(p, h), FilterTrips(dist, p, h, trips[1..], used + TripDistance(dist, p, Home(p, h), trips[0].drops))))
            == Admitted(dist, p, h, t, used + TotalDistance(dist, p, Home(p, h), FilterTrips(dist, p, h, trips, used)))
  {
    KeptTotal(dist, p, h, trips, used);
  }

  /** When the first trip passes, the kept trips cover its distance plus
      that of the trips kept after it. */
  lemma KeptTotal(dist: Metric, p: Problem, h: Helicopter, trips: seq<Trip>, used: real)
    requires HomeInRange(p, h) && AllInRange(p, trips) && |trips| > 0
    requires Keeps(dist, p, h, trips[0], used)
    ensures AllInRange(p, trips[1..])
    ensures TotalDistance(dist, p, Home(p, h), FilterTrips(dist, p, h, trips, used))
            == TripDistance(dist, p, Home(p, h), trips[0].drops)
               + TotalDistance(dist, p, Home(p, h), FilterTrips(dist, p, h, trips[1..], used + TripDistance(dist, p, Home(p, h), trips[0].drops)))
  {
    FilterKeptFirst(dist, p, h, trips, used);
    var kept := [trips[0]] + FilterTrips(dist, p, h, trips[1..], used + TripDistance(dist, p, Home(p, h), trips[0].drops));
    assert kept[0] == trips[0] && kept[1..] == FilterTrips(dist, p, h, trips[1..], used + TripDistance(dist, p, Home(p, h), trips[0].drops));
  }

  /** The step of FilterSnoc where the first trip is dropped. */
  lemma SnocAfterSkipped(dist: Metric, p: Problem, h: Helicopter, trips: seq<Trip>, t: Trip, used: real)
    requires HomeInRange(p, h) && AllInRange(p, trips) && DropsInRange(p, t.drops) && |trips| > 0
    requires AllInRange(p, trips + [t]) && AllInRange(p, trips[1..] + [t])
    requires !Keeps(dist, p, h, trips[0], used)
    requires SnocFilters(dist, p, h, trips[1..], t, used)
    ensures SnocFilters(dist, p, h, trips, t, used)
  {
    SnocConsSkipped(dist, p, h, trips, t, used);
    FilterSkippedFirst(dist, p, h, trips, used);
    SnocSkipped(FilterTrips(dist, p, h, trips + [t], used), FilterTrips(dist, p, h, trips, used),
                FilterTrips(dist, p, h, trips[1..], used), FilterTrips(dist, p, h, trips[1..] + [t], used),
                Admitted(dist, p, h, t, used + TotalDistance(dist, p, Home(p, h), FilterTrips(dist, p, h, trips[1..], used))),
                Admitted(dist, p, h, t, used + TotalDistance(dist, p, Home(p, h), FilterTrips(dist, p, h, trips, used))));
  }

  /** When the first trip fails, it is also dropped from the list with one
      more trip at the end. */
  lemma SnocConsSkipped(dist: Metric, p: Problem, h: Helicopter, trips: seq<Trip>, t: Trip, used: real)
    requires HomeInRange(p, h) && AllInRange(p, trips) && DropsInRange(p, t.drops) && |trips| > 0
    requires !Keeps(dist, p, h, trips[0], used)
    ensures AllInRange(p, trips + [t]) && AllInRange(p, trips[1..] + [t])
    ensures FilterTrips(dist, p, h, trips + [t], used) == FilterTrips(dist, p, h, trips[1..] + [t], used)
  {
    InRangeSnoc(p, trips, t);
    var all := trips + [t];
    assert all[0] == trips[0] && all[1..] == trips[1..] + [t];
    InRangeTail(p, all);
    FilterConsSkipped(dist, p, h, all, trips[0], trips[1..] + [t], used);
  }

  lemma SnocKept(t0: Trip, whole: seq<Trip>, kept: seq<Trip>, rest: seq<Trip>, after: seq<Trip>, x: seq<Trip>, y: seq<Trip>)
    requires whole == [t0] + after
    requires kept == [t0] + rest
    requires after == rest + x
    requires x == y
    ensures whole == kept + y
  {
    assert whole == [t0] + (rest + x);
  }

  lemma SnocSkipped(whole: seq<Trip>, kept: seq<Trip>, rest: seq<Trip>, after: seq<Trip>, x: seq<Trip>, y: seq<Trip>)
    requires whole == after && kept == rest && after == rest + x && y == x
    ensures whole == kept + y
  {
  }

  /** One step of the filter when the first trip passes: it is kept in
      front of the rest, filtered from the distance it adds. */
  lemma FilterConsKept(dist: Metric, p: Problem, h: Helicopter, trips: seq<Trip>, head: Trip, tail: seq<Trip>, used: real)
    requires HomeInRange(p, h) && AllInRange(p, trips) && |trips| > 0
    requires trips[0] == head && trips[1..] == tail && DropsInRange(p, head.drops) && AllInRange(p, tail)
    requires Keeps(dist, p, h, head, used)
    ensures FilterTrips(dist, p, h, trips, used)
            == [head] + FilterTrips(dist, p, h, tail, used + TripDistance(dist, p, Home(p, h), head.drops))
  {
  }

  lemma FilterKeptFirst(dist: Metric, p: Problem, h: Helicopter, trips: seq<Trip>, used: real)
    requires HomeInRange(p, h) && AllInRange(p, trips) && |trips| > 0
    requires Keeps(dist, p, h, trips[0], used)
    ensures AllInRange(p, trips[1..])
    ensures FilterTrips(dist, p, h, trips, used)
            == [trips[0]] + FilterTrips(dist, p, h, trips[1..], used + TripDistance(dist, p, Home(p, h), trips[0].drops))
  {
    InRangeTail(p, trips);
  }

  /** One step of the filter when the first trip fails: it is dropped. */
  lemma FilterConsSkipped(dist: Metric, p: Problem, h: Helicopter, trips: seq<Trip>, head: Trip, tail: seq<Trip>, used: real)
    requires HomeInRange(p, h) && AllInRange(p, trips) && |trips| > 0
    requires trips[0] == head && trips[1..] == tail && DropsInRange(p, head.drops) && AllInRange(p, tail)
    requires !Keeps(dist, p, h, head, used)
    ensures FilterTrips(dist, p, h, trips, used) == FilterTrips(dist, p, h, tail, used)
  {
  }

  lemma FilterSkippedFirst(dist: Metric, p: Problem, h: Helicopter, trips: seq<Trip>, used: real)
    requires HomeInRange(p, h) && AllInRange(p, trips) && |trips| > 0
    requires !Keeps(dist, p, h, trips[0], used)
    ensures AllInRange(p, trips[1..])
    ensures FilterTrips(dist, p, h, trips, used) == FilterTrips(dist, p, h, trips[1..], used)
  {
    InRangeTail(p, trips);
  }

  lemma InRangeTail(p: Problem, trips: seq<Trip>)
    requires AllInRange(p, trips) && |trips| > 0
    ensures DropsInRange(p, trips[0].drops) && AllInRange(p, trips[1..])
  {
    assert forall k :: 0 <= k < |trips[1..]| ==> trips[1..][k] == trips[k + 1];
  }

  lemma InRangeSnoc(p: Problem, trips: seq<Trip>, t: Trip)
    requires AllInRange(p, trips) && DropsInRange(p, t.drops)
    ensures AllInRange(p, trips + [t])
    ensures |trips| > 0 ==> AllInRange(p, trips[1..] + [t])
  {
    var all := trips + [t];
    assert forall k :: 0 <= k < |trips| ==> all[k] == trips[k];
    assert all[|trips|] == t;
  }

  /** A plan whose references are valid and whose trips all pass, in order. */
  predicate PlanFeasible(dist: Metric, p: Problem, plan: Plan) {
    PlanRefsOk(p, plan) && Feasible(dist, p, p.helicopters[plan.helicopter - 1], plan.trips, 0.0)
  }

  lemma PlanKept(dist: Metric, p: Problem, plan: Plan)
    requires PlanFeasible(dist, p, plan)
    ensures ValidatePlan(dist, p, plan) == plan
  {
    FeasibleKept(dist, p, p.helicopters[plan.helicopter - 1], plan.trips, 0.0);
  }

  /** When every trip of every plan already passes, the pass only removes
      the plans that have no trip at all. */
  lemma {:induction false} FeasiblePlansKept(dist: Metric, p: Problem, sol: Solution)
    requires forall k :: 0 <= k < |sol| ==> PlanFeasible(dist, p, sol[k])
    ensures RefsOk(p, sol)
    ensures ValidateSolution(dist, p, sol) == NonEmptyPlans(sol)
    decreases |sol|
  {
    if |sol| > 0 {
      var plan := sol[0];
      var tail := sol[1..];
      assert PlanFeasible(dist, p, plan);
      assert forall k :: 0 <= k < |tail| ==> PlanFeasible(dist, p, tail[k]) by {
        forall k | 0 <= k < |tail| ensures PlanFeasible(dist, p, tail[k]) {
          assert tail[k] == sol[k + 1];
        }
      }
      PlanKept(dist, p, plan);
      FeasiblePlansKept(dist, p, tail);
      assert RefsOk(p, sol);
      if |plan.trips| > 0 {
        assert ValidateSolution(dist, p, sol) == [plan] + ValidateSolution(dist, p, tail);
        assert NonEmptyPlans(sol) == [plan] + NonEmptyPlans(tail);
      } else {
        assert ValidateSolution(dist, p, sol) == ValidateSolution(dist, p, tail);
        assert NonEmptyPlans(sol) == NonEmptyPlans(tail);
      }
    }
  }
}

=== FILE: value.dfy ===
/** The value of one delivery to a village (calculateVillageValue): food is
    capped jointly at nine units per inhabitant, perishable units fill the cap
    before dry ones, other supplies are capped at one unit per inhabitant. */
module Value {
  import opened Types

  /** Units of each kind that earn value. */
  datatype Counted = Counted(dry: int, perishable: int, other: int)

  /** The units of a delivery of `dry`, `perishable` and `other` units to a
      village of `population` inhabitants that are worth anything. */
  function CountedUnits(population: int, dry: int, perishable: int, other: int): (c: Counted)
    // whatever the inputs, nothing beyond the caps is counted
    ensures c.dry + c.perishable <= Max(0, Min(dry + perishable, 9 * population))
    ensures c.other <= other && c.other <= population
    // for a real delivery, food is counted up to the cap, perishable first
    ensures 0 <= dry && 0 <= perishable && 0 <= population ==>
              && c.dry + c.perishable == Min(dry + perishable, 9 * population)
              && 0 <= c.perishable <= perishable
              && 0 <= c.dry <= dry
              && (c.dry > 0 ==> c.perishable == perishable)
    // other supplies beyond the population add nothing
    ensures 0 <= other && 0 <= population ==>
              && 0 <= c.other
              && (other <= population ==> c.other == other)
              && (other >= population ==> c.other == population)
  {
    var effectiveFood := Min(dry + perishable, 9 * population);
    var effectiveOther := Min(other, population);
    if effectiveFood > 0 then
      var effectivePerishable := Min(perishable, effectiveFood);
      Counted(Min(dry, effectiveFood - effectivePerishable), effectivePerishable, effectiveOther)
    else
      Counted(0, 0, effectiveOther)
  }

  /** Worth of counted units at the packages' unit values. */
  function Worth(c: Counted, pk: Packages): real {
    c.perishable as real * pk.perishable.value
    + c.dry as real * pk.dry.value
    + c.other as real * pk.other.value
  }

  /** calculateVillageValue: the value of delivering the given units to `v`. */
  function VillageValue(v: Village, dry: int, perishable: int, other: int, pk: Packages): real {
    Worth(CountedUnits(v.population, dry, perishable, other), pk)
  }

  /** Marginal value of one more dry unit: its unit value below the food cap,
      nothing once the cap is reached. */
  lemma MarginalDry(v: Village, dry: int, perishable: int, other: int, pk: Packages)
    requires 0 <= dry && 0 <= perishable && 0 <= v.population
    ensures dry + perishable < 9 * v.population ==>
              VillageValue(v, dry + 1, perishable, other, pk) == VillageValue(v, dry, perishable, other, pk) + pk.dry.value
    ensures dry + perishable >= 9 * v.population ==>
              VillageValue(v, dry + 1, perishable, other, pk) == VillageValue(v, dry, perishable, other, pk)
  {
    var c0 := CountedUnits(v.population, dry, perishable, other);
    var c1 := CountedUnits(v.population, dry + 1, perishable, other);
    if dry + perishable < 9 * v.population {
      assert c1 == Counted(c0.dry + 1, c0.perishable, c0.other);
    } else {
      assert c1 == c0;
    }
  }

  /** Marginal value of one more perishable unit: its unit value below the
      food cap; at the cap it displaces one counted dry unit while any is
      counted; nothing once perishable units alone fill the cap. */
  lemma MarginalPerishable(v: Village, dry: int, perishable: int, other: int, pk: Packages)
    requires 0 <= dry && 0 <= perishable && 0 <= v.population
    ensures dry + perishable < 9 * v.population ==>
              VillageValue(v, dry, perishable + 1, other, pk)
              == VillageValue(v, dry, perishable, other, pk) + pk.perishable.value
    ensures perishable < 9 * v.population <= dry + perishable ==>
              VillageValue(v, dry, perishable + 1, other, pk)
              == VillageValue(v, dry, perishable, other, pk) + pk.perishable.value - pk.dry.value
    ensures 9 * v.population <= perishable ==>
              VillageValue(v, dry, perishable + 1, other, pk) == VillageValue(v, dry, perishable, other, pk)
  {
    var c0 := CountedUnits(v.population, dry, perishable, other);
    var c1 := CountedUnits(v.population, dry, perishable + 1, other);
    if dry + perishable < 9 * v.population {
      assert c1 == Counted(c0.dry, c0.perishable + 1, c0.other);
    } else if perishable < 9 * v.population {
      assert c1 == Counted(c0.dry - 1, c0.perishable + 1, c0.other);
    } else {
      assert c1 == c0;
    }
  }

  /** Marginal value of one more other-supply unit: its unit value below the
      population, nothing beyond it. */
  lemma MarginalOther(v: Village, dry: int, perishable: int, other: int, pk: Packages)
    requires 0 <= other && 0 <= v.population
    ensures other < v.population ==>
              VillageValue(v, dry, perishable, other + 1, pk) == VillageValue(v, dry, perishable, other, pk) + pk.other.value
    ensures other >= v.population ==>
              VillageValue(v, dry, perishable, other + 1, pk) == VillageValue(v, dry, perishable, other, pk)
  {
    var c0 := CountedUnits(v.population, dry, perishable, other);
    var c1 := CountedUnits(v.population, dry, perishable, other + 1);
    if other < v.population {
      assert c1 == Counted(c0.dry, c0.perishable, c0.other + 1);
    } else {
      assert c1 == c0;
    }
  }
}
